=== FILE: README.md ===
# Document tracking: a verified model of the access-control and workflow core

This project models the decision logic of a document tracking system in Dafny and proves
properties of the model. In the system, users in seven roles own, share, assign, forward, close
and export documents. Every document carries an append-only history of events. A role table
decides who may create whom, and the login path locks an account after five wrong passwords.

The model covers:

- **Records** (`model.dfy`, `roles.dfy`). Users, documents, history events, version snapshots and
  access-list entries follow the two schemas. This includes their enumerations, their defaults
  and the unique indexes on user id and name, document id, `docRef` and `docRefShort`.
- **Role tables** (`roles.dfy`, `client_roles.dfy`). These are the server's creatable-roles table,
  the privileged peer group, the client's copy of the table and the create-user form's role
  selection.
- **Document engine** (`documents.dfy`, `listing.dfy`, `sorting.dfy`, `export.dfy`, `bulk.dfy`,
  `docref.dfy`):
  - the listing query, with its filters, the visibility rule and the pagination arithmetic;
  - creation, with `DOC-nnnnnn` short references taken from a counter;
  - view and delete authorisation;
  - the update that turns a patch into field changes, a version snapshot and history events;
  - forwarding;
  - the bulk loop with per-item results;
  - the CSV export.
- **Accounts** (`auth.dfy`, `users.dfy`). These are the `register` and `createUser` permission
  checks, the login lockout state machine, and user listing, viewing, editing and deletion.
- **Backfill pass** (`backfill.dfy`). The administrative repair pass fills missing document
  references, short references, event ids and performer names.
- **Client logic** (`doc_reducer.dfy`, `auth_reducer.dfy`, `api_base.dfy`). These are the document
  list reducer with its in-memory filter, the authentication reducer together with the browser's
  stored token, and the normalisation of the configured API base address.

The collections are sequences in storage order. Operations are pure functions that return the
new collection together with a `Result`. A `Result` is a value or one of the HTTP-level errors:
bad request (400), unauthorised (401), forbidden (403), not found (404) or server error (500).
Whatever the code gets from outside becomes a parameter:

- the clock is a `now: int` in milliseconds;
- random ids come from a `rand: nat -> string` oracle with a nonce;
- password hashing is a `hash` function and password comparison is a boolean;
- the presence of the JWT secret is a boolean;
- whether the counter could be advanced is a boolean;
- ISO date formatting and JSON serialisation are functions.

Regular expressions that the code compiles from user text are modelled as case-insensitive
literal substring search.

## Behaviour modelled as written

Several behaviours of the code differ from what its own comments and dead branches suggest it
was meant to do. The model follows the code, and a lemma pins down each behaviour:

- **No closing message is needed.** `updateDocument` assigns the new status at
  `backend/controllers/documents.js:292`. The later check for a closing message compares that
  same field against "Closed" and can therefore never fire. Closing through an update needs no
  message and never sets `closedMessage`, `closedAt` or `closedBy`
  (`Documents.ClosingNeverFires`, `Documents.CloseWithoutMessageAccepted`). The "Closed" event
  that the closing branch would push after the "Status Change" event is therefore never recorded.
- **Free text is ignored for non-admins.** The listing builds the free-text `$or` and then
  replaces it with the visibility `$or` for everyone but an admin. A non-admin's text search has
  no effect (`Listing.TextIgnoredForNonAdmins`), while an admin's text search works
  (`Listing.AdminTextSearch`).
- **The assignee may be refused a view.** Viewing a document by id does not admit its assignee,
  although the listing shows the document to them (`Documents.AssigneeMayBeRefused`).
- **Ownership is compared by id.** The ownership check in `getDocumentById` calls `toString()`
  on a populated owner. The model compares ids.
- **Not every mutation adds history.** An update that changes nothing appends no event
  (`Documents.UnchangedUpdateRecordsNothing`), and deletion appends none.
- **Statuses follow the schema.** The code stores six statuses: Draft, Pending Approval,
  Approved, Rejected, Open and Closed. Creation sets "Open". An update accepts any status string
  and fails validation on one outside the enumeration.
- **The page limit has no lower clamp.** The limit is capped at 100, but a negative limit
  passes through (`Listing.PageLimit`).
- **Bulk authorisation is wider than delete's.** The bulk loop authorises the owner, an admin, an
  access-list editor or the assignee for every action, deletion included. An assignee can
  therefore bulk-delete a document that they could not delete alone
  (`Bulk.BulkDeleteWiderThanDelete`).
- **A failed save still uses up a short reference.** Creation advances the short-reference
  counter before the document is saved. A failed save leaves the counter advanced
  (`Documents.CreateDocument`).
- **Only the title is quote-escaped.** The CSV export doubles quotes in the title only. The other
  fields are quoted without escaping (`Export.Cells`).
- **The user-update audit shows no change.** `updateUser` takes its "before" snapshot after
  changing the record, so before and after always agree (`UserAdmin.UpdateUser`).
- **Part of `register` is unreachable.** `register` returns before its audit block, so that block
  is never reached and is not modelled.
- **An expired lock re-locks at once.** The failure counter is reset only by a successful login.
  After a lock expires, one more wrong password locks the account again
  (`Auth.RelockAfterExpiry`).
- **A missing token is stored as text.** A login success whose payload has no token stores the
  text "undefined" in browser storage (`AuthReducer.TokenlessSuccessDesyncs`).
- **One slash strip does nothing.** The client's single trailing-slash strip after adding the
  scheme never has a slash to remove (`ApiBase.TrailingStripIsNoOp`).
- **A metadata pair without a colon throws.** In the client filter, a metadata pair without a
  colon makes the filter throw once a document has that key
  (`DocumentReducer.PairWithoutValueThrows`). A document without an owner matches the owner
  filter "null", because the code compares `String(null)`.

## Model

| member | source | states |
|---|---|---|
| Roles.ParseRole | backend/models/User.js:7-11 | A role name is accepted exactly when it is one of the seven enumerated names, and it reads back as that name |
| Roles.CreatableRoles | backend/config/roles.js:2-10 | Every role has an entry; technical-admin may create every role; admin exactly the roles below admin; manager, ceo and hr exactly employee and user; employee only user; user nothing; nobody but technical-admin creates its own rank or above |
| Roles.TechnicalAdminListsEveryRole | backend/config/roles.js:3 | The technical-admin entry names every role of the enumeration |
| Roles.MayCreateIff | backend/controllers/auth.js:204-213 | The `includes` check on a requested role name succeeds exactly when the name parses to a role in the requester's table entry; names outside the enumeration never pass |
| Roles.CreatorsOfPeersArePeers | backend/config/roles.js:2-10 | Any role able to create a member of the privileged group is itself in that group |
| ClientRoles.TablesAgree | frontend/src/utils/roles.js:1-9 | The client's `roleAllowances` equals the server's `rolePermissions` entry for entry |
| ClientRoles.AllowedRoles | frontend/src/components/admin/CreateUserForm.jsx:18 | Without a user the list is empty; otherwise it is exactly the list the server enforces for that role |
| ClientRoles.RoleOptions | frontend/src/components/admin/CreateUserForm.jsx:51-53 | The dropdown offers exactly the allowed role names, in table order |
| ClientRoles.ShowCreateIff | frontend/src/components/admin/CreateUserForm.jsx:43 | The creation form and the "New User" action are shown exactly when a user is signed in whose role is not `user` |
| ClientRoles.SyncSelectedRole | frontend/src/components/admin/CreateUserForm.jsx:21-25 | A selection outside a non-empty allowed list becomes the first allowed role; an allowed selection, or any selection when the list is empty, stays |
| ClientRoles.SubmittedRoleAccepted | frontend/src/components/admin/CreateUserForm.jsx:21-33 | Once the form is shown, whatever was selected, the role it submits passes the server's `createUser` permission check |
| Model.NewUser | backend/models/User.js:5-18 | A new record carries the given fields, zero failed attempts, and no lock or reset fields |
| Model.FindUser | backend/models/User.js:4-19 | A lookup by id returns a stored record with that id, or none when no record has it |
| Model.FindByUsername | backend/models/User.js:5 | A lookup by username returns a stored record with that name, or none when no record has it |
| Model.SaveUser | backend/models/User.js:4-19 | Re-saving replaces the record with the same id and leaves every other record and the length alone |
| Model.AddUser | backend/models/User.js:5-6 | Inserting succeeds exactly when username and password are present and neither the id nor the username is taken; it appends, and otherwise fails with a server error |
| Model.RemoveUser | backend/models/User.js:4-19 | Deleting by id drops that record only; every other record stays |
| Model.AddUserKeepsInvariant | backend/models/User.js:5 | A successful insertion keeps ids and usernames unique and every record valid |
| Model.RemoveUserKeepsInvariant | backend/models/User.js:5 | After deletion no record has the id, and the uniqueness invariant still holds |
| Model.SaveUserKeepsInvariant | backend/models/User.js:5 | Re-saving a valid record under its own id and username keeps the invariant |
| Model.ParseStatus | backend/models/Document.js:27 | A status name is accepted exactly when it is one of the six enumerated names, and it reads back as that name |
| Model.ParseCapability | backend/models/Document.js:33 | An access-list role is accepted exactly when it is "viewer" or "editor", and it reads back as that name |
| Model.FindDoc | backend/models/Document.js:4-41 | A lookup by id returns a stored document with that id, or none when no document has it |
| Model.SaveExisting | backend/models/Document.js:4-41 | Re-saving replaces the document with that id and leaves every other document and the length alone |
| Model.RemoveDoc | backend/models/Document.js:4-41 | After removal exactly the documents with other ids remain, in their storage order |
| Model.SaveNew | backend/models/Document.js:5-8 | Inserting succeeds exactly when title, content and every event action are present and no id, `docRef` or `docRefShort` is taken (documents lacking a reference field do not clash on it); it appends |
| Model.SaveNewKeepsInvariant | backend/models/Document.js:7-8 | A successful insertion keeps the unique and sparse-unique indexes and schema validity |
| Model.SaveExistingKeepsInvariant | backend/models/Document.js:7-8 | Re-saving a valid document that keeps its reference fields keeps the indexes unique |
| Model.RemoveKeepsInvariant | backend/models/Document.js:7-8 | Removal keeps the store invariant |
| Text.TrimEmptyIffAllSpace | backend/controllers/documents.js:300 | Trimming yields the empty string exactly when the input is all white space |
| Text.JoinSplit | backend/controllers/documents.js:139 | Splitting on a one-character separator and joining again gives back the original text |
| Text.SplitJoin | backend/controllers/documents.js:139 | Joining separator-free pieces and splitting again gives back the pieces |
| Text.PadZerosValue | backend/controllers/documents.js:164 | Left zero padding of a decimal numeral never changes the number it denotes |
| DocRef.GenerateId | backend/controllers/documents.js:18-27 | A generated id starts with its prefix and a dash and carries the whole random part |
| DocRef.FormatShortRef | backend/controllers/documents.js:164 | A short reference is "DOC-" followed by only digits, at least six of them, never cut short |
| DocRef.ShortRefRoundTrip | backend/controllers/documents.js:164 | Reading a formatted short reference back gives the counter value |
| DocRef.ShortRefInjective | backend/controllers/documents.js:164 | Distinct counter values give distinct short references |
| DocRef.ShortRefLength | backend/controllers/documents.js:164 | Below a million a short reference is exactly ten characters long |
| DocRef.FirstShortRefs | backend/controllers/documents.js:152-164 | A fresh counter yields "DOC-000001" and then "DOC-000002" |
| Documents.EventBy | backend/controllers/documents.js:285-291 | An event records its action, the acting user, the time and a fresh "EVT-" id |
| Documents.SaveChecked | backend/controllers/documents.js:360 | Saving succeeds exactly when the document passes schema validation, and then replaces the stored version; otherwise it is a server error |
| Documents.FindAfterSave | backend/controllers/documents.js:360 | After a save, a lookup by id finds the saved version |
| Documents.SaveLeavesOthers | backend/controllers/documents.js:360 | A save leaves every other document in the collection |
| Documents.TagsArray | backend/controllers/documents.js:265-268 | A tag list is kept; a non-empty tag string is split on commas and each piece trimmed; no tags give the empty list |
| Documents.NextShortRef | backend/controllers/documents.js:161-167 | The short reference always starts with "DOC-"; when the counter advances it reads back as the next counter value |
| Documents.CreateDocument | backend/controllers/documents.js:128-202 | A missing title or content is a 400 that changes nothing; otherwise the counter advances when it can, and a saved document is appended with owner = actor, status Open, a random `docRef`, the minted short reference, exactly one "Created" event by the actor, and no closing fields |
| Documents.CreateKeepsInvariant | backend/controllers/documents.js:169-190 | A creation keeps the unique indexes and schema validity of the collection |
| Documents.CreateSucceedsOnFreshKeys | backend/controllers/documents.js:169-190 | A valid request whose id, `docRef` and short reference are unused is always saved |
| Documents.ConsecutiveShortRefs | backend/controllers/documents.js:151-167 | Two creations from a fresh counter get "DOC-000001" and "DOC-000002" and leave the counter at 2 |
| Documents.GetDocumentById | backend/controllers/documents.js:204-237 | A missing document is 404; with a resolvable owner the document is returned exactly when the actor is owner, admin, on the access list with either capability, or both actor and owner are in the privileged group; anything returned is visible in the listing too |
| Documents.AssigneeMayBeRefused | backend/controllers/documents.js:216-227 | An assignee outside the privileged group and not otherwise entitled sees the document in the listing but is refused with 401 when opening it |
| Documents.ClosingNeverFires | backend/controllers/documents.js:284-302 | The closing branch can never run: whenever "Closed" is requested the status step has already set it |
| Documents.ReviseEventsActions | backend/controllers/documents.js:283-352 | The events an update appends carry exactly the actions status change, access-list change, reassignment, edit, each when its condition holds, in that order |
| Documents.ActionsOfFive | backend/controllers/documents.js:283-352 | With the closing event switched off, the appended actions are the remaining four conditional actions in order |
| Documents.SnapshotTakenIffDue | backend/controllers/documents.js:271-273 | Comparing the sorted tag lists is comparing the tags as multisets |
| Documents.ReviseFails | backend/controllers/documents.js:284-360 | An authorised update fails exactly when the requested status is outside the enumeration, and then with a server error |
| Documents.ReviseFields | backend/controllers/documents.js:284-358 | An update keeps id, owner and references, takes the requested title and content, sets the requested status when one is given, and never touches the closing fields |
| Documents.ReviseHistory | backend/controllers/documents.js:270-358 | History keeps its prefix and grows by exactly the listed actions; the version history grows by one snapshot exactly when title, content, tags (as a multiset) or metadata change; the tags are saved sorted |
| Documents.ReviseValid | backend/controllers/documents.js:283-360 | With title and content present, the revised document passes validation exactly when the stored history did |
| Documents.ReviseEventsValid | backend/controllers/documents.js:283-352 | Every event an update appends has an action |
| Documents.Revise | backend/controllers/documents.js:284-358 | A successful update stores the requested metadata (empty when left out), the requested access list (kept when left out) and the requested assignee (kept when left out), and changes no field outside those the update writes: id, owner, references and creation time are kept |
| Documents.HistoryValidAppend | backend/models/Document.js:19-20 | Appending events that all have actions keeps a history valid exactly when it was |
| Documents.UpdateDocument | backend/controllers/documents.js:239-375 | A missing title or content is 400; a missing document 404; anyone but owner, admin or editor 401; an authorised update is a server error exactly when the status is unknown or the stored history is invalid; the update succeeds exactly when title and content are given, the document exists, the requester is owner, admin or editor, the status is absent or known and the stored history is valid; a success saves the revised document in place |
| Documents.UpdateAppendsOnly | backend/controllers/documents.js:283-358 | A successful update keeps the earlier history, appends exactly the listed actions, leaves the closing fields alone and saves the tags sorted as a permutation of the request's |
| Documents.UpdateKeepsInvariant | backend/controllers/documents.js:354-360 | A successful update keeps the unique indexes and schema validity of the collection |
| Documents.UnchangedUpdateRecordsNothing | backend/controllers/documents.js:283-352 | Repeating the stored title and content without status, access list or assignee records no event |
| Documents.CloseWithoutMessageAccepted | backend/controllers/documents.js:284-314 | Closing without a message is accepted: the status becomes Closed, one "Status Change" event is recorded, and no closing message is stored |
| Documents.DeleteDocument | backend/controllers/documents.js:377-408 | A missing document is 404; deletion succeeds exactly for owner or admin, otherwise 401, and then removes exactly that document |
| Documents.DeletedIsGone | backend/controllers/documents.js:393 | After a deletion, opening the document by id is 404 for everyone |
| Documents.EntriesFor | backend/controllers/documents.js:426 | The count of access entries for a user is zero exactly when no entry names them |
| Documents.EntriesForAppend | backend/controllers/documents.js:428 | Appending an entry raises the count only for the user it names |
| Documents.ForwardDocument | backend/controllers/documents.js:410-455 | A missing document is 404; anyone but owner, admin or assignee gets 403; a recipient without an entry and a role other than "viewer" or "editor" fails validation with a server error; otherwise the save succeeds exactly when the document is schema-valid, and the saved document has the recipient's entry with the requested capability (default viewer) appended only if they had none and the access list otherwise unchanged, the recipient as assignee under their username, exactly one "Forwarded" event by the requester appended, and every other field kept |
| Documents.RequestedCapability | backend/controllers/documents.js:411 | A forward without a role asks for viewer, and an accepted role reads back as the name sent |
| Documents.Forwarded | backend/controllers/documents.js:425-446 | The forwarded document's access list gains the recipient's entry (requested capability, viewer by default) only when they have none, other users' entries are unchanged, the recipient becomes assignee under their username, one "Forwarded" event by the requester is appended, nothing else changes, and schema validity is kept |
| Documents.ForwardTwice | backend/controllers/documents.js:425-446 | Forwarding twice to the same new recipient leaves one access entry and appends two "Forwarded" events |
| Documents.ForwardGrantsView | backend/controllers/documents.js:425-429 | After a forward the recipient may open the document by id |
| Listing.Select | backend/controllers/documents.js:107-109 | The selection holds exactly the stored documents that satisfy the query, each as many times as it is stored, as a subsequence of the collection (storage order) |
| Listing.ScopeIsVisibility | backend/controllers/documents.js:73-100 | Once scoped, a query selects a document exactly when its field conditions hold and, for a non-admin, the document is visible: owned, on the access list, assigned, or (for a privileged requester) owned by a privileged user; an admin's query is unchanged |
| Listing.OptionalText | backend/controllers/documents.js:39-49 | An absent (empty) parameter adds no condition; a present one adds itself |
| Listing.MetadataConditions | backend/controllers/documents.js:56-65 | Every constrained key is non-empty |
| Listing.ItemCondition | backend/controllers/documents.js:59-61 | An item yields a condition only with a non-empty key |
| Listing.ConditionKeyAt | backend/controllers/documents.js:58-62 | After the `forEach`, a key is constrained exactly when some item set it |
| Listing.ConditionLastWins | backend/controllers/documents.js:58-62 | After the `forEach`, a key holds the value of the last item that set it |
| Listing.ConditionKeysNamed | backend/controllers/documents.js:58-62 | When every condition names a non-empty key, every constrained key is non-empty |
| Listing.MetadataKeys | backend/controllers/documents.js:56-65 | A key of the `metadata` parameter is constrained exactly when some item names it with a non-empty value |
| Listing.MetadataLastWins | backend/controllers/documents.js:56-65 | A constrained key carries the trimmed value of the last item naming it, later items overriding earlier ones |
| Listing.PageNumber | backend/controllers/documents.js:103 | The page is the parsed value, or 1 when it is missing or zero; it is never zero |
| Listing.PageLimit | backend/controllers/documents.js:104 | The limit is the parsed value or 20 when missing or zero, capped at 100, with no lower clamp |
| Listing.CeilDiv | backend/controllers/documents.js:121 | For a positive limit the page count is the least number of pages covering the total |
| Listing.Paginate | backend/controllers/documents.js:105-116 | A negative skip is refused; otherwise the page is the run of items starting at the skip, as long as the limit allows and the items last |
| Listing.GetDocuments | backend/controllers/documents.js:29-126 | The page number is echoed; `total` counts every match before skipping; `totalPages` is the ceiling of total over limit; the page holds as many documents as remain after the skip, up to the limit, each a matching stored document, newest first; it is the run at the skip of some newest-first arrangement of all matches |
| Listing.NewestFirstIsPreorder | backend/controllers/documents.js:117 | Newest-first is a total, transitive order |
| Listing.SortedPage | backend/controllers/documents.js:114-117 | A page cut from the sorted matches is refused only for a negative skip, holds as many items as remain after the skip up to the limit, only matches, still sorted |
| Listing.SortedPageRun | backend/controllers/documents.js:114-117 | The page is the run at the skip of a sorted permutation of the matches |
| Listing.PageOfSorted | backend/controllers/documents.js:114-117 | A page of any permutation that is sorted holds only original items, sorted |
| Listing.SliceSorted | backend/controllers/documents.js:115-116 | A run of consecutive items of a sorted sequence is sorted and drawn from it |
| Listing.ListedIffVisible | backend/controllers/documents.js:73-100 | Without filters a document is counted in a listing exactly when it is visible to the requester |
| Listing.TextIgnoredForNonAdmins | backend/controllers/documents.js:67-98 | For every non-admin the free-text parameter has no effect on the listing at all |
| Listing.AdminTextSearch | backend/controllers/documents.js:67-71 | For an admin the text search selects documents whose title or content contains the trimmed text, case-insensitively |
| Listing.OthersDocumentsHidden | backend/controllers/documents.js:90-98 | A requester outside the privileged group never sees a document they do not own, are not on the access list of and are not assigned, whatever the filters |
| Listing.SelectAll | backend/controllers/documents.js:107 | A query every document satisfies selects the whole collection |
| Listing.SecondPageOfTwentyFive | backend/tests/documents.test.js:44-50 | Twenty-five documents, page 2 of 10, give ten documents, total 25 and three pages |
| Sorting.InsertBy | backend/controllers/documents.js:272 | Insertion adds exactly one element and keeps the others |
| Sorting.SortBy | backend/controllers/documents.js:272 | Sorting returns a permutation of its input |
| Sorting.SortBySorted | backend/controllers/documents.js:272 | Under a total, transitive order the sorted copy is sorted |
| Sorting.SortedPermutationsEqual | backend/controllers/documents.js:272 | Under an antisymmetric order two sorted permutations of the same elements are equal |
| Sorting.LexLeIsTotalOrder | backend/controllers/users.js:37 | Code point order on strings, the order of the UTF-8 bytes the database compares, is total, transitive and antisymmetric |
| Sorting.Utf16 | backend/controllers/documents.js:272 | A character below U+10000 is one code unit equal to itself; any other is a high surrogate followed by a low surrogate |
| Sorting.PairCombines | backend/controllers/documents.js:272 | A character's surrogate pair combines back into that character |
| Sorting.Utf16RoundTrip | backend/controllers/documents.js:272 | Reading back the UTF-16 form of a string gives the string, so distinct strings have distinct code-unit sequences |
| Sorting.CodeUnitLeIsTotalOrder | backend/controllers/documents.js:272 | Code-unit order on strings is total, transitive and antisymmetric |
| Sorting.BmpUnitsAreCodePoints | backend/controllers/documents.js:272 | A string without characters at or above U+10000 has its code points as its UTF-16 form |
| Sorting.OrdersAgreeBelowAstral | backend/controllers/documents.js:272 | On such strings tag order and username order agree |
| Sorting.OrdersDisagreeAboveBmp | backend/controllers/documents.js:272 | U+10000 sorts before U+E000 by code unit but after it by code point |
| Sorting.SortStrings | backend/controllers/documents.js:272 | Sorting strings returns a permutation sorted by UTF-16 code units, the comparison `Array.prototype.sort()` uses by default |
| Sorting.SortStringsEqualIff | backend/controllers/documents.js:272 | Two tag lists sort to the same list exactly when they hold the same tags with the same multiplicities |
| Export.ExportQuery | backend/controllers/documents.js:460-472 | An id list replaces every filter; without ids each given filter adds its condition, the short reference matched exactly; there is never a text or metadata condition |
| Export.ExportedDocuments | backend/controllers/documents.js:474-487 | The exported documents keep their storage order, and a document is exported exactly when it is stored, matches the ids or filters, and is visible to the requester under the listing's rule |
| Export.FiltersHold | backend/controllers/documents.js:466-471 | Without ids the field conditions are exactly: equal status name, owner, assignee and short reference for each filter sent, and a tag containing one of the trimmed comma-separated tag patterns |
| Export.FiltersSelectExport | backend/controllers/documents.js:462-487 | Without ids a document is exported exactly when it is stored, visible to the requester and passes every filter sent |
| Export.IdsOverrideFilters | backend/controllers/documents.js:463-465 | With a non-empty id list the filters make no difference |
| Export.Quote | backend/controllers/documents.js:495-504 | A quoted cell is the text between two double quotes |
| Export.DoubleQuotes | backend/controllers/documents.js:497 | A title without double quotes is unchanged; doubling never shortens a title and lengthens any title holding a quote |
| Export.UndoubleDoubled | backend/controllers/documents.js:497 | Undoing the quote doubling gives back the title, as section 2 rule 7 of RFC 4180 reads it |
| Export.DoubleQuotesNoNewline | backend/controllers/documents.js:497 | Doubling quotes introduces no line break |
| Export.Cells | backend/controllers/documents.js:494-505 | Ten cells in header order: short reference and `docRef` or "", the quote-doubled title, the owner's and assignee's usernames, the status, the two ISO times, the tags joined by ";" and the metadata JSON, only the title escaped |
| Export.MetadataQuotesNotDoubled | backend/controllers/documents.js:497-504 | Metadata JSON holding a double quote enters its cell without the doubling the title gets |
| Export.QuoteAll | backend/controllers/documents.js:494-505 | Every cell is quoted, in order |
| Export.CsvRows | backend/controllers/documents.js:493-507 | One line per exported document, in order |
| Export.ExportCsv | backend/controllers/documents.js:489-509 | The body is the header alone when nothing is exported, and otherwise the header, a line break and the exported documents' rows in order, separated by line breaks |
| Export.ExportLines | backend/controllers/documents.js:489-509 | When no row holds a line break, the body splits into the header followed by exactly one line per exported document, in order |
| Export.CsvLines | backend/controllers/documents.js:490-509 | The header and the rows joined with line breaks split back into the header and the rows |
| Export.MappedLines | backend/controllers/documents.js:506-509 | A first line and one line per item, none holding a line break, split back into those lines |
| Export.HeaderOneLine | backend/controllers/documents.js:491-492 | The header holds no line break |
| Export.FirstThenLines | backend/controllers/documents.js:509 | Joining break-free lines with line breaks and splitting again gives the lines |
| Export.JoinLacks | backend/controllers/documents.js:492 | Joining pieces and a separator that lack a character gives text lacking it |
| Bulk.CloseDoc | backend/controllers/documents.js:553-557 | Closing sets status Closed, the closing message, time and user, and appends one "Closed" event, whatever the previous status |
| Bulk.AssignDoc | backend/controllers/documents.js:569-571 | Assigning sets the assignee and the name it resolves to and appends one "Assigned" event; status and closing fields are kept |
| Bulk.SaveStep | backend/controllers/documents.js:558-573 | A save succeeds exactly when the document is valid and then reports success; a failed save is a server error that leaves the collection alone |
| Bulk.ApplyAction | backend/controllers/documents.js:541-577 | Each action reports for its own id, success goes with the three success messages, and only a success changes the collection; delete removes the document; close and assign without their payload field fail without change; with it and a valid document they save the closed or reassigned version; any other action is "Unknown action" |
| Bulk.BulkItem | backend/controllers/documents.js:525-577 | A missing id yields "Not found" and anyone but owner, admin, editor or assignee "Not authorized", both without changes; a success implies the requester was allowed; for an allowed requester delete removes the document, close and assign with their payload save the changed document, and any other action is "Unknown action" |
| Bulk.Prepend | backend/controllers/documents.js:524 | Prepending earlier results keeps the collection and the success of the run |
| Bulk.PrependTwice | backend/controllers/documents.js:524 | Prepending twice is prepending the concatenation |
| Bulk.BulkRun | backend/controllers/documents.js:520-584 | A run that completes has exactly one result per id, in id order; a run that fails does so with a server error |
| Bulk.BulkRunStep | backend/controllers/documents.js:525-578 | A run is its first item followed by the run over the remaining ids |
| Bulk.BulkLoopStep | backend/controllers/documents.js:525-578 | Each turn of the loop keeps the results so far, followed by the rest of the run, equal to the whole run |
| Bulk.BulkActionRequest | backend/controllers/documents.js:520-584 | A missing or empty id list is a 400 that changes nothing; otherwise the response and the collection are exactly the reference run's |
| Bulk.BulkLoop | backend/controllers/documents.js:524-579 | The loop computes the reference run |
| Bulk.BulkDeleteWiderThanDelete | backend/controllers/documents.js:532-544 | An assignee who is neither owner nor admin is refused a single deletion but succeeds in deleting in bulk |
| Bulk.BulkCloseCloses | backend/controllers/documents.js:547-560 | A permitted bulk close with a message stores the document closed, with the message and one more history event |
| Bulk.BulkCloseNeedsMessage | backend/controllers/documents.js:548-552 | A bulk close without a message reports "Missing closing message" and changes nothing |
| Auth.Register | backend/controllers/auth.js:8-64 | Invalid input is 400; anyone but an admin or technical-admin gets 403; a taken username is 400; otherwise exactly one record with role `user` and the hashed password is appended, and the token is issued exactly when the secret is configured |
| Auth.RegisterKeepsInvariant | backend/controllers/auth.js:21-31 | Registration keeps ids and usernames unique and every record valid |
| Auth.CreateUser | backend/controllers/auth.js:198-241 | Invalid input is 400; the answer is 403 exactly when the requested role (default `employee`) is not in the requester's table entry; a taken username is then 400; the request succeeds exactly when it is valid, permitted and for a free username and the new record passes the schema and unique indexes; a success appends one record with the requested role, id, username and full name and zero failures; a failure changes nothing |
| Auth.CreateUserSucceedsOnFreshKeys | backend/controllers/auth.js:198-241 | A permitted request with a new username, a fresh id and a non-empty password hash creates the user |
| Auth.PermissionBeforeLookup | backend/controllers/auth.js:208-215 | A role refusal is the same whatever users are stored: no lookup comes first |
| Auth.NoPeerCreation | backend/config/roles.js:2-10 | Nobody but a technical-admin can create an account of their own role |
| Auth.CreateUserExamples | backend/tests/users.test.js:100-130 | A manager asking for a manager or an admin gets 403; hr creating an employee under a fresh username succeeds, and the default role is employee |
| Auth.CreateUserKeepsInvariant | backend/controllers/auth.js:215-225 | User creation keeps ids and usernames unique and every record valid |
| Auth.AfterFailure | backend/controllers/auth.js:94-98 | A wrong password adds one failure; from the fifth failure on the lock is set ten minutes ahead; nothing else changes |
| Auth.AfterSuccess | backend/controllers/auth.js:106-110 | A correct password leaves the count at zero and clears the lock when there were failures; nothing else changes |
| Auth.Login | backend/controllers/auth.js:66-133 | Invalid input is 400 and a disconnected database 503; an unknown username is 400 "Invalid credentials"; a locked account is 403 with nothing saved; a wrong password saves one more failure and answers 400 "Invalid credentials"; a right one saves the reset record and issues the user's token exactly when the secret is configured |
| Auth.FindAfterSaveUser | backend/controllers/auth.js:99-109 | After re-saving the found record, a lookup by username finds the new version |
| Auth.TailInvariant | backend/models/User.js:5 | Uniqueness of ids and usernames holds for the records after the first |
| Auth.SaveUserCons | backend/controllers/auth.js:99 | Re-saving a record whose id is not the first one's leaves the first record in front |
| Auth.SaveFoundKeepsInvariant | backend/controllers/auth.js:99 | Re-saving the found record under its own id and username keeps the invariant |
| Auth.FailuresCount | backend/controllers/auth.js:90-103 | From `n` failures on an unlocked account, each further wrong password adds one failure, up to five; the lock is set exactly when the count reaches five, ten minutes after the last attempt |
| Auth.LockAfterTail | backend/controllers/auth.js:95-97 | The lock a run leaves is the lock its remaining attempts leave from one more failure |
| Auth.FailedLoginsStep | backend/controllers/auth.js:90-103 | A run of failed logins is one failed login followed by the rest |
| Auth.WrongPasswordCounted | backend/controllers/auth.js:90-103 | A wrong password on an unlocked account saves the record with one more failure and answers 400 "Invalid credentials" |
| Auth.LockedRefused | backend/controllers/auth.js:85-88 | A locked account is refused with 403 before the password is compared, and nothing is saved |
| Auth.FiveStrikes | backend/controllers/auth.js:85-99 | Five wrong passwords lock a fresh account until ten minutes after the fifth; a login before then is refused with 403 even with the right password |
| Auth.StruckOutRefused | backend/controllers/auth.js:85-88 | A record with five failures and a lock still pending is refused with 403 whatever the password |
| Auth.RelockAfterExpiry | backend/controllers/auth.js:94-97 | Once a lock has expired without a successful login, one more wrong password locks the account again at once |
| Auth.SuccessResets | backend/controllers/auth.js:105-124 | A correct password on an unlocked account logs in, leaving zero failures and no lock pending |
| Auth.SameAnswerForBothFailures | backend/controllers/auth.js:81-103 | An unknown username and a wrong password get the same answer |
| Auth.FindByUsernameAppend | backend/controllers/auth.js:21-31 | After appending a record under a new username, a lookup finds it |
| Auth.RegisteredCanLogIn | backend/controllers/auth.js:26-124 | An account made by register logs in with its password and gets its token |
| UserAdmin.Keep | backend/controllers/users.js:33 | The kept records are exactly the stored ones satisfying the condition, each as many times as it is stored, as a subsequence of the collection |
| UserAdmin.GetUsers | backend/controllers/users.js:8-44 | Anyone but admin, technical-admin, manager, ceo or hr gets 403; otherwise the listing fails only for a negative skip, `total` counts every listed user before skipping, `totalPages` is the ceiling of total over limit, and the page holds as many users as remain after the skip up to the limit, each a listed stored user without the password hash, in username order; it is the run at the skip of some username-ordered arrangement of them |
| UserAdmin.WithoutPasswordKeepsTheRest | backend/controllers/users.js:34 | Dropping the password keeps every other field and leaves no hash |
| UserAdmin.ListedShown | backend/controllers/users.js:33-34 | Every record shown comes from a listed stored user |
| UserAdmin.UserPageListed | backend/controllers/users.js:33-37 | Every user on a page comes from a listed stored user |
| UserAdmin.UserPageRun | backend/controllers/users.js:33-37 | The page is the run at the skip of a username-ordered permutation of the listed users |
| UserAdmin.ByUsernamePage | backend/controllers/users.js:35-37 | A page of the username-sorted users is refused only for a negative skip, holds as many as remain up to the limit, only those users, in username order |
| UserAdmin.ShownStaff | backend/controllers/users.js:17-18 | Without a role filter, a record a supervisor is shown belongs to an employee or plain user |
| UserAdmin.ByUsernameIsPreorder | backend/controllers/users.js:37 | Username order is total and transitive |
| UserAdmin.SupervisorsSeeStaff | backend/controllers/users.js:17-18 | Without a role filter a manager, ceo or hr is shown only employees and plain users |
| UserAdmin.RoleFilterReplacesScope | backend/controllers/users.js:23-25 | A role filter replaces the scope: a manager filtering by admin is counted every admin |
| UserAdmin.GetHeads | backend/controllers/users.js:47-55 | One head per stored user whose role is admin, technical-admin, manager, ceo or hr, and each head is such a user reduced to id, username, full name and role |
| UserAdmin.GetUserById | backend/controllers/users.js:58-77 | A missing user is 404; otherwise the record without its password hash is returned exactly when the requester is admin, technical-admin or the user, or a manager, ceo or hr viewing an employee or plain user; otherwise 403 |
| UserAdmin.SupervisorsViewWhatTheyCreate | backend/controllers/users.js:67-70 | A manager, ceo or hr may view another account exactly when they may create an account of its role |
| UserAdmin.UpdateUser | backend/controllers/users.js:80-115 | A missing user is 404; a role change by anyone but an admin or technical-admin is 403 with nothing saved; the update succeeds exactly when the user exists, any role change comes from an admin or technical-admin and names a known role, and the record keeps a username and a password hash; a success saves the record with the new role, full name and hashed password where given, identity and lock fields kept, and an audit `before` equal to `after` |
| UserAdmin.FullNameNotGated | backend/controllers/users.js:94 | Changing only the full name succeeds for any requester |
| UserAdmin.UpdateUserKeepsInvariant | backend/controllers/users.js:102 | An update keeps ids and usernames unique and every record valid |
| UserAdmin.DeleteUser | backend/controllers/users.js:118-145 | 404 for a missing user, then 403 for anyone but an admin or technical-admin, then 400 for deleting oneself; otherwise exactly that record is removed |
| UserAdmin.DeletedUserGone | backend/controllers/users.js:132 | After a deletion no record has the id, every other record stays, and the invariant holds |
| Backfill.NameFor | backend/controllers/admin.js:48-53 | A name is found exactly when `performedBy` resolves to a user with a non-empty username, and it is that username |
| Backfill.FillEvent | backend/controllers/admin.js:46-62 | A missing name is filled when it can be resolved, a missing event id is generated, present values are kept, nothing else changes, and the event changes exactly when one of those fills applies |
| Backfill.FillHistory | backend/controllers/admin.js:44-63 | The history keeps its length and order and each event is filled in place |
| Backfill.FillHistoryChanges | backend/controllers/admin.js:44-63 | The history changes exactly when some event needs a fill |
| Backfill.FillDoc | backend/controllers/admin.js:30-63 | A present `docRef` is kept and a missing one generated; a missing short reference takes the next counter value when the counter works and otherwise stays missing; the step changes only these and the history; `changed` is exactly whether the document differs |
| Backfill.FillDocIdempotent | backend/controllers/admin.js:31-62 | A second pass over a filled document that has its short reference changes nothing and leaves the counter alone |
| Backfill.SaveAt | backend/controllers/admin.js:64-65 | Saving a filled document succeeds exactly when it is valid and clashes with no other document, and then replaces it in place with the save time as `updatedAt`, as the schema's timestamps stamp a save |
| Backfill.BackfillAll | backend/controllers/admin.js:15-74 | The collection keeps its length; after a completed pass every document is its backfilled version, a changed one carrying its save time as `updatedAt`, and `updatedCount` is the number of documents that changed |
| Backfill.ChangedFromAgree | backend/controllers/admin.js:64-67 | The count of changed positions depends only on the positions counted |
| Backfill.StepBackfilled | backend/controllers/admin.js:30-65 | The per-document step, with the save time stamped when the document changed, produces the document's backfilled version |
| Backfill.RunSpec | backend/controllers/admin.js:28-69 | The pass from a position on leaves earlier documents alone, backfills every later one (stamping each changed one with its save time), and counts the documents that changed |
| Backfill.SkipDone | backend/controllers/admin.js:64 | An unchanged document adds nothing to the count |
| Backfill.SavedDone | backend/controllers/admin.js:64-67 | A changed and saved document adds one to the count |
| Backfill.CompleteAfterRun | backend/tests/admin.test.js:49-51 | After a completed pass with the counter working, every document has a `docRef`, a short reference and an id on every event |
| Backfill.RunOverFilled | backend/controllers/admin.js:64-69 | A pass over documents that need nothing saves nothing and reports the count it started with |
| Backfill.FilledEventsDone | backend/controllers/admin.js:46-62 | Filled events need no further fill |
| Backfill.SecondRunChangesNothing | backend/controllers/admin.js:31-62 | Running the backfill again after a completed pass changes nothing and reports 0 |
| DocumentReducer.OrNumber | frontend/src/context/document/documentReducer.js:22-24 | A present non-zero number is kept; a missing or zero one falls back |
| DocumentReducer.ReplaceById | frontend/src/context/document/documentReducer.js:42-44 | Same length; each document with the payload's id is replaced by the payload, every other one kept in place |
| DocumentReducer.RemoveById | frontend/src/context/document/documentReducer.js:50-52 | Exactly the documents without the id remain, each as often as the list held it, in their original order |
| DocumentReducer.MetadataPairs | frontend/src/context/document/documentReducer.js:97 | One trimmed key and optional value per comma-separated item, in order |
| DocumentReducer.MetadataEvery | frontend/src/context/document/documentReducer.js:98-100 | The pairs pass exactly when every pair names a key with a non-empty value containing the pair's value, case-insensitively |
| DocumentReducer.DocMatches | frontend/src/context/document/documentReducer.js:76-136 | The callback throws exactly when a metadata filter is given, the text and tag conditions hold, and the pairs reach one without a value; otherwise it keeps the document exactly when every condition holds |
| DocumentReducer.SameVerdict | frontend/src/context/document/documentReducer.js:76-136 | The callback's verdict depends only on whether the conditions hold and whether it throws |
| DocumentReducer.FilterDocs | frontend/src/context/document/documentReducer.js:76 | The filter throws exactly when the callback throws on some document; otherwise it keeps, in order, exactly the documents that match, each as often as the list held it |
| DocumentReducer.Kept | frontend/src/context/document/documentReducer.js:76 | Reference filter: the matching documents, each as often as the list holds it, in list order |
| DocumentReducer.Reduce | frontend/src/context/document/documentReducer.js:16-155 | Loading a page takes the payload's values with the falsy-value defaults; loading one document makes it current; adding, replacing, removing and filtering throw on a cleared list and otherwise change only the list or the filtered list; filtering a list throws exactly when the filter callback throws; setting, clearing the current document, clearing the filter and recording or clearing an error change only that field; clearing empties the list, filter, error and current document; unknown actions keep the state |
| DocumentReducer.AddPrepends | frontend/src/context/document/documentReducer.js:36 | Adding puts the new document first and keeps the rest after it |
| DocumentReducer.UpdateThenDelete | frontend/src/context/document/documentReducer.js:42-52 | Replacing and then deleting by an id equals deleting by it: replacement neither adds nor removes |
| DocumentReducer.DeleteUndoesAdd | frontend/src/context/document/documentReducer.js:36-52 | Deleting a just-added document whose id is fresh restores the list |
| DocumentReducer.NoIdKeepsAll | frontend/src/context/document/documentReducer.js:50-52 | Deleting an id no document has keeps the list |
| DocumentReducer.AllIsNoConstraint | frontend/src/context/document/documentReducer.js:109-123 | "all" for status, owner or assignee filters exactly as an empty field does |
| DocumentReducer.PopulatedLikeRaw | frontend/src/context/document/documentReducer.js:115-122 | An owner or assignee filter treats a populated user reference like the raw id it carries |
| DocumentReducer.SameRefId | frontend/src/context/document/documentReducer.js:113-123 | Documents that differ only in references with the same id are filtered alike |
| DocumentReducer.WellFormedMetadataNeverThrows | frontend/src/context/document/documentReducer.js:97-100 | Metadata pairs that all have a value never throw |
| DocumentReducer.PairWithoutValueThrows | frontend/src/context/document/documentReducer.js:97-99 | A colon-less key that the document has a value for throws once the text and tag conditions hold |
| DocumentReducer.AddAfterClearThrows | frontend/src/context/document/documentReducer.js:36-62 | After the list is cleared, adding a document throws |
| AuthReducer.StoreToken | frontend/src/context/authReducer.js:42 | A present token is stored as is; a missing one is stored as the text "undefined" |
| AuthReducer.Reduce | frontend/src/context/authReducer.js:15-82 | Loading marks the user authenticated; a login or register request raises only its own loading flag; a login or register success stores the token, authenticates and clears its own loading flag, keeping the user and error; every sign-out action removes the stored token and leaves a signed-out state recording its error; unknown actions keep the session |
| AuthReducer.SignOutsAgree | frontend/src/context/authReducer.js:60-74 | Register failure, auth error, login failure and logout are the same transition |
| AuthReducer.SyncPreserved | frontend/src/context/authReducer.js:41-74 | The state's token and the stored token stay equal across every action whose success payload carries a token |
| AuthReducer.TokenlessSuccessDesyncs | frontend/src/context/authReducer.js:51-54 | A login success without a token stores "undefined" while the state has no token |
| AuthReducer.LoginThenLogout | frontend/src/context/authReducer.js:50-74 | Logging in and then out leaves a signed-out session with the logout's error |
| AuthReducer.LogoutIdempotent | frontend/src/context/authReducer.js:60-74 | Logging out twice equals logging out once |
| ApiBase.DropLeadingSlashes | frontend/src/main.jsx:10 | The result is a suffix of the input not starting with a slash, and only slashes were dropped |
| ApiBase.DropTrailingSlashes | frontend/src/main.jsx:10 | The result is a prefix of the input not ending in a slash, and only slashes were dropped |
| ApiBase.StripSlashes | frontend/src/main.jsx:10 | The stripped address is a slice of the setting with only slashes before and after it, and it neither starts nor ends with a slash |
| ApiBase.StripSlashesUnique | frontend/src/main.jsx:10 | Any non-empty slice with only slashes around it and no slash at either end is exactly what the strip leaves |
| ApiBase.ApiBaseUrl | frontend/src/main.jsx:10-25 | The base is empty exactly when the trimmed, slash-stripped setting is; otherwise it has a scheme and no trailing slash, an address with a scheme is kept and one without gets `https://` |
| ApiBase.WithScheme | frontend/src/main.jsx:13-21 | For a stripped address: empty stays empty; an address with a scheme is kept; a bare host gets `https://` in front; the result never ends in a slash |
| ApiBase.NothingToDrop | frontend/src/main.jsx:20 | The single trailing-slash strip leaves an address that does not end in a slash unchanged |
| ApiBase.SchemePrefixed | frontend/src/main.jsx:13-15 | Prefixing `https://` gives a schemed address keeping the absence of a trailing slash |
| ApiBase.TrailingStripIsNoOp | frontend/src/main.jsx:18-21 | The later single trailing-slash removal never finds a slash to remove |
| ApiBase.BlankGivesEmpty | frontend/src/main.jsx:10-25 | A blank setting gives the empty base |
| ApiBase.AllSlashesDropped | frontend/src/main.jsx:10 | A run of slashes strips to nothing |
| ApiBase.SlashesOnlyGiveEmpty | frontend/src/main.jsx:10-25 | A setting that is only slashes once trimmed gives the empty base |
| ApiBase.HttpsKept | frontend/src/main.jsx:10-15 | An `https://` setting is changed only by the trim and the slash strip |
| ApiBase.BareHostGetsScheme | frontend/src/main.jsx:11-15 | A bare host with a trailing slash becomes `https://` plus the host |

## Left out

- HTTP plumbing is not modelled: Express routing, request validation, the JWT middleware, CORS and the serverless adapter, and the database connection. The authenticated actor is an input record, and a failed validation is a boolean input. Of the database state, only the connected flag that login checks is modelled.
- Password hashing and comparison and JWT signing are foreign library calls. They are parameters: a `hash` function, a boolean match and a boolean saying whether the secret is configured. JWT signing itself cannot fail in the model.
- Random identifiers come from an oracle parameter, and generateId's length and alphabet are not modelled. The model does not prove that random values are unique. The unique indexes turn a clash into a server error instead.
- Regular expressions compiled from user text are modelled as literal, case-insensitive substring search with ASCII case folding. Metacharacters and their failure modes are out of scope.
- DocumentReducer.DocMatches: compares text after `Text.LowerChar`, which folds only `A`-`Z`. The client's `toLowerCase` (`frontend/src/context/document/documentReducer.js:89-91`, `frontend/src/context/document/documentReducer.js:99`, `frontend/src/context/document/documentReducer.js:105`) also folds non-ASCII letters, so a match that needs such folding is missed.
- DocumentReducer.MetadataEvery: the same ASCII-only folding of the metadata values and filter values (`frontend/src/context/document/documentReducer.js:99`).
- DocumentReducer.FilterDocs: keeps documents by `DocumentReducer.DocMatches`, so it inherits the ASCII-only folding.
- Metadata is a flat map from string keys to string values. The schema declares it `Mixed` (`backend/models/Document.js:13`), so numbers, arrays and nested objects can be stored. The listing's `metadata.<key>` condition, which reads a dotted key as a nested path (`backend/controllers/documents.js:55-64`), and the client filter's `String(value)` of a non-string value (`frontend/src/context/document/documentReducer.js:99`) are therefore not modelled.
- Dates are integer milliseconds. `toISOString`, `JSON.stringify` of metadata and the end-of-day computation in the client filter are parameters. Invalid dates are not modelled.
- Audit-log writes and email are best-effort side effects that never change a result, so they are left out.
- Concurrency is out of scope: races on the counter or on concurrent saves of a document. Operations are sequential, and the counter is threaded state.
- The React pages and components are not modelled, and neither are the network-calling `DocumentState` and `AuthState` contexts or the Cypress and Jest test suites.
- The command-line backfill script is left out because it wraps the same per-document pass as the controller.
- The inline handlers in the route files are not modelled. They diverge from the controllers: a fixed role list for account creation and a different heads set.
- The shipped server (`backend/app.js:35-39`, `backend/api/index.js:56-67`) mounts `backend/routes/auth.js`, `backend/routes/users.js` and `backend/routes/admin.js`, whose inline handlers serve the current user, login, register, account creation, the heads and user lists, user deletion and the admin statistics. So the modelled auth and users controllers and the admin backfill are not what those routes reach; only the document routes call their controller.
- The unused workflow schema is not modelled, because no code drives its approval states.
- Password reset (`requestPasswordReset`, `resetPassword`) and `getUser` are not modelled. They are account plumbing outside the lockout and permission rules.
- Comments on documents are not modelled.
- Auth.Login: the save after a wrong password always succeeds in the model. The code swallows a failure of that save and still answers "Invalid credentials", with the counter possibly unsaved.
- Page and limit query values arrive already parsed, as `Option<int>`. `parseInt` of text that is not a number is modelled as the missing value. The user listing's `NaN` page is not modelled.
- Access-list entries are compared by value. Subdocument `_id` fields and key order in `JSON.stringify` are not modelled.
- Strings are sequences of Unicode scalar values, so a JavaScript string holding an unpaired surrogate has no counterpart in the model. Tag lists are sorted by UTF-16 code units, as `Array.prototype.sort()` compares them (`Sorting.CodeUnitLe`). Usernames are sorted by code point, which is the order of the UTF-8 bytes the database compares (`Sorting.LexLe`). The two orders differ only where a character at or above U+10000 meets one in U+E000 to U+FFFF (`Sorting.OrdersDisagreeAboveBmp`).
- Among documents with equal creation times, or users with equal usernames, the database does not promise an order. The listing contracts therefore promise only that the page is a run of some sorted arrangement of the matches (`Listing.RunOfSorted`). The model's own arrangement is the one its stable insertion sort gives.
- A returned user record without its password, as `.select('-password')` sends it, is modelled as the record with an empty `passwordHash`. In the JSON the field is absent.
- A login success without a payload, which throws in the client reducer, is not modelled. Keys in a success payload other than the token are not modelled.
- A malformed id that the database cannot cast to an `ObjectId` is modelled as an id that is not found. For the document id in the path of viewing, updating, deleting and forwarding a document, and for viewing, updating and deleting a user, the code answers 404 on the cast error, as the model does. The lines below name the places where it answers 500 instead.
- Listing.GetDocuments: an `owner` or `assignedTo` filter that is not a well-formed id matches nothing in the model, giving an empty page. In the code the query's cast error answers 500 (`backend/controllers/documents.js:42-48`, `backend/controllers/documents.js:122-125`).
- Documents.ForwardDocument: a `toUserId` that is not a well-formed id is treated as an id of no user. In the code the save fails to cast it and the request answers 500 (`backend/controllers/documents.js:448-453`).
- Documents.CreateDocument: access-list entries arrive already typed, so an entry whose role is neither "viewer" nor "editor", which fails the schema's enum on save and answers 500 (`backend/models/Document.js:33`, `backend/controllers/documents.js:189-200`), cannot be expressed. A malformed `assignedTo` (`backend/controllers/documents.js:173`) is treated as an id of no user, where the code's save answers 500.
- Documents.Revise: the same holds for the access list and assignee an update sends: an out-of-enum role or a malformed `assignedTo` fails the code's save with 500 (`backend/controllers/documents.js:360-373`), and the model cannot express the first and treats the second as an id of no user.
- Bulk.BulkItem: reports a malformed id as "Not found" and carries on, and saves an assignment to a malformed `payload.assignedTo` as an id of no user. In the code both cast errors escape the loop (`backend/controllers/documents.js:526`, `backend/controllers/documents.js:572`), and the whole bulk request answers 500 (`backend/controllers/documents.js:580-582`), keeping the writes already made.
- Export.ExportedDocuments: treats a malformed id in the id list, or a malformed owner or assignee filter, as matching nothing. In the code the cast error makes the whole export answer 500 (`backend/controllers/documents.js:514-516`).
- Bulk.BulkRun: uses one clock value `now` for every item. The code calls `new Date()` for each closed document, and the schema stamps each event when it is pushed, so later items can carry later times.
- `getDocuments` fetches the matching documents a second time without paging. That result is unused, so it is left out.

=== FILE: api_base.dfy ===
/** The client's API base address, derived once from the configured `VITE_API_URL`: trimmed,
    stripped of leading and trailing slashes, and given an `https://` scheme when it has none. */
module ApiBase {
  import opened Wrappers
  import opened Text

  /** `s.replace(/^\/+/, '')`. */
  function DropLeadingSlashes(s: string): (r: string)
    ensures |r| <= |s| && r == s[|s| - |r|..]
    ensures |r| > 0 ==> r[0] != '/'
    ensures forall k :: 0 <= k < |s| - |r| ==> s[k] == '/'
  {
    if |s| > 0 && s[0] == '/' then DropLeadingSlashes(s[1..]) else s
  }

  /** `s.replace(/\/+$/, '')`. */
  function DropTrailingSlashes(s: string): (r: string)
    ensures |r| <= |s| && r == s[..|r|]
    ensures |r| > 0 ==> r[|r| - 1] != '/'
    ensures forall k :: |r| <= k < |s| ==> s[k] == '/'
  {
    if |s| > 0 && s[|s| - 1] == '/' then DropTrailingSlashes(s[..|s| - 1]) else s
  }

  /** `r` is the slice of `s` at `i` with only slashes before and after it. */
  predicate SliceBetweenSlashes(s: string, r: string, i: nat) {
    && i + |r| <= |s| && r == s[i..i + |r|]
    && (forall k :: 0 <= k < i ==> s[k] == '/')
    && (forall k :: i + |r| <= k < |s| ==> s[k] == '/')
  }

  /** `s.replace(/^\/+|\/+$/g, '')`: the longest slice of `s` with only slashes around it. */
  function StripSlashes(s: string): (r: string)
    ensures exists i :: SliceBetweenSlashes(s, r, i)
    ensures |r| == 0 || (r[0] != '/' && r[|r| - 1] != '/')
  {
    var a := DropLeadingSlashes(s);
    var b := DropTrailingSlashes(a);
    assert |b| > 0 ==> b[0] == a[0];
    var i := |s| - |a|;
    assert b == s[i..i + |b|];
    assert forall k :: i + |b| <= k < |s| ==> s[k] == a[k - i];
    assert SliceBetweenSlashes(s, b, i);
    b
  }

  /** The slice is determined: any non-empty slice without slashes at its ends and only slashes
      around it is what the strip leaves. */
  lemma StripSlashesUnique(s: string, t: string, j: nat)
    requires SliceBetweenSlashes(s, t, j) && |t| > 0 && t[0] != '/' && t[|t| - 1] != '/'
    ensures StripSlashes(s) == t
  {
  }

  predicate HasScheme(s: string) {
    StartsWith(s, "http://") || StartsWith(s, "https://")
  }

  /** `s.replace(/\/$/, '')`: drops one trailing slash. */
  function DropOneTrailingSlash(s: string): string {
    if |s| > 0 && s[|s| - 1] == '/' then s[..|s| - 1] else s
  }

  /** The address the client uses; `configured` is "" when the variable is unset. */
  function ApiBaseUrl(configured: string): (r: string)
    ensures r == "" <==> StripSlashes(Trim(configured)) == ""
    ensures r != "" ==> HasScheme(r) && r[|r| - 1] != '/'
    ensures HasScheme(StripSlashes(Trim(configured))) ==> r == StripSlashes(Trim(configured))
    ensures StripSlashes(Trim(configured)) != "" && !HasScheme(StripSlashes(Trim(configured))) ==>
              r == "https://" + StripSlashes(Trim(configured))
  {
    WithScheme(StripSlashes(Trim(configured)))
  }

  /** The steps after the strip: a scheme for a bare host, then the single trailing-slash strip. */
  function WithScheme(base: string): (r: string)
    requires |base| == 0 || base[|base| - 1] != '/'
    ensures r == "" <==> base == ""
    ensures r != "" ==> HasScheme(r) && r[|r| - 1] != '/'
    ensures HasScheme(base) ==> r == base
    ensures base != "" && !HasScheme(base) ==> r == "https://" + base
  {
    if base == "" then ""
    else if HasScheme(base) then
      NothingToDrop(base);
      DropOneTrailingSlash(base)
    else
      var prefixed := "https://" + base;
      SchemePrefixed(base);
      NothingToDrop(prefixed);
      DropOneTrailingSlash(prefixed)
  }

  /** An address that does not end in a slash keeps its length under the single-slash strip. */
  lemma NothingToDrop(s: string)
    requires |s| > 0 && s[|s| - 1] != '/'
    ensures DropOneTrailingSlash(s) == s
  {
  }

  /** Putting `https://` in front of a non-empty address without trailing slash gives an address
      with a scheme and without trailing slash. */
  lemma SchemePrefixed(base: string)
    requires |base| == 0 || base[|base| - 1] != '/'
    ensures base != "" ==> ("https://" + base)[|"https://" + base| - 1] != '/'
    ensures HasScheme("https://" + base)
  {
    var p := "https://";
    assert (p + base)[..|p|] == p;
    if base != "" {
      assert (p + base)[|p + base| - 1] == base[|base| - 1];
    }
  }

  /** The trailing-slash removal after the scheme is added never has anything to remove. */
  lemma TrailingStripIsNoOp(configured: string)
    ensures var base := StripSlashes(Trim(configured));
            var withScheme := if base != "" && !HasScheme(base) then "https://" + base else base;
            DropOneTrailingSlash(withScheme) == withScheme
  {
  }

  /** A blank configuration gives the empty base, so requests stay relative to the page. */
  lemma BlankGivesEmpty(configured: string)
    requires AllSpace(configured)
    ensures ApiBaseUrl(configured) == ""
  {
    TrimEmptyIffAllSpace(configured);
  }

  lemma {:induction false} AllSlashesDropped(s: string)
    requires forall k :: 0 <= k < |s| ==> s[k] == '/'
    ensures DropLeadingSlashes(s) == ""
    decreases |s|
  {
    if |s| > 0 {
      AllSlashesDropped(s[1..]);
    }
  }

  /** A configuration that is only slashes once trimmed also gives the empty base. */
  lemma SlashesOnlyGiveEmpty(configured: string)
    requires forall k :: 0 <= k < |Trim(configured)| ==> Trim(configured)[k] == '/'
    ensures ApiBaseUrl(configured) == ""
  {
    AllSlashesDropped(Trim(configured));
  }

  /** A configuration already naming an `https://` address is changed only by the trim and the
      slash strip. */
  lemma HttpsKept(configured: string)
    requires StartsWith(StripSlashes(Trim(configured)), "https://")
    ensures ApiBaseUrl(configured) == StripSlashes(Trim(configured))
  {
  }

  /** A bare host name with a trailing slash gets the scheme in front and loses the slash. */
  lemma BareHostGetsScheme(host: string)
    requires |host| > 0 && !IsJsSpace(host[0]) && host[0] != '/' && host[|host| - 1] != '/'
    requires !HasScheme(host)
    ensures ApiBaseUrl(host + "/") == "https://" + host
  {
    var s := host + "/";
    assert Trim(s) == s by {
      assert TrimStart(s) == s by {
        assert s[0] == host[0];
      }
      assert TrimEnd(s) == s by {
        assert !IsJsSpace(s[|s| - 1]);
      }
    }
    assert StripSlashes(s) == host by {
      assert DropLeadingSlashes(s) == s by {
        assert s[0] == host[0];
      }
      assert DropTrailingSlashes(s) == host by {
        assert s[..|s| - 1] == host;
      }
    }
  }
}

=== FILE: auth.dfy ===
/** The account controller: `register` (an admin creating a plain user), `createUser` (creation
    governed by the creatable-roles table) and `login` with its failed-attempt lockout.
    Password hashing and comparison are parameters (`hash`, `check`); the outcome of the route's
    request validators is the boolean `invalid`; a signed token is represented by the id of the
    user it is issued for; `secret` says whether the signing secret is configured. */
module Auth {
  import opened Wrappers
  import opened Roles
  import opened Model

  /** The user collection after a call, and the answer. */
  datatype Outcome<T> = Outcome(users: seq<User>, result: Result<T>)

  const InvalidCredentials := "Invalid credentials"

  /** A lock lasts ten minutes. */
  const LockMillis: int := 10 * 60 * 1000

  /** The failure count at which an account is locked. */
  const MaxAttempts: nat := 5

  /** The record answers 403 while its lock lies in the future. */
  predicate Locked(u: User, now: int) {
    u.lockUntil.Some? && u.lockUntil.value > now
  }

  // ---------------------------------------------------------------- register

  predicate MayRegister(actor: Option<User>) {
    actor.Some? && actor.value.role in {Admin, TechnicalAdmin}
  }

  /** `POST /register`: only an admin or technical-admin may call it, and the account it creates
      always has role "user". */
  function Register(users: seq<User>, actor: Option<User>, invalid: bool, username: string, password: string,
                    newId: UserId, hash: string -> string, secret: bool): (r: Outcome<UserId>)
    ensures invalid ==> r.users == users && r.result.Err? && r.result.error.BadRequest?
    ensures !invalid && !MayRegister(actor) ==> r.users == users && r.result.Err? && r.result.error.Forbidden?
    ensures !invalid && MayRegister(actor) && FindByUsername(users, username).Some? ==>
              r == Outcome(users, Err(BadRequest("User already exists")))
    ensures r.users == users || r.users == users + [NewUser(newId, username, hash(password), UserRole, None)]
    ensures r.users != users <==>
              !invalid && MayRegister(actor) && FindByUsername(users, username).None?
              && AddUser(users, NewUser(newId, username, hash(password), UserRole, None)).Ok?
    ensures r.result.Ok? <==> r.users != users && secret
    ensures r.result.Ok? ==> r.result.value == newId
  {
    if invalid then Outcome(users, Err(BadRequest("Validation failed")))
    else if !MayRegister(actor) then Outcome(users, Err(Forbidden("Not authorized to create accounts using /register")))
    else if FindByUsername(users, username).Some? then Outcome(users, Err(BadRequest("User already exists")))
    else
      match AddUser(users, NewUser(newId, username, hash(password), UserRole, None))
      case Err(e) => Outcome(users, Err(e))
      case Ok(users') =>
        if !secret then Outcome(users', Err(ServerError("Server misconfiguration: JWT secret missing")))
        else Outcome(users', Ok(newId))
  }

  lemma RegisterKeepsInvariant(users: seq<User>, actor: Option<User>, invalid: bool, username: string, password: string,
                               newId: UserId, hash: string -> string, secret: bool)
    requires UsersInvariant(users)
    ensures UsersInvariant(Register(users, actor, invalid, username, password, newId, hash, secret).users)
  {
    var u := NewUser(newId, username, hash(password), UserRole, None);
    if !invalid && MayRegister(actor) && FindByUsername(users, username).None? && AddUser(users, u).Ok? {
      AddUserKeepsInvariant(users, u);
    }
  }

  // ---------------------------------------------------------------- createUser

  /** `POST` create-user: the requested role (default "employee") must be in the requester's
      entry of the table, which is checked before the username is looked up. */
  function CreateUser(users: seq<User>, actor: User, invalid: bool, username: string, password: string,
                      role: Option<string>, fullName: Option<string>, newId: UserId,
                      hash: string -> string): (r: Outcome<User>)
    ensures invalid ==> r.users == users && r.result.Err? && r.result.error.BadRequest?
    ensures !invalid ==>
              (r.result == Err(Forbidden("Not authorized to create this user role")) <==> !MayCreate(actor.role, role.GetOr("employee")))
    ensures !invalid && MayCreate(actor.role, role.GetOr("employee")) && FindByUsername(users, username).Some? ==>
              r == Outcome(users, Err(BadRequest("User already exists")))
    ensures r.result.Ok? ==>
              && r.users == users + [r.result.value]
              && r.result.value.id == newId && r.result.value.username == username
              && RoleName(r.result.value.role) == role.GetOr("employee")
              && r.result.value.role in CreatableRoles(actor.role)
              && r.result.value.fullName == fullName && r.result.value.failedLoginAttempts == 0
    ensures r.result.Err? ==> r.users == users
    ensures r.result.Ok? <==>
              && !invalid && MayCreate(actor.role, role.GetOr("employee")) && FindByUsername(users, username).None?
              && ParseRole(role.GetOr("employee")).Some?
              && AddUser(users, NewUser(newId, username, hash(password), ParseRole(role.GetOr("employee")).value, fullName)).Ok?
  {
    if invalid then Outcome(users, Err(BadRequest("Validation failed")))
    else
      var name := role.GetOr("employee");
      match ParseRole(name)
      case None => Outcome(users, Err(Forbidden("Not authorized to create this user role")))
      case Some(wanted) =>
        if wanted !in CreatableRoles(actor.role) then Outcome(users, Err(Forbidden("Not authorized to create this user role")))
        else if FindByUsername(users, username).Some? then Outcome(users, Err(BadRequest("User already exists")))
        else
          var u := NewUser(newId, username, hash(password), wanted, fullName);
          match AddUser(users, u)
          case Err(e) => Outcome(users, Err(e))
          case Ok(users') => Outcome(users', Ok(u))
  }

  /** A permitted request for a new username, a fresh id and a non-empty password hash is
      answered with the created user. */
  lemma CreateUserSucceedsOnFreshKeys(users: seq<User>, actor: User, username: string, password: string,
                                      role: Option<string>, fullName: Option<string>, newId: UserId, hash: string -> string)
    requires MayCreate(actor.role, role.GetOr("employee"))
    requires username != "" && hash(password) != ""
    requires FindByUsername(users, username).None? && FindUser(users, newId).None?
    ensures CreateUser(users, actor, false, username, password, role, fullName, newId, hash).result.Ok?
  {
  }

  /** The permission answer does not depend on the stored users: no lookup happens first. */
  lemma PermissionBeforeLookup(users: seq<User>, others: seq<User>, actor: User, username: string, password: string,
                               role: Option<string>, fullName: Option<string>, newId: UserId, hash: string -> string)
    requires !MayCreate(actor.role, role.GetOr("employee"))
    ensures CreateUser(users, actor, false, username, password, role, fullName, newId, hash).result
         == CreateUser(others, actor, false, username, password, role, fullName, newId, hash).result
         == Err(Forbidden("Not authorized to create this user role"))
  {
  }

  /** Only technical-admin may create an account of its own role. */
  lemma NoPeerCreation(users: seq<User>, actor: User, username: string, password: string,
                       fullName: Option<string>, newId: UserId, hash: string -> string)
    requires actor.role != TechnicalAdmin
    ensures CreateUser(users, actor, false, username, password, Some(RoleName(actor.role)), fullName, newId, hash).result.Err?
  {
  }

  /** A manager asking for a manager or an admin is refused; hr creating an employee under a
      fresh username and id succeeds. */
  lemma CreateUserExamples(users: seq<User>, manager: User, hr: User, username: string, password: string,
                           fullName: Option<string>, newId: UserId, hash: string -> string)
    requires manager.role == Manager && hr.role == Hr
    requires username != "" && hash(password) != ""
    requires forall k :: 0 <= k < |users| ==> users[k].id != newId && users[k].username != username
    ensures CreateUser(users, manager, false, username, password, Some("manager"), fullName, newId, hash).result.error.Code() == 403
    ensures CreateUser(users, manager, false, username, password, Some("admin"), fullName, newId, hash).result.error.Code() == 403
    ensures CreateUser(users, hr, false, username, password, Some("employee"), fullName, newId, hash).result.Ok?
    ensures CreateUser(users, hr, false, username, password, None, fullName, newId, hash).result.value.role == Employee
  {
    MayCreateIff(Manager, "manager");
    MayCreateIff(Manager, "admin");
    MayCreateIff(Hr, "employee");
  }

  lemma CreateUserKeepsInvariant(users: seq<User>, actor: User, invalid: bool, username: string, password: string,
                                 role: Option<string>, fullName: Option<string>, newId: UserId, hash: string -> string)
    requires UsersInvariant(users)
    ensures UsersInvariant(CreateUser(users, actor, invalid, username, password, role, fullName, newId, hash).users)
  {
    var r := CreateUser(users, actor, invalid, username, password, role, fullName, newId, hash);
    if r.result.Ok? {
      var u := r.result.value;
      assert AddUser(users, u).Ok?;
      AddUserKeepsInvariant(users, u);
    }
  }

  // ---------------------------------------------------------------- login

  /** The record after one more wrong password: the count goes up and, from the fifth failure
      on, the lock is set ten minutes ahead. */
  function AfterFailure(u: User, now: int): (v: User)
    ensures v.failedLoginAttempts == u.failedLoginAttempts + 1
    ensures v.failedLoginAttempts >= MaxAttempts ==> v.lockUntil == Some(now + LockMillis)
    ensures v.failedLoginAttempts < MaxAttempts ==> v.lockUntil == u.lockUntil
    ensures v.(failedLoginAttempts := u.failedLoginAttempts, lockUntil := u.lockUntil) == u
  {
    var n := u.failedLoginAttempts + 1;
    u.(failedLoginAttempts := n, lockUntil := if n >= MaxAttempts then Some(now + LockMillis) else u.lockUntil)
  }

  /** The record after a correct password: a non-zero count is reset and the lock cleared. */
  function AfterSuccess(u: User): (v: User)
    ensures v.failedLoginAttempts == 0
    ensures u.failedLoginAttempts != 0 ==> v.lockUntil.None?
    ensures u.failedLoginAttempts == 0 ==> v == u
    ensures v.(failedLoginAttempts := u.failedLoginAttempts, lockUntil := u.lockUntil) == u
  {
    if u.failedLoginAttempts != 0 then u.(failedLoginAttempts := 0, lockUntil := None) else u
  }

  /** `POST /login`. `connected` is the database's ready state; `check(password, hash)` is the
      password comparison. A locked account is refused before the password is looked at; an
      unknown username and a wrong password get the same answer. */
  function Login(users: seq<User>, invalid: bool, username: string, password: string, now: int, connected: bool,
                 secret: bool, check: (string, string) -> bool): (r: Outcome<UserId>)
    ensures invalid ==> r.users == users && r.result.Err? && r.result.error.BadRequest?
    ensures !invalid && !connected ==> r.users == users && r.result.Err? && r.result.error.Code() == 503
    ensures !invalid && connected && FindByUsername(users, username).None? ==>
              r == Outcome(users, Err(BadRequest(InvalidCredentials)))
    ensures !invalid && connected && FindByUsername(users, username).Some? ==>
              var u := FindByUsername(users, username).value;
              && (Locked(u, now) ==> r.users == users && r.result.Err? && r.result.error.Forbidden?)
              && (!Locked(u, now) && !check(password, u.passwordHash) ==>
                    r == Outcome(SaveUser(users, AfterFailure(u, now)), Err(BadRequest(InvalidCredentials))))
              && (!Locked(u, now) && check(password, u.passwordHash) ==>
                    r.users == SaveUser(users, AfterSuccess(u)) && (r.result.Ok? <==> secret)
                    && (r.result.Ok? ==> r.result.value == u.id))
    ensures r.result.Ok? ==> !invalid && connected && secret && FindByUsername(users, username).Some?
  {
    if invalid then Outcome(users, Err(BadRequest("Validation failed")))
    else if !connected then Outcome(users, Err(Unavailable("Database connection unavailable")))
    else
      match FindByUsername(users, username)
      case None => Outcome(users, Err(BadRequest(InvalidCredentials)))
      case Some(u) =>
        if Locked(u, now) then Outcome(users, Err(Forbidden("Account locked")))
        else if !check(password, u.passwordHash) then
          Outcome(SaveUser(users, AfterFailure(u, now)), Err(BadRequest(InvalidCredentials)))
        else
          var users' := SaveUser(users, AfterSuccess(u));
          if !secret then Outcome(users', Err(ServerError("Server misconfiguration: JWT secret missing")))
          else Outcome(users', Ok(u.id))
  }

  /** A lookup by username after re-saving the found record under the same id and username
      yields the new record. */
  lemma {:induction false} FindAfterSaveUser(users: seq<User>, name: string, v: User)
    requires UsersInvariant(users)
    requires FindByUsername(users, name).Some?
    requires v.id == FindByUsername(users, name).value.id && v.username == name
    ensures FindByUsername(SaveUser(users, v), name) == Some(v)
  {
    if users[0].username == name {
      assert IndexOfUser(users, v.id) == 0;
      assert SaveUser(users, v)[0] == v;
    } else {
      var u := FindByUsername(users, name).value;
      assert u in users[1..];
      assert users[0].id != v.id by {
        var j :| 0 <= j < |users[1..]| && users[1..][j] == u;
        assert users[j + 1] == u;
      }
      TailInvariant(users);
      FindAfterSaveUser(users[1..], name, v);
      SaveUserCons(users, v);
    }
  }

  lemma TailInvariant(users: seq<User>)
    requires UsersInvariant(users) && |users| > 0
    ensures UsersInvariant(users[1..])
  {
    forall i, j | 0 <= i < j < |users[1..]|
      ensures users[1..][i].id != users[1..][j].id && users[1..][i].username != users[1..][j].username
    {
      assert users[1..][i] == users[i + 1] && users[1..][j] == users[j + 1];
    }
  }

  /** Saving a record whose id is not the first one's leaves the first record in front. */
  lemma SaveUserCons(users: seq<User>, v: User)
    requires |users| > 0 && users[0].id != v.id
    ensures SaveUser(users, v) == [users[0]] + SaveUser(users[1..], v)
  {
    assert IndexOfUser(users, v.id) == 1 + IndexOfUser(users[1..], v.id);
    var i := IndexOfUser(users[1..], v.id);
    if i < |users[1..]| {
      assert users[i + 1 := v] == [users[0]] + users[1..][i := v];
    }
  }

  /** Re-saving the record found by username, under its own id and username, keeps the invariant. */
  lemma SaveFoundKeepsInvariant(users: seq<User>, name: string, v: User)
    requires UsersInvariant(users)
    requires FindByUsername(users, name).Some?
    requires v.id == FindByUsername(users, name).value.id && v.username == name
    requires v.passwordHash == FindByUsername(users, name).value.passwordHash
    ensures UsersInvariant(SaveUser(users, v))
  {
    var u := FindByUsername(users, name).value;
    var j :| 0 <= j < |users| && users[j] == u;
    assert IndexOfUser(users, v.id) == j;
    SaveUserKeepsInvariant(users, v);
  }

  /** The users after a run of wrong-password logins at the given times. */
  function FailedLogins(users: seq<User>, username: string, password: string, times: seq<int>,
                        check: (string, string) -> bool): seq<User>
    decreases |times|
  {
    if |times| == 0 then users
    else FailedLogins(Login(users, false, username, password, times[0], true, true, check).users,
                      username, password, times[1..], check)
  }

  /** The lock a run of wrong passwords leaves: set ten minutes after the last attempt exactly
      when the count reaches five. */
  function LockAfter(n: nat, times: seq<int>): Option<int> {
    if n + |times| == MaxAttempts && |times| > 0 then Some(times[|times| - 1] + LockMillis) else None
  }

  /** The record stored under `username` is `u`'s, with the given count and lock. */
  predicate StruckAs(users: seq<User>, username: string, u: User, count: nat, lock: Option<int>) {
    && FindByUsername(users, username).Some?
    && var w := FindByUsername(users, username).value;
       w.id == u.id && w.passwordHash == u.passwordHash && w.failedLoginAttempts == count && w.lockUntil == lock
  }

  /** Wrong passwords on an unlocked account with `n` earlier failures: after `times` more, up to
      five in all, the count is `n + |times|`, and the lock is set exactly when the count reaches
      five, ten minutes after the last attempt. */
  lemma {:induction false} FailuresCount(users: seq<User>, username: string, password: string, times: seq<int>,
                                         check: (string, string) -> bool, u: User, n: nat)
    requires UsersInvariant(users)
    requires FindByUsername(users, username) == Some(u)
    requires u.lockUntil.None? && u.failedLoginAttempts == n && !check(password, u.passwordHash)
    requires n + |times| <= MaxAttempts
    ensures var after := FailedLogins(users, username, password, times, check);
      UsersInvariant(after) && StruckAs(after, username, u, n + |times|, LockAfter(n, times))
    decreases |times|
  {
    if |times| > 0 {
      var v := AfterFailure(u, times[0]);
      var users' := SaveUser(users, v);
      assert FailedLogins(users, username, password, times, check) == FailedLogins(users', username, password, times[1..], check) by {
        FailedLoginsStep(users, username, password, times, check);
        WrongPasswordCounted(users, username, password, times[0], check);
      }
      assert UsersInvariant(users') && FindByUsername(users', username) == Some(v) by {
        SaveFoundKeepsInvariant(users, username, v);
        FindAfterSaveUser(users, username, v);
      }
      if n + 1 < MaxAttempts {
        FailuresCount(users', username, password, times[1..], check, v, n + 1);
        LockAfterTail(n, times);
      } else {
        assert |times| == 1;
        assert LockAfter(n, times) == Some(times[0] + LockMillis) == v.lockUntil;
      }
    }
  }

  lemma LockAfterTail(n: nat, times: seq<int>)
    requires |times| > 0 && n + 1 < MaxAttempts
    ensures LockAfter(n + 1, times[1..]) == LockAfter(n, times)
  {
    if |times| > 1 {
      assert times[1..][|times[1..]| - 1] == times[|times| - 1];
    }
  }

  lemma FailedLoginsStep(users: seq<User>, username: string, password: string, times: seq<int>,
                         check: (string, string) -> bool)
    requires |times| > 0
    ensures FailedLogins(users, username, password, times, check)
         == FailedLogins(Login(users, false, username, password, times[0], true, true, check).users,
                         username, password, times[1..], check)
  {
  }

  /** A wrong password on an unlocked account saves the record with one more failure. */
  lemma WrongPasswordCounted(users: seq<User>, username: string, password: string, now: int, check: (string, string) -> bool)
    requires FindByUsername(users, username).Some?
    requires var u := FindByUsername(users, username).value; !Locked(u, now) && !check(password, u.passwordHash)
    ensures var u := FindByUsername(users, username).value;
      Login(users, false, username, password, now, true, true, check)
        == Outcome(SaveUser(users, AfterFailure(u, now)), Err(BadRequest(InvalidCredentials)))
  {
  }

  /** A locked account is refused before its password is compared: the right password and a
      wrong one get the same 403, and nothing is saved. */
  lemma LockedRefused(users: seq<User>, username: string, password: string, now: int, check: (string, string) -> bool)
    requires FindByUsername(users, username).Some? && Locked(FindByUsername(users, username).value, now)
    ensures Login(users, false, username, password, now, true, true, check) == Outcome(users, Err(Forbidden("Account locked")))
  {
  }

  /** Five wrong passwords in a row lock a fresh account: a login before the lock expires is
      refused with 403 even with the right password. */
  lemma FiveStrikes(users: seq<User>, username: string, wrong: string, right: string, times: seq<int>, later: int,
                    check: (string, string) -> bool)
    requires UsersInvariant(users)
    requires FindByUsername(users, username).Some?
    requires var u := FindByUsername(users, username).value;
      u.lockUntil.None? && u.failedLoginAttempts == 0 && !check(wrong, u.passwordHash)
    requires |times| == MaxAttempts
    requires later < times[4] + LockMillis
    ensures var after := FailedLogins(users, username, wrong, times, check);
      && FindByUsername(after, username).Some?
      && FindByUsername(after, username).value.failedLoginAttempts == MaxAttempts
      && FindByUsername(after, username).value.lockUntil == Some(times[4] + LockMillis)
      && Login(after, false, username, right, later, true, true, check).result.error.Forbidden?
  {
    assert LockAfter(0, times) == Some(times[4] + LockMillis) by {
      assert |times| - 1 == 4;
    }
    var after := FailedLogins(users, username, wrong, times, check);
    var u := FindByUsername(users, username).value;
    FailuresCount(users, username, wrong, times, check, u, 0);
    StruckOutRefused(after, username, u, times[4] + LockMillis, right, later, check);
  }

  /** A record struck out five times with a lock still pending refuses any password. */
  lemma StruckOutRefused(users: seq<User>, username: string, u: User, lock: int, password: string, now: int,
                         check: (string, string) -> bool)
    requires StruckAs(users, username, u, MaxAttempts, Some(lock)) && now < lock
    ensures FindByUsername(users, username).Some?
    ensures FindByUsername(users, username).value.failedLoginAttempts == MaxAttempts
    ensures FindByUsername(users, username).value.lockUntil == Some(lock)
    ensures Login(users, false, username, password, now, true, true, check).result.error.Forbidden?
  {
    LockedRefused(users, username, password, now, check);
  }

  /** Without a successful login the count stays at five or more after the lock expires, so the
      next wrong password locks the account again at once. */
  lemma RelockAfterExpiry(users: seq<User>, username: string, password: string, now: int, check: (string, string) -> bool)
    requires UsersInvariant(users)
    requires FindByUsername(users, username).Some?
    requires var u := FindByUsername(users, username).value;
      u.failedLoginAttempts >= MaxAttempts && !Locked(u, now) && !check(password, u.passwordHash)
    ensures var r := Login(users, false, username, password, now, true, true, check);
      && r.result == Err(BadRequest(InvalidCredentials))
      && FindByUsername(r.users, username).value.lockUntil == Some(now + LockMillis)
  {
    var u := FindByUsername(users, username).value;
    FindAfterSaveUser(users, username, AfterFailure(u, now));
  }

  /** A correct password on an unlocked account logs in and leaves the count at zero with no lock
      pending. */
  lemma SuccessResets(users: seq<User>, username: string, password: string, now: int, check: (string, string) -> bool)
    requires UsersInvariant(users)
    requires FindByUsername(users, username).Some?
    requires var u := FindByUsername(users, username).value;
      !Locked(u, now) && check(password, u.passwordHash)
    ensures var r := Login(users, false, username, password, now, true, true, check);
      && r.result == Ok(FindByUsername(users, username).value.id)
      && FindByUsername(r.users, username).value.failedLoginAttempts == 0
      && !Locked(FindByUsername(r.users, username).value, now)
  {
    var u := FindByUsername(users, username).value;
    FindAfterSaveUser(users, username, AfterSuccess(u));
  }

  /** An unknown username and a wrong password cannot be told apart by the answer. */
  lemma SameAnswerForBothFailures(users: seq<User>, unknown: string, known: string, password: string, now: int,
                                  check: (string, string) -> bool)
    requires FindByUsername(users, unknown).None?
    requires FindByUsername(users, known).Some?
    requires !Locked(FindByUsername(users, known).value, now) && !check(password, FindByUsername(users, known).value.passwordHash)
    ensures Login(users, false, unknown, password, now, true, true, check).result
         == Login(users, false, known, password, now, true, true, check).result
         == Err(BadRequest(InvalidCredentials))
  {
  }

  /** A lookup by a username absent before an append finds the appended record. */
  lemma {:induction false} FindByUsernameAppend(users: seq<User>, u: User)
    requires FindByUsername(users, u.username).None?
    ensures FindByUsername(users + [u], u.username) == Some(u)
  {
    if |users| > 0 {
      assert (users + [u])[1..] == users[1..] + [u];
      FindByUsernameAppend(users[1..], u);
    }
  }

  /** An account made by register logs in with the password it was registered with. */
  lemma RegisteredCanLogIn(users: seq<User>, actor: Option<User>, username: string, password: string,
                           newId: UserId, hash: string -> string, now: int, check: (string, string) -> bool)
    requires Register(users, actor, false, username, password, newId, hash, true).result.Ok?
    requires check(password, hash(password))
    ensures var users' := Register(users, actor, false, username, password, newId, hash, true).users;
      Login(users', false, username, password, now, true, true, check) == Outcome(users', Ok(newId))
  {
    var u := NewUser(newId, username, hash(password), UserRole, None);
    FindByUsernameAppend(users, u);
    assert IndexOfUser(users + [u], newId) == |users|;
  }
}

=== FILE: auth_reducer.dfy ===
/** The client's authentication state and its reducer. The browser's stored token is part of
    the modelled session, since the reducer writes and removes it. */
module AuthReducer {
  import opened Wrappers

  /** The user record the API returns for the signed-in user. */
  datatype AuthUser = AuthUser(id: string, username: string, role: string)

  datatype AuthState = AuthState(
    token: Option<string>,
    isAuthenticated: bool,
    loading: bool,
    user: Option<AuthUser>,
    error: Option<string>,
    loginLoading: bool,
    registerLoading: bool)

  /** The reducer state together with the token kept in browser storage. */
  datatype Session = Session(state: AuthState, stored: Option<string>)

  /** The success payloads carry the token when the server sent one. */
  datatype AuthAction =
    | Init
    | UserLoaded(user: Option<AuthUser>)
    | UserLoading
    | LoginRequest
    | RegisterRequest
    | RegisterSuccess(token: Option<string>)
    | LoginSuccess(token: Option<string>)
    | RegisterFail(error: Option<string>)
    | AuthError(error: Option<string>)
    | LoginFail(error: Option<string>)
    | Logout(error: Option<string>)
    | ClearErrors
    | OtherAuthAction(name: string)

  /** The four actions that sign the session out. */
  predicate SignsOut(a: AuthAction) {
    a.RegisterFail? || a.AuthError? || a.LoginFail? || a.Logout?
  }

  /** Signed out: no token in state or storage, no user, not authenticated, nothing loading. */
  predicate SignedOut(s: Session) {
    && s.stored.None? && s.state.token.None? && s.state.user.None? && !s.state.isAuthenticated
    && !s.state.loading && !s.state.loginLoading && !s.state.registerLoading
  }

  /** `localStorage.setItem('token', token)`: a missing token is stored as the text "undefined". */
  function StoreToken(token: Option<string>): (r: Option<string>)
    ensures token.Some? ==> r == token
    ensures token.None? ==> r == Some("undefined")
  {
    Some(token.GetOr("undefined"))
  }

  /** `{ ...state, ...payload }` for a payload that may lack the token key. */
  function SpreadToken(s: AuthState, token: Option<string>): AuthState {
    if token.Some? then s.(token := token) else s
  }

  function SignOutState(s: AuthState, error: Option<string>): AuthState {
    s.(token := None, isAuthenticated := false, loading := false, user := None, error := error,
       loginLoading := false, registerLoading := false)
  }

  function Reduce(s: Session, a: AuthAction): (r: Session)
    ensures a.Init? || a.OtherAuthAction? ==> r == s
    ensures a.UserLoaded? ==>
              r == Session(s.state.(isAuthenticated := true, loading := false, user := a.user), s.stored)
    ensures a.UserLoading? ==> r == Session(s.state.(loading := true), s.stored)
    ensures a.LoginRequest? ==> r == Session(s.state.(loginLoading := true), s.stored)
    ensures a.RegisterRequest? ==> r == Session(s.state.(registerLoading := true), s.stored)
    ensures a.ClearErrors? ==> r == Session(s.state.(error := None), s.stored)
    ensures a.LoginSuccess? ==>
              && r.stored == StoreToken(a.token)
              && r.state.isAuthenticated && !r.state.loading && !r.state.loginLoading
              && r.state.registerLoading == s.state.registerLoading
              && (a.token.Some? ==> r.state.token == a.token)
              && r.state.user == s.state.user && r.state.error == s.state.error
    ensures a.RegisterSuccess? ==>
              && r.stored == StoreToken(a.token)
              && r.state.isAuthenticated && !r.state.loading && !r.state.registerLoading
              && r.state.loginLoading == s.state.loginLoading
              && (a.token.Some? ==> r.state.token == a.token)
              && r.state.user == s.state.user && r.state.error == s.state.error
    ensures SignsOut(a) ==> SignedOut(r) && r.state.error == a.error
  {
    match a
    case Init => s
    case UserLoaded(user) => Session(s.state.(isAuthenticated := true, loading := false, user := user), s.stored)
    case UserLoading => Session(s.state.(loading := true), s.stored)
    case LoginRequest => Session(s.state.(loginLoading := true), s.stored)
    case RegisterRequest => Session(s.state.(registerLoading := true), s.stored)
    case RegisterSuccess(token) =>
      Session(SpreadToken(s.state, token).(isAuthenticated := true, loading := false, registerLoading := false), StoreToken(token))
    case LoginSuccess(token) =>
      Session(SpreadToken(s.state, token).(isAuthenticated := true, loading := false, loginLoading := false), StoreToken(token))
    case RegisterFail(e) => Session(SignOutState(s.state, e), None)
    case AuthError(e) => Session(SignOutState(s.state, e), None)
    case LoginFail(e) => Session(SignOutState(s.state, e), None)
    case Logout(e) => Session(SignOutState(s.state, e), None)
    case ClearErrors => Session(s.state.(error := None), s.stored)
    case OtherAuthAction(_) => s
  }

  /** The four sign-out actions are one transition: only the error they record differs. */
  lemma SignOutsAgree(s: Session, e: Option<string>)
    ensures Reduce(s, RegisterFail(e)) == Reduce(s, AuthError(e)) == Reduce(s, LoginFail(e)) == Reduce(s, Logout(e))
  {
  }

  /** The state's token and the stored token agree. */
  predicate TokenInSync(s: Session) {
    s.stored == s.state.token
  }

  /** Every action keeps the state's token and the stored token in agreement, except a success
      without a token, which stores the text "undefined". */
  lemma SyncPreserved(s: Session, a: AuthAction)
    requires TokenInSync(s)
    requires a.LoginSuccess? || a.RegisterSuccess? ==> a.token.Some?
    ensures TokenInSync(Reduce(s, a))
  {
  }

  lemma TokenlessSuccessDesyncs(s: Session)
    requires s.state.token.None?
    ensures !TokenInSync(Reduce(s, LoginSuccess(None)))
  {
  }

  /** Logging in and then out leaves a signed-out session whatever came before. */
  lemma LoginThenLogout(s: Session, token: string, e: Option<string>)
    ensures var r := Reduce(Reduce(s, LoginSuccess(Some(token))), Logout(e));
            SignedOut(r) && r.state.error == e
  {
  }

  /** Logging out twice is logging out once. */
  lemma LogoutIdempotent(s: Session, e: Option<string>)
    ensures Reduce(Reduce(s, Logout(e)), Logout(e)) == Reduce(s, Logout(e))
  {
  }
}

=== FILE: backfill.dfy ===
/** The admin backfill: one pass over every document in storage order, filling in a missing
    `docRef`, a missing `docRefShort` (from the `documentRef` counter), each history event's
    missing `performedByName` (from the performing user's username) and missing `eventId`.
    Present values are never replaced. The random parts are drawn from `rand(position, slot)`:
    slot 0 for the document's `docRef`, slot k + 1 for the id of event k. A saved document gets
    the time of its save, `now(position)`, as `updatedAt`, as the schema's timestamps do. */
module Backfill {
  import opened Wrappers
  import opened Model
  import opened Text
  import opened DocRef

  /** JavaScript truthiness of an optional string field: present and non-empty. */
  predicate Truthy(o: Option<string>) {
    o.Some? && o.value != ""
  }

  /** The username a `performedBy` reference resolves to, when it resolves to a user with a
      non-empty username. */
  function NameFor(users: seq<User>, performedBy: Option<UserId>): (r: Option<string>)
    ensures r.Some? ==> r.value != "" && performedBy.Some? && FindUser(users, performedBy.value).Some?
                        && r.value == FindUser(users, performedBy.value).value.username
    ensures r.None? ==> performedBy.None? || FindUser(users, performedBy.value).None?
                        || FindUser(users, performedBy.value).value.username == ""
  {
    match performedBy
    case None => None
    case Some(id) =>
      match FindUser(users, id)
      case None => None
      case Some(u) => if u.username != "" then Some(u.username) else None
  }

  /** An event the backfill writes to: a fillable name or a missing event id. */
  predicate EventNeedsFill(e: HistoryEvent, users: seq<User>) {
    (!Truthy(e.performedByName) && NameFor(users, e.performedBy).Some?) || !Truthy(e.eventId)
  }

  /** One history event after the backfill. */
  function FillEvent(e: HistoryEvent, users: seq<User>, random: string): (r: HistoryEvent)
    ensures r.(performedByName := e.performedByName, eventId := e.eventId) == e
    ensures Truthy(e.performedByName) || NameFor(users, e.performedBy).None? ==> r.performedByName == e.performedByName
    ensures !Truthy(e.performedByName) && NameFor(users, e.performedBy).Some? ==> r.performedByName == NameFor(users, e.performedBy)
    ensures Truthy(e.eventId) ==> r.eventId == e.eventId
    ensures !Truthy(e.eventId) ==> r.eventId == Some(GenerateId("EVT", random))
    ensures r != e <==> EventNeedsFill(e, users)
  {
    var name := if !Truthy(e.performedByName) && NameFor(users, e.performedBy).Some? then NameFor(users, e.performedBy) else e.performedByName;
    var eid := if !Truthy(e.eventId) then Some(GenerateId("EVT", random)) else e.eventId;
    e.(performedByName := name, eventId := eid)
  }

  /** A document's history after the backfill: same length and order, each event filled. */
  function FillHistory(h: seq<HistoryEvent>, users: seq<User>, rand: (nat, nat) -> string, pos: nat): (r: seq<HistoryEvent>)
    ensures |r| == |h|
    ensures forall k :: 0 <= k < |h| ==> r[k] == FillEvent(h[k], users, rand(pos, k + 1))
  {
    seq(|h|, k requires 0 <= k < |h| => FillEvent(h[k], users, rand(pos, k + 1)))
  }

  /** The backfill's `changed` flag for a history: some event was written to. */
  predicate HistoryNeedsFill(h: seq<HistoryEvent>, users: seq<User>) {
    exists k | 0 <= k < |h| :: EventNeedsFill(h[k], users)
  }

  lemma FillHistoryChanges(h: seq<HistoryEvent>, users: seq<User>, rand: (nat, nat) -> string, pos: nat)
    ensures FillHistory(h, users, rand, pos) != h <==> HistoryNeedsFill(h, users)
  {
    var r := FillHistory(h, users, rand, pos);
    if HistoryNeedsFill(h, users) {
      var k :| 0 <= k < |h| && EventNeedsFill(h[k], users);
      assert r[k] != h[k];
    } else {
      assert forall k | 0 <= k < |h| :: r[k] == h[k];
    }
  }

  /** One document after the backfill, the counter afterwards, and the `changed` flag. */
  datatype Filled = Filled(doc: Document, counter: nat, changed: bool)

  /** The per-document step. `counterUp` says whether the counter can be advanced; when it
      cannot, a missing short reference stays missing. */
  function FillDoc(d: Document, users: seq<User>, counter: nat, counterUp: bool, rand: (nat, nat) -> string, pos: nat): (f: Filled)
    ensures f.doc.(docRef := d.docRef, docRefShort := d.docRefShort, history := d.history) == d
    ensures Truthy(d.docRef) ==> f.doc.docRef == d.docRef
    ensures !Truthy(d.docRef) ==> f.doc.docRef == Some(GenerateId("DOC", rand(pos, 0)))
    ensures Truthy(d.docRefShort) || !counterUp ==> f.doc.docRefShort == d.docRefShort && f.counter == counter
    ensures !Truthy(d.docRefShort) && counterUp ==>
              f.doc.docRefShort == Some(FormatShortRef(counter + 1)) && f.counter == counter + 1
    ensures f.doc.history == FillHistory(d.history, users, rand, pos)
    ensures f.changed <==> f.doc != d
  {
    var docRef := if !Truthy(d.docRef) then Some(GenerateId("DOC", rand(pos, 0))) else d.docRef;
    var fillShort := !Truthy(d.docRefShort) && counterUp;
    var short := if fillShort then Some(FormatShortRef(counter + 1)) else d.docRefShort;
    var history := FillHistory(d.history, users, rand, pos);
    FillHistoryChanges(d.history, users, rand, pos);
    var d' := d.(docRef := docRef, docRefShort := short, history := history);
    var changed := !Truthy(d.docRef) || fillShort || HistoryNeedsFill(d.history, users);
    assert changed ==> d' != d by {
      if !Truthy(d.docRef) {
        assert Truthy(d'.docRef);
      } else if fillShort {
        assert Truthy(d'.docRefShort);
      }
    }
    Filled(d', if fillShort then counter + 1 else counter, changed)
  }

  /** A second pass over a filled document changes nothing, as long as its short reference is
      present. */
  lemma {:induction false} FillDocIdempotent(d: Document, users: seq<User>, counter: nat, counterUp: bool, rand: (nat, nat) -> string, pos: nat,
                                             counter2: nat, counterUp2: bool, rand2: (nat, nat) -> string, pos2: nat)
    requires Truthy(FillDoc(d, users, counter, counterUp, rand, pos).doc.docRefShort)
    ensures var d' := FillDoc(d, users, counter, counterUp, rand, pos).doc;
            var again := FillDoc(d', users, counter2, counterUp2, rand2, pos2);
            again.doc == d' && !again.changed && again.counter == counter2
  {
    var d' := FillDoc(d, users, counter, counterUp, rand, pos).doc;
    forall k | 0 <= k < |d'.history|
      ensures !EventNeedsFill(d'.history[k], users)
    {
      var e := d.history[k];
      assert d'.history[k] == FillEvent(e, users, rand(pos, k + 1));
    }
    FillHistoryChanges(d'.history, users, rand2, pos2);
  }

  // ---------------------------------------------------------------- the pass

  /** The store, the counter and the answer (`updatedCount`, or the failure that ended the pass). */
  datatype BackfillOutcome = BackfillOutcome(store: seq<Document>, counter: nat, result: Result<nat>)

  /** `doc.save()` at time `now` for a filled document at position `i`: schema validation and
      the unique indexes against every other stored document; the stored version carries the
      save time as `updatedAt`. */
  function SaveAt(store: seq<Document>, i: nat, d: Document, now: int): (r: Result<seq<Document>>)
    requires i < |store|
    ensures r.Ok? <==> DocumentValid(d) && forall k :: 0 <= k < |store| && k != i ==> !KeysClash(store[k], d)
    ensures r.Ok? ==> r.value == store[i := d.(updatedAt := now)]
  {
    if !DocumentValid(d) then Err(ServerError("Backfill failed"))
    else if exists k | 0 <= k < |store| :: k != i && KeysClash(store[k], d) then Err(ServerError("Backfill failed"))
    else Ok(store[i := d.(updatedAt := now)])
  }

  /** The pass from position `i` on; `count` is the number of documents saved so far. A failing
      save ends the pass with a 500, keeping what was saved before it. */
  function Run(store: seq<Document>, i: nat, users: seq<User>, counter: nat, counterUp: bool,
               rand: (nat, nat) -> string, now: nat -> int, count: nat): BackfillOutcome
    requires i <= |store|
    decreases |store| - i
  {
    if i == |store| then BackfillOutcome(store, counter, Ok(count))
    else
      var f := FillDoc(store[i], users, counter, counterUp, rand, i);
      if !f.changed then Run(store, i + 1, users, f.counter, counterUp, rand, now, count)
      else
        match SaveAt(store, i, f.doc, now(i))
        case Err(e) => BackfillOutcome(store, f.counter, Err(e))
        case Ok(store') => Run(store', i + 1, users, f.counter, counterUp, rand, now, count + 1)
  }

  /** `backfillPerformedByName`. */
  function BackfillAll(store: seq<Document>, users: seq<User>, counter: nat, counterUp: bool,
                       rand: (nat, nat) -> string, now: nat -> int): (o: BackfillOutcome)
    ensures |o.store| == |store|
    ensures o.result.Ok? ==>
              && (forall k :: 0 <= k < |store| ==> Backfilled(store[k], o.store[k], users, counterUp, rand, now, k))
              && o.result.value == ChangedFrom(store, o.store, 0)
  {
    RunSpec(store, 0, users, counter, counterUp, rand, now, 0);
    Run(store, 0, users, counter, counterUp, rand, now, 0)
  }

  /** How a stored document relates to its backfilled version: only the three fields change,
      present values are kept, missing ones are filled as the step prescribes, and a document
      that changed carries its save time `now(pos)` as `updatedAt`. */
  predicate Backfilled(before: Document, after: Document, users: seq<User>, counterUp: bool, rand: (nat, nat) -> string,
                       now: nat -> int, pos: nat) {
    && after.(docRef := before.docRef, docRefShort := before.docRefShort, history := before.history,
              updatedAt := before.updatedAt) == before
    && after.updatedAt == (if after.(updatedAt := before.updatedAt) != before then now(pos) else before.updatedAt)
    && after.docRef == (if Truthy(before.docRef) then before.docRef else Some(GenerateId("DOC", rand(pos, 0))))
    && (Truthy(before.docRefShort) || !counterUp ==> after.docRefShort == before.docRefShort)
    && (!Truthy(before.docRefShort) && counterUp ==>
          after.docRefShort.Some? && ParseShortRef(after.docRefShort.value).Some?)
    && after.history == FillHistory(before.history, users, rand, pos)
  }

  /** The number of positions from `i` on where two equally long stores differ. */
  function ChangedFrom(a: seq<Document>, b: seq<Document>, i: nat): nat
    requires |a| == |b|
    decreases |a| - i
  {
    if i >= |a| then 0 else (if a[i] != b[i] then 1 else 0) + ChangedFrom(a, b, i + 1)
  }

  lemma {:induction false} ChangedFromAgree(a: seq<Document>, a': seq<Document>, b: seq<Document>, i: nat)
    requires |a| == |a'| == |b|
    requires forall k :: i <= k < |a| ==> a[k] == a'[k]
    ensures ChangedFrom(a, b, i) == ChangedFrom(a', b, i)
    decreases |a| - i
  {
    if i < |a| {
      ChangedFromAgree(a, a', b, i + 1);
    }
  }

  /** The step's document, stamped with the save time when it changed, is backfilled. */
  lemma StepBackfilled(d: Document, users: seq<User>, counter: nat, counterUp: bool, rand: (nat, nat) -> string,
                       now: nat -> int, pos: nat)
    ensures var f := FillDoc(d, users, counter, counterUp, rand, pos);
            Backfilled(d, if f.changed then f.doc.(updatedAt := now(pos)) else f.doc, users, counterUp, rand, now, pos)
  {
    ShortRefRoundTrip(counter + 1);
  }

  /** What the pass from `i` on does: earlier positions are left alone, every later document is
      backfilled, and the count grows by the number of documents that differ. */
  predicate RunDone(store: seq<Document>, i: nat, users: seq<User>, counterUp: bool, rand: (nat, nat) -> string,
                    now: nat -> int, count: nat, o: BackfillOutcome)
    requires i <= |store|
  {
    && |o.store| == |store|
    && (o.result.Ok? ==>
          && (forall k :: 0 <= k < i ==> o.store[k] == store[k])
          && (forall k :: i <= k < |store| ==> Backfilled(store[k], o.store[k], users, counterUp, rand, now, k))
          && o.result.value == count + ChangedFrom(store, o.store, i))
  }

  lemma {:induction false} RunSpec(store: seq<Document>, i: nat, users: seq<User>, counter: nat, counterUp: bool,
                                   rand: (nat, nat) -> string, now: nat -> int, count: nat)
    requires i <= |store|
    ensures RunDone(store, i, users, counterUp, rand, now, count, Run(store, i, users, counter, counterUp, rand, now, count))
    decreases |store| - i
  {
    if i < |store| {
      var f := FillDoc(store[i], users, counter, counterUp, rand, i);
      StepBackfilled(store[i], users, counter, counterUp, rand, now, i);
      if !f.changed {
        RunSpec(store, i + 1, users, f.counter, counterUp, rand, now, count);
        SkipDone(store, i, users, counterUp, rand, now, count, Run(store, i + 1, users, f.counter, counterUp, rand, now, count));
      } else if SaveAt(store, i, f.doc, now(i)).Ok? {
        var d := f.doc.(updatedAt := now(i));
        var store' := store[i := d];
        assert d.(updatedAt := store[i].updatedAt) == f.doc;
        RunSpec(store', i + 1, users, f.counter, counterUp, rand, now, count + 1);
        SavedDone(store, i, d, users, counterUp, rand, now, count, Run(store', i + 1, users, f.counter, counterUp, rand, now, count + 1));
      }
    }
  }

  /** A position left as it was: the pass from `i` is the pass from `i + 1`. */
  lemma SkipDone(store: seq<Document>, i: nat, users: seq<User>, counterUp: bool, rand: (nat, nat) -> string,
                 now: nat -> int, count: nat, o: BackfillOutcome)
    requires i < |store|
    requires Backfilled(store[i], store[i], users, counterUp, rand, now, i)
    requires RunDone(store, i + 1, users, counterUp, rand, now, count, o)
    ensures RunDone(store, i, users, counterUp, rand, now, count, o)
  {
  }

  /** A position saved with its filled document: the pass from `i` is the pass from `i + 1` over
      the store holding it, with one more counted. */
  lemma SavedDone(store: seq<Document>, i: nat, d: Document, users: seq<User>, counterUp: bool,
                  rand: (nat, nat) -> string, now: nat -> int, count: nat, o: BackfillOutcome)
    requires i < |store| && d != store[i]
    requires Backfilled(store[i], d, users, counterUp, rand, now, i)
    requires RunDone(store[i := d], i + 1, users, counterUp, rand, now, count + 1, o)
    ensures RunDone(store, i, users, counterUp, rand, now, count, o)
  {
    if o.result.Ok? {
      assert o.store[i] == d;
      ChangedFromAgree(store[i := d], store, o.store, i + 1);
    }
  }

  /** After a pass that completed with the counter available, every document has a `docRef`, a
      `docRefShort` and an id on every event. */
  lemma CompleteAfterRun(store: seq<Document>, users: seq<User>, counter: nat, rand: (nat, nat) -> string, now: nat -> int)
    requires BackfillAll(store, users, counter, true, rand, now).result.Ok?
    ensures forall d :: d in BackfillAll(store, users, counter, true, rand, now).store ==>
              Truthy(d.docRef) && Truthy(d.docRefShort) && forall k :: 0 <= k < |d.history| ==> Truthy(d.history[k].eventId)
  {
    var o := BackfillAll(store, users, counter, true, rand, now);
    forall d | d in o.store
      ensures Truthy(d.docRef) && Truthy(d.docRefShort) && forall k :: 0 <= k < |d.history| ==> Truthy(d.history[k].eventId)
    {
      var j :| 0 <= j < |o.store| && o.store[j] == d;
      assert Backfilled(store[j], d, users, true, rand, now, j);
    }
  }

  /** A pass over documents that are all already filled saves nothing and reports 0. */
  lemma {:induction false} RunOverFilled(store: seq<Document>, i: nat, users: seq<User>, counter: nat, counterUp: bool,
                                         rand: (nat, nat) -> string, now: nat -> int, count: nat)
    requires i <= |store|
    requires forall k :: i <= k < |store| ==> !FillDoc(store[k], users, counter, counterUp, rand, k).changed
    ensures Run(store, i, users, counter, counterUp, rand, now, count) == BackfillOutcome(store, counter, Ok(count))
    decreases |store| - i
  {
    if i < |store| {
      RunOverFilled(store, i + 1, users, counter, counterUp, rand, now, count);
    }
  }

  /** Filled events need nothing more. */
  lemma FilledEventsDone(d: Document, users: seq<User>, rand: (nat, nat) -> string, pos: nat)
    ensures !HistoryNeedsFill(FillHistory(d.history, users, rand, pos), users)
  {
    var h := FillHistory(d.history, users, rand, pos);
    forall k | 0 <= k < |h|
      ensures !EventNeedsFill(h[k], users)
    {
      assert h[k] == FillEvent(d.history[k], users, rand(pos, k + 1));
    }
  }

  /** Running the backfill a second time after a complete first pass changes nothing and reports
      an `updatedCount` of 0. */
  lemma SecondRunChangesNothing(store: seq<Document>, users: seq<User>, counter: nat, rand: (nat, nat) -> string,
                                now: nat -> int, counter2: nat, counterUp2: bool, rand2: (nat, nat) -> string,
                                now2: nat -> int)
    requires BackfillAll(store, users, counter, true, rand, now).result.Ok?
    ensures var first := BackfillAll(store, users, counter, true, rand, now).store;
            BackfillAll(first, users, counter2, counterUp2, rand2, now2) == BackfillOutcome(first, counter2, Ok(0))
  {
    var first := BackfillAll(store, users, counter, true, rand, now).store;
    forall k | 0 <= k < |first|
      ensures !FillDoc(first[k], users, counter2, counterUp2, rand2, k).changed
    {
      assert Backfilled(store[k], first[k], users, true, rand, now, k);
      FilledEventsDone(store[k], users, rand, k);
      FillHistoryChanges(first[k].history, users, rand2, k);
    }
    RunOverFilled(first, 0, users, counter2, counterUp2, rand2, now2, 0);
  }
}

=== FILE: bulk.dfy ===
/** `POST /api/documents/bulk`: one action (delete, close or assign) applied to a list of
    documents in turn, with one result per id. Items are independent; a save that fails aborts
    the remaining items and the request answers 500, keeping the writes already made. */
module Bulk {
  import opened Wrappers
  import opened Model
  import opened Documents

  datatype BulkAction = BulkDelete | BulkClose | BulkAssign | OtherAction(name: string)

  /** The optional payload; a field the client left out is "". */
  datatype BulkPayload = BulkPayload(closingMessage: string, assignedTo: string)

  /** `{ id, success, msg }`. */
  datatype ItemResult = ItemResult(id: DocId, success: bool, msg: string)

  /** One item processed: the collection afterwards, and the item's result or the error of a
      failed save. */
  datatype Step = Step(store: seq<Document>, result: Result<ItemResult>)

  /** Several items processed. */
  datatype BulkOutcome = BulkOutcome(store: seq<Document>, response: Result<seq<ItemResult>>)

  /** The bulk permission: owner, admin, editor on the access list, or assignee. */
  predicate MayBulkEdit(d: Document, actor: User) {
    IsOwner(d, actor) || IsAdmin(actor) || IsEditor(d, actor) || IsAssignee(d, actor)
  }

  /** The messages of the items that succeed. */
  predicate SuccessMessage(msg: string) {
    msg == "Deleted" || msg == "Closed" || msg == "Assigned"
  }

  /** The closed version of a document: status, closing fields and one "Closed" event whose
      details are the closing message itself. */
  function CloseDoc(d: Document, actor: User, message: string, now: int, random: string): (d': Document)
    ensures d'.id == d.id && d'.status == Closed && d'.closedMessage == Some(message)
    ensures d'.closedAt == Some(now) && d'.closedBy == Some(actor.id)
    ensures |d'.history| == |d.history| + 1 && d'.history[..|d.history|] == d.history
    ensures d'.history[|d.history|].action == ActionClosed
    ensures DocumentValid(d') <==> DocumentValid(d)
  {
    var ev := EventBy(ActionClosed, actor, random, now, message);
    HistoryValidAppend(d.history, [ev]);
    d.(status := Closed, closedMessage := Some(message), closedAt := Some(now), closedBy := Some(actor.id),
       history := d.history + [ev], updatedAt := now)
  }

  /** The reassigned version of a document, with the username the new assignee resolves to. */
  function AssignDoc(d: Document, users: seq<User>, actor: User, assignee: UserId, now: int, random: string): (d': Document)
    ensures d'.id == d.id && d'.assignedTo == Some(assignee) && d'.assignedToName == Some(UsernameOf(users, assignee))
    ensures d'.status == d.status && d'.closedMessage == d.closedMessage
    ensures |d'.history| == |d.history| + 1 && d'.history[..|d.history|] == d.history
    ensures d'.history[|d.history|].action == ActionAssigned
    ensures DocumentValid(d') <==> DocumentValid(d)
  {
    var name := UsernameOf(users, assignee);
    var ev := EventBy(ActionAssigned, actor, random, now, "Assigned to " + (if name != "" then name else assignee));
    HistoryValidAppend(d.history, [ev]);
    d.(assignedTo := Some(assignee), assignedToName := Some(name), history := d.history + [ev], updatedAt := now)
  }

  /** Saves a changed document and reports success, or the failed save. */
  function SaveStep(store: seq<Document>, d: Document, id: DocId, msg: string): (s: Step)
    requires FindDoc(store, d.id).Some?
    ensures s.result.Ok? <==> DocumentValid(d)
    ensures s.result.Ok? ==> s == Step(SaveExisting(store, d), Ok(ItemResult(id, true, msg)))
    ensures s.result.Err? ==> s.store == store && s.result.error.ServerError?
  {
    match SaveChecked(store, d)
    case Ok(sv) => Step(sv.store, Ok(ItemResult(id, true, msg)))
    case Err(e) => Step(store, Err(e))
  }

  /** The action itself, on a document the requester may edit in bulk. */
  function ApplyAction(store: seq<Document>, users: seq<User>, actor: User, action: BulkAction, payload: BulkPayload,
                       d: Document, now: int, random: string): (s: Step)
    requires FindDoc(store, d.id).Some?
    ensures s.result.Ok? ==> s.result.value.id == d.id
    ensures s.result.Ok? ==> (s.result.value.success <==> SuccessMessage(s.result.value.msg))
    ensures !(s.result.Ok? && s.result.value.success) ==> s.store == store
    ensures s.result.Err? ==> s.result.error.ServerError? && !DocumentValid(d)
    ensures action == BulkDelete ==> s == Step(RemoveDoc(store, d.id), Ok(ItemResult(d.id, true, "Deleted")))
    ensures action == BulkClose && payload.closingMessage == "" ==>
              s == Step(store, Ok(ItemResult(d.id, false, "Missing closing message")))
    ensures action == BulkClose && payload.closingMessage != "" && DocumentValid(d) ==>
              s == Step(SaveExisting(store, CloseDoc(d, actor, payload.closingMessage, now, random)), Ok(ItemResult(d.id, true, "Closed")))
    ensures action == BulkAssign && payload.assignedTo == "" ==>
              s == Step(store, Ok(ItemResult(d.id, false, "No assignedTo specified")))
    ensures action == BulkAssign && payload.assignedTo != "" && DocumentValid(d) ==>
              s == Step(SaveExisting(store, AssignDoc(d, users, actor, payload.assignedTo, now, random)), Ok(ItemResult(d.id, true, "Assigned")))
    ensures action.OtherAction? ==> s == Step(store, Ok(ItemResult(d.id, false, "Unknown action")))
  {
    match action
    case BulkDelete => Step(RemoveDoc(store, d.id), Ok(ItemResult(d.id, true, "Deleted")))
    case BulkClose =>
      if payload.closingMessage == "" then Step(store, Ok(ItemResult(d.id, false, "Missing closing message")))
      else SaveStep(store, CloseDoc(d, actor, payload.closingMessage, now, random), d.id, "Closed")
    case BulkAssign =>
      if payload.assignedTo == "" then Step(store, Ok(ItemResult(d.id, false, "No assignedTo specified")))
      else SaveStep(store, AssignDoc(d, users, actor, payload.assignedTo, now, random), d.id, "Assigned")
    case OtherAction(_) => Step(store, Ok(ItemResult(d.id, false, "Unknown action")))
  }

  /** One id of the list. */
  function BulkItem(store: seq<Document>, users: seq<User>, actor: User, action: BulkAction, payload: BulkPayload,
                    id: DocId, now: int, random: string): (s: Step)
    ensures s.result.Ok? ==> s.result.value.id == id
    ensures s.result.Ok? ==> (s.result.value.success <==> SuccessMessage(s.result.value.msg))
    ensures s.result.Ok? && s.result.value.success ==> FindDoc(store, id).Some? && MayBulkEdit(FindDoc(store, id).value, actor)
    ensures !(s.result.Ok? && s.result.value.success) ==> s.store == store
    ensures s.result.Err? ==> s.result.error.ServerError? && FindDoc(store, id).Some? && !DocumentValid(FindDoc(store, id).value)
    ensures FindDoc(store, id).None? ==> s == Step(store, Ok(ItemResult(id, false, "Not found")))
    ensures FindDoc(store, id).Some? && !MayBulkEdit(FindDoc(store, id).value, actor) ==>
      s == Step(store, Ok(ItemResult(id, false, "Not authorized")))
    ensures FindDoc(store, id).Some? && MayBulkEdit(FindDoc(store, id).value, actor) ==>
      var d := FindDoc(store, id).value;
      && (action == BulkDelete ==> s == Step(RemoveDoc(store, id), Ok(ItemResult(id, true, "Deleted"))))
      && (action == BulkClose && payload.closingMessage != "" && DocumentValid(d) ==>
            s == Step(SaveExisting(store, CloseDoc(d, actor, payload.closingMessage, now, random)), Ok(ItemResult(id, true, "Closed"))))
      && (action == BulkAssign && payload.assignedTo != "" && DocumentValid(d) ==>
            s == Step(SaveExisting(store, AssignDoc(d, users, actor, payload.assignedTo, now, random)), Ok(ItemResult(id, true, "Assigned"))))
      && (action.OtherAction? ==> s == Step(store, Ok(ItemResult(id, false, "Unknown action"))))
  {
    match FindDoc(store, id)
    case None => Step(store, Ok(ItemResult(id, false, "Not found")))
    case Some(d) =>
      if !MayBulkEdit(d, actor) then Step(store, Ok(ItemResult(id, false, "Not authorized")))
      else ApplyAction(store, users, actor, action, payload, d, now, random)
  }

  /** Puts the results of earlier items in front of a run's results; a failed run stays failed. */
  function Prepend(done: seq<ItemResult>, o: BulkOutcome): (r: BulkOutcome)
    ensures r.store == o.store && r.response.Ok? == o.response.Ok?
  {
    match o.response
    case Err(e) => o
    case Ok(items) => BulkOutcome(o.store, Ok(done + items))
  }

  lemma PrependNothing(o: BulkOutcome)
    ensures Prepend([], o) == o
  {
    if o.response.Ok? {
      assert [] + o.response.value == o.response.value;
    }
  }

  lemma PrependEmptyRun(store: seq<Document>, users: seq<User>, actor: User, action: BulkAction, payload: BulkPayload,
                        now: int, rand: nat -> string, nonce: nat, done: seq<ItemResult>)
    ensures Prepend(done, BulkRun(store, users, actor, action, payload, [], now, rand, nonce)) == BulkOutcome(store, Ok(done))
  {
    assert done + [] == done;
  }

  lemma PrependTwice(a: seq<ItemResult>, b: seq<ItemResult>, o: BulkOutcome)
    ensures Prepend(a, Prepend(b, o)) == Prepend(a + b, o)
  {
    if o.response.Ok? {
      assert a + (b + o.response.value) == (a + b) + o.response.value;
    }
  }

  /** The reference semantics: the ids processed left to right, the `k`-th drawing its random
      part at `nonce + k`; the first failed save ends the run. */
  function BulkRun(store: seq<Document>, users: seq<User>, actor: User, action: BulkAction, payload: BulkPayload,
                   ids: seq<DocId>, now: int, rand: nat -> string, nonce: nat): (o: BulkOutcome)
    ensures o.response.Ok? ==> |o.response.value| == |ids|
    ensures o.response.Ok? ==> forall k :: 0 <= k < |ids| ==> o.response.value[k].id == ids[k]
    ensures o.response.Err? ==> o.response.error.ServerError?
    decreases |ids|
  {
    if |ids| == 0 then BulkOutcome(store, Ok([]))
    else
      var s := BulkItem(store, users, actor, action, payload, ids[0], now, rand(nonce));
      match s.result
      case Err(e) => BulkOutcome(s.store, Err(e))
      case Ok(item) => Prepend([item], BulkRun(s.store, users, actor, action, payload, ids[1..], now, rand, nonce + 1))
  }

  /** The first step of a run. */
  lemma BulkRunStep(store: seq<Document>, users: seq<User>, actor: User, action: BulkAction, payload: BulkPayload,
                    ids: seq<DocId>, now: int, rand: nat -> string, nonce: nat)
    requires |ids| > 0
    ensures var s := BulkItem(store, users, actor, action, payload, ids[0], now, rand(nonce));
      BulkRun(store, users, actor, action, payload, ids, now, rand, nonce)
        == if s.result.Err? then BulkOutcome(s.store, Err(s.result.error))
           else Prepend([s.result.value], BulkRun(s.store, users, actor, action, payload, ids[1..], now, rand, nonce + 1))
  {
  }

  /** The loop has handled `list[..i]`: the results so far followed by the rest of the run from
      `current` are the whole run. */
  predicate Resumes(store: seq<Document>, users: seq<User>, actor: User, action: BulkAction, payload: BulkPayload,
                    list: seq<DocId>, now: int, rand: nat -> string, nonce: nat,
                    current: seq<Document>, results: seq<ItemResult>, i: nat)
    requires i <= |list|
  {
    Prepend(results, BulkRun(current, users, actor, action, payload, list[i..], now, rand, nonce + i))
      == BulkRun(store, users, actor, action, payload, list, now, rand, nonce)
  }

  /** One turn of the controller's loop, against the reference semantics. */
  lemma BulkLoopStep(store: seq<Document>, users: seq<User>, actor: User, action: BulkAction, payload: BulkPayload,
                     list: seq<DocId>, i: nat, now: int, rand: nat -> string, nonce: nat,
                     current: seq<Document>, results: seq<ItemResult>)
    requires i < |list|
    requires Resumes(store, users, actor, action, payload, list, now, rand, nonce, current, results, i)
    ensures var s := BulkItem(current, users, actor, action, payload, list[i], now, rand(nonce + i));
      && (s.result.Err? ==> BulkOutcome(s.store, Err(s.result.error)) == BulkRun(store, users, actor, action, payload, list, now, rand, nonce))
      && (s.result.Ok? ==> Resumes(store, users, actor, action, payload, list, now, rand, nonce, s.store, results + [s.result.value], i + 1))
  {
    var s := BulkItem(current, users, actor, action, payload, list[i], now, rand(nonce + i));
    assert list[i..][0] == list[i] && list[i..][1..] == list[i + 1..];
    BulkRunStep(current, users, actor, action, payload, list[i..], now, rand, nonce + i);
    if s.result.Ok? {
      var rest := BulkRun(s.store, users, actor, action, payload, list[i + 1..], now, rand, nonce + (i + 1));
      PrependTwice(results, [s.result.value], rest);
    }
  }

  /** The controller's loop. An empty id list is refused with 400. */
  method BulkActionRequest(store: seq<Document>, users: seq<User>, actor: User, action: BulkAction,
                           payload: BulkPayload, ids: Option<seq<DocId>>, now: int, rand: nat -> string, nonce: nat)
    returns (o: BulkOutcome)
    ensures (ids.None? || |ids.value| == 0) ==> o == BulkOutcome(store, Err(BadRequest("No document ids provided")))
    ensures ids.Some? && |ids.value| > 0 ==> o == BulkRun(store, users, actor, action, payload, ids.value, now, rand, nonce)
  {
    if ids.None? || |ids.value| == 0 {
      return BulkOutcome(store, Err(BadRequest("No document ids provided")));
    }
    o := BulkLoop(store, users, actor, action, payload, ids.value, now, rand, nonce);
  }

  /** The loop over the ids, item by item. */
  method BulkLoop(store: seq<Document>, users: seq<User>, actor: User, action: BulkAction,
                  payload: BulkPayload, list: seq<DocId>, now: int, rand: nat -> string, nonce: nat)
    returns (o: BulkOutcome)
    ensures o == BulkRun(store, users, actor, action, payload, list, now, rand, nonce)
  {
    var current := store;
    var results: seq<ItemResult> := [];
    var i := 0;
    assert list[0..] == list;
    PrependNothing(BulkRun(store, users, actor, action, payload, list, now, rand, nonce));
    while i < |list|
      invariant 0 <= i <= |list|
      invariant Resumes(store, users, actor, action, payload, list, now, rand, nonce, current, results, i)
    {
      var s := BulkItem(current, users, actor, action, payload, list[i], now, rand(nonce + i));
      BulkLoopStep(store, users, actor, action, payload, list, i, now, rand, nonce, current, results);
      if s.result.Err? {
        return BulkOutcome(s.store, Err(s.result.error));
      }
      current, results, i := s.store, results + [s.result.value], i + 1;
    }
    assert list[i..] == [];
    PrependEmptyRun(current, users, actor, action, payload, now, rand, nonce + i, results);
    o := BulkOutcome(current, Ok(results));
  }

  /** Bulk deletion is allowed more widely than deleting one document: an editor on the access
      list or the assignee may delete in bulk what `DeleteDocument` refuses them. */
  lemma BulkDeleteWiderThanDelete(store: seq<Document>, users: seq<User>, actor: User, id: DocId, now: int, random: string)
    requires FindDoc(store, id).Some?
    requires var d := FindDoc(store, id).value; !IsOwner(d, actor) && !IsAdmin(actor) && IsAssignee(d, actor)
    ensures DeleteDocument(store, actor, id).Err? && DeleteDocument(store, actor, id).error.Unauthorized?
    ensures var s := BulkItem(store, users, actor, BulkDelete, BulkPayload("", ""), id, now, random);
      s.result == Ok(ItemResult(id, true, "Deleted")) && s.store == RemoveDoc(store, id)
  {
  }

  /** Closing in bulk, with a message, by someone allowed to: the document is stored closed, with
      the message, and its history gains one "Closed" event. */
  lemma BulkCloseCloses(store: seq<Document>, users: seq<User>, actor: User, id: DocId, message: string,
                        now: int, random: string)
    requires StoreInvariant(store) && FindDoc(store, id).Some? && MayBulkEdit(FindDoc(store, id).value, actor)
    requires message != ""
    ensures var s := BulkItem(store, users, actor, BulkClose, BulkPayload(message, ""), id, now, random);
      && s.result == Ok(ItemResult(id, true, "Closed"))
      && FindDoc(s.store, id).Some?
      && var d' := FindDoc(s.store, id).value;
         d'.status == Closed && d'.closedMessage == Some(message)
         && |d'.history| == |FindDoc(store, id).value.history| + 1
  {
    var d := FindDoc(store, id).value;
    assert DocumentValid(d);
    var d' := CloseDoc(d, actor, message, now, random);
    FindAfterSave(store, d');
  }

  /** A bulk close without a closing message changes nothing. */
  lemma BulkCloseNeedsMessage(store: seq<Document>, users: seq<User>, actor: User, id: DocId, now: int, random: string)
    requires FindDoc(store, id).Some? && MayBulkEdit(FindDoc(store, id).value, actor)
    ensures BulkItem(store, users, actor, BulkClose, BulkPayload("", ""), id, now, random)
         == Step(store, Ok(ItemResult(id, false, "Missing closing message")))
  {
  }
}

=== FILE: client_roles.dfy ===
/** The client's copy of the creatable-roles table and the admin screens' use of it: whether the
    "New User" action and the creation form are shown, which roles the dropdown offers, and how
    the selected role is brought back into the allowed list. */
module ClientRoles {
  import opened Wrappers
  import opened Roles

  /** `roleAllowances` as the client declares it. */
  const RoleAllowances: map<Role, seq<Role>> := map[
    TechnicalAdmin := [UserRole, Employee, Manager, Ceo, Admin, TechnicalAdmin, Hr],
    Admin := [UserRole, Employee, Manager, Ceo, Hr],
    Manager := [Employee, UserRole],
    Ceo := [Employee, UserRole],
    Hr := [Employee, UserRole],
    Employee := [UserRole],
    UserRole := []
  ]

  /** The client table is the server table, entry for entry. */
  lemma TablesAgree()
    ensures RoleAllowances == RolePermissions
  {
  }

  /** `roleAllowances[user?.role] || []`: nothing without a signed-in user, otherwise exactly the
      list the server enforces for that role. */
  function AllowedRoles(user: Option<Role>): (r: seq<Role>)
    ensures user.None? ==> r == []
    ensures user.Some? ==> r == CreatableRoles(user.value)
  {
    if user.Some? && user.value in RoleAllowances then RoleAllowances[user.value] else []
  }

  /** The dropdown's options: the names of the allowed roles, in table order. */
  function RoleOptions(user: Option<Role>): (opts: seq<string>)
    ensures |opts| == |AllowedRoles(user)|
    ensures forall i :: 0 <= i < |opts| ==> opts[i] == RoleName(AllowedRoles(user)[i])
  {
    var allowed := AllowedRoles(user);
    seq(|allowed|, i requires 0 <= i < |allowed| => RoleName(allowed[i]))
  }

  /** AdminUsers shows "New User" and CreateUserForm renders only when some role is creatable. */
  predicate ShowCreate(user: Option<Role>) {
    user.Some? && |AllowedRoles(user)| > 0
  }

  lemma ShowCreateIff(user: Option<Role>)
    ensures ShowCreate(user) <==> user.Some? && user.value != UserRole
  {
    if user.Some? && user.value != UserRole {
      assert user.value in RolePermissions;
    }
  }

  /** The form's effect on `formData.role`: a role outside a non-empty allowed list is replaced by
      the first allowed role; otherwise the selection stays. */
  function SyncSelectedRole(user: Option<Role>, selected: string): (r: string)
    ensures |RoleOptions(user)| == 0 ==> r == selected
    ensures |RoleOptions(user)| > 0 ==> r in RoleOptions(user)
    ensures selected in RoleOptions(user) ==> r == selected
  {
    var opts := RoleOptions(user);
    if |opts| > 0 && selected !in opts then opts[0] else selected
  }

  /** Whatever was selected, once the form is shown the role it submits is one the server's
      `createUser` permission check accepts for the same user. */
  lemma SubmittedRoleAccepted(user: Option<Role>, selected: string)
    requires ShowCreate(user)
    ensures MayCreate(user.value, SyncSelectedRole(user, selected))
  {
    var opts := RoleOptions(user);
    var r := SyncSelectedRole(user, selected);
    var i :| 0 <= i < |opts| && opts[i] == r;
    assert RoleName(CreatableRoles(user.value)[i]) == r;
  }
}

=== FILE: doc_reducer.dfy ===
/** The client's document state and its reducer: loading pages, adding, replacing and removing
    documents in the cached list, and the in-memory filter. A reducer call that would throw in
    the browser (an operation on a cleared list, a metadata filter pair without a value) yields
    `None`. Dates are epoch milliseconds; `endOfDay` is the local-time end of the given day. */
module DocumentReducer {
  import opened Wrappers
  import opened Text
  import opened Sorting

  /** A reference as the API sends it: absent, a raw id, or a populated user object. */
  datatype Ref = NoRef | Raw(id: string) | Populated(id: string, username: string)

  /** A document as the client holds it. */
  datatype ClientDoc = ClientDoc(
    id: string,
    title: string,
    content: string,
    tags: seq<string>,
    metadata: Option<map<string, string>>,
    docRefShort: Option<string>,
    status: string,
    owner: Ref,
    assignedTo: Ref,
    createdAt: int)

  datatype DocState = DocState(
    documents: Option<seq<ClientDoc>>,
    filtered: Option<seq<ClientDoc>>,
    current: Option<ClientDoc>,
    error: Option<string>,
    total: int,
    page: int,
    totalPages: int,
    loading: bool)

  /** The filter form: every text field is "" when empty; dates are parsed. */
  datatype FilterPayload = FilterPayload(
    text: string,
    search: string,
    tags: string,
    metadata: string,
    docRefShort: string,
    status: string,
    owner: string,
    assignedTo: string,
    startDate: Option<int>,
    endDate: Option<int>)

  datatype DocAction =
    | GetDocuments(documents: Option<seq<ClientDoc>>, total: Option<int>, page: Option<int>, totalPages: Option<int>)
    | GetDocument(doc: ClientDoc)
    | AddDocument(doc: ClientDoc)
    | UpdateDocument(doc: ClientDoc)
    | DeleteDocument(id: string)
    | ClearDocuments
    | SetCurrent(current: Option<ClientDoc>)
    | ClearCurrent
    | FilterDocuments(filter: FilterPayload)
    | ClearFilter
    | DocumentError(error: Option<string>)
    | ClearDocumentErrors
    | OtherAction(name: string)

  /** `value || fallback` for a number: a missing or zero value falls back. */
  function OrNumber(o: Option<int>, fallback: int): (r: int)
    ensures o.Some? && o.value != 0 ==> r == o.value
    ensures o.None? || o.value == 0 ==> r == fallback
  {
    if o.Some? && o.value != 0 then o.value else fallback
  }

  // ---------------------------------------------------------------- list operations

  /** `documents.map(d => d._id === doc._id ? doc : d)`. */
  function ReplaceById(docs: seq<ClientDoc>, doc: ClientDoc): (r: seq<ClientDoc>)
    ensures |r| == |docs|
    ensures forall k :: 0 <= k < |docs| ==> r[k] == if docs[k].id == doc.id then doc else docs[k]
  {
    seq(|docs|, k requires 0 <= k < |docs| => if docs[k].id == doc.id then doc else docs[k])
  }

  /** `documents.filter(d => d._id !== id)`. */
  function RemoveById(docs: seq<ClientDoc>, id: string): (r: seq<ClientDoc>)
    ensures forall d :: d in r <==> d in docs && d.id != id
    ensures forall d :: multiset(r)[d] == if d.id != id then multiset(docs)[d] else 0
    ensures Subsequence(r, docs)
  {
    if |docs| == 0 then []
    else
      assert docs == [docs[0]] + docs[1..];
      if docs[0].id == id then RemoveById(docs[1..], id)
      else [docs[0]] + RemoveById(docs[1..], id)
  }

  // ---------------------------------------------------------------- the filter

  /** `String(id)` of a reference: the populated object's `_id`, the raw id, or "null". */
  function RefId(r: Ref): string {
    match r
    case NoRef => "null"
    case Raw(id) => if id != "" then id else "null"
    case Populated(id, _) => if id != "" then id else "[object Object]"
  }

  /** A filter field other than "" and "all" constrains; those two do not. */
  predicate Active(v: string) {
    v != "" && v != "all"
  }

  /** One `key:value` pair, both trimmed; a pair without a colon has no value. */
  function MetadataPair(s: string): (string, Option<string>) {
    var parts := Split(s, ':');
    (Trim(parts[0]), if |parts| >= 2 then Some(Trim(parts[1])) else None)
  }

  function MetadataPairs(items: seq<string>): (r: seq<(string, Option<string>)>)
    ensures |r| == |items| && forall k :: 0 <= k < |items| ==> r[k] == MetadataPair(items[k])
  {
    seq(|items|, k requires 0 <= k < |items| => MetadataPair(items[k]))
  }

  /** `pairs.every(...)`, stopping at the first pair that fails; reaching `value.toLowerCase()`
      for a pair without a value throws. */
  function MetadataEvery(pairs: seq<(string, Option<string>)>, md: Option<map<string, string>>): (r: Option<bool>)
    ensures r == Some(true) <==> forall k :: 0 <= k < |pairs| ==> PairHolds(pairs[k], md)
  {
    if |pairs| == 0 then Some(true)
    else
      var (key, value) := pairs[0];
      if md.None? || key !in md.value || md.value[key] == "" then Some(false)
      else if value.None? then None
      else if !ContainsCI(md.value[key], value.value) then Some(false)
      else MetadataEvery(pairs[1..], md)
  }

  /** A pair holds when the document has a non-empty value under its key containing its value. */
  predicate PairHolds(pair: (string, Option<string>), md: Option<map<string, string>>) {
    md.Some? && pair.0 in md.value && md.value[pair.0] != "" && pair.1.Some? && ContainsCI(md.value[pair.0], pair.1.value)
  }

  /** The search text (`text`, or `search` when `text` is empty) occurs in the title or the content. */
  predicate TextHolds(text: string, search: string, title: string, content: string) {
    var searchText := if text != "" then text else search;
    searchText == "" || ContainsCI(title, searchText) || ContainsCI(content, searchText)
  }

  /** Some document tag contains some trimmed filter tag, case-insensitively. */
  predicate TagsHold(tags: string, docTags: seq<string>) {
    var wanted := Split(tags, ',');
    tags == "" || exists i, j | 0 <= i < |docTags| && 0 <= j < |wanted| :: ContainsCI(docTags[i], Trim(wanted[j]))
  }

  /** The text and tag conditions, evaluated before the metadata one. */
  predicate TextAndTags(f: FilterPayload, d: ClientDoc) {
    TextHolds(f.text, f.search, d.title, d.content) && TagsHold(f.tags, d.tags)
  }

  /** Every `key:value` pair holds. */
  predicate MetadataHolds(metadata: string, md: Option<map<string, string>>) {
    var items := Split(metadata, ',');
    metadata == "" || forall k :: 0 <= k < |items| ==> PairHolds(MetadataPair(items[k]), md)
  }

  /** Evaluating the pairs reaches a pair without a value. */
  predicate PairsThrow(metadata: string, md: Option<map<string, string>>) {
    MetadataEvery(MetadataPairs(Split(metadata, ',')), md).None?
  }

  /** The short-reference condition: a case-insensitive substring of a non-empty reference. */
  predicate ShortRefHolds(wanted: string, short: Option<string>) {
    wanted == "" || (short.Some? && short.value != "" && ContainsCI(short.value, wanted))
  }

  /** The conditions after the metadata one. */
  predicate LaterConditions(f: FilterPayload, d: ClientDoc, endOfDay: int -> int) {
    && ShortRefHolds(f.docRefShort, d.docRefShort)
    && (!Active(f.status) || d.status == f.status)
    && (!Active(f.owner) || RefId(d.owner) == f.owner)
    && (!Active(f.assignedTo) || RefId(d.assignedTo) == f.assignedTo)
    && (f.startDate.None? || d.createdAt >= f.startDate.value)
    && (f.endDate.None? || d.createdAt <= endOfDay(f.endDate.value))
  }

  /** All the filter's conditions hold for the document. */
  predicate Matches(f: FilterPayload, d: ClientDoc, endOfDay: int -> int) {
    TextAndTags(f, d) && MetadataHolds(f.metadata, d.metadata) && LaterConditions(f, d, endOfDay)
  }

  /** The metadata condition throws for this document. */
  predicate MetadataThrows(f: FilterPayload, d: ClientDoc) {
    f.metadata != "" && TextAndTags(f, d) && PairsThrow(f.metadata, d.metadata)
  }

  /** The filter callback for one document: `Some(matches)`, or `None` when it throws. The
      metadata pairs are only looked at when the text and tag conditions already hold. */
  function DocMatches(f: FilterPayload, d: ClientDoc, endOfDay: int -> int): (r: Option<bool>)
    ensures r.None? <==> MetadataThrows(f, d)
    ensures r.Some? ==> (r.value <==> Matches(f, d, endOfDay))
  {
    var before := TextAndTags(f, d);
    if f.metadata == "" then Some(before && LaterConditions(f, d, endOfDay))
    else if !before then Some(false)
    else
      var items := Split(f.metadata, ',');
      var pairs := MetadataPairs(items);
      match MetadataEvery(pairs, d.metadata)
      case None => None
      case Some(m) => Some(m && LaterConditions(f, d, endOfDay))
  }

  /** Two filter calls agree when their conditions do. */
  lemma SameVerdict(f: FilterPayload, d: ClientDoc, g: FilterPayload, e: ClientDoc, endOfDay: int -> int)
    requires MetadataThrows(f, d) == MetadataThrows(g, e)
    requires Matches(f, d, endOfDay) == Matches(g, e, endOfDay)
    ensures DocMatches(f, d, endOfDay) == DocMatches(g, e, endOfDay)
  {
  }

  /** `documents.filter(callback)`; `None` when the callback throws on some document. */
  function FilterDocs(docs: seq<ClientDoc>, f: FilterPayload, endOfDay: int -> int): (r: Option<seq<ClientDoc>>)
    ensures r.None? <==> exists k | 0 <= k < |docs| :: MetadataThrows(f, docs[k])
    ensures r.Some? ==> r.value == Kept(docs, f, endOfDay)
    ensures r.Some? ==> Subsequence(r.value, docs)
    ensures r.Some? ==> forall d :: d in r.value <==> d in docs && Matches(f, d, endOfDay)
    ensures r.Some? ==> forall d :: multiset(r.value)[d] == if Matches(f, d, endOfDay) then multiset(docs)[d] else 0
  {
    if |docs| == 0 then Some([])
    else
      match DocMatches(f, docs[0], endOfDay)
      case None => None
      case Some(m) =>
        match FilterDocs(docs[1..], f, endOfDay)
        case None => None
        case Some(rest) =>
          assert forall k | 1 <= k < |docs| :: docs[k] == docs[1..][k - 1];
          Some(if m then [docs[0]] + rest else rest)
  }

  /** The documents that match, when the callback throws on none: each as often as the list
      holds it, in list order. */
  function Kept(docs: seq<ClientDoc>, f: FilterPayload, endOfDay: int -> int): (r: seq<ClientDoc>)
    ensures Subsequence(r, docs)
    ensures forall d :: d in r <==> d in docs && Matches(f, d, endOfDay)
    ensures forall d :: multiset(r)[d] == if Matches(f, d, endOfDay) then multiset(docs)[d] else 0
  {
    if |docs| == 0 then []
    else
      var rest := Kept(docs[1..], f, endOfDay);
      FilterStep(docs, rest, Matches(f, docs[0], endOfDay), d => Matches(f, d, endOfDay));
      if Matches(f, docs[0], endOfDay) then [docs[0]] + rest else rest
  }

  // ---------------------------------------------------------------- the reducer

  /** The reducer. `None` stands for the call throwing. */
  function Reduce(s: DocState, a: DocAction, endOfDay: int -> int): (r: Option<DocState>)
    ensures a.AddDocument? || a.UpdateDocument? || a.DeleteDocument? || a.FilterDocuments? ==> (s.documents.None? ==> r.None?)
    ensures a.AddDocument? && s.documents.Some? ==>
              r == Some(s.(documents := Some([a.doc] + s.documents.value), loading := false))
    ensures a.UpdateDocument? && s.documents.Some? ==>
              r == Some(s.(documents := Some(ReplaceById(s.documents.value, a.doc)), loading := false))
    ensures a.DeleteDocument? && s.documents.Some? ==>
              r == Some(s.(documents := Some(RemoveById(s.documents.value, a.id)), loading := false))
    ensures a.GetDocuments? ==>
              r == Some(s.(documents := Some(a.documents.GetOr([])), total := OrNumber(a.total, 0),
                           page := OrNumber(a.page, 1), totalPages := OrNumber(a.totalPages, 1), loading := false))
    ensures a.FilterDocuments? && r.Some? ==>
              && s.documents.Some?
              && r.value == s.(filtered := FilterDocs(s.documents.value, a.filter, endOfDay))
    ensures a.FilterDocuments? && s.documents.Some? ==>
              (r.Some? <==> FilterDocs(s.documents.value, a.filter, endOfDay).Some?)
    ensures a.ClearDocuments? ==> r == Some(s.(documents := None, filtered := None, error := None, current := None))
    ensures a.GetDocument? ==> r == Some(s.(current := Some(a.doc), loading := false))
    ensures a.SetCurrent? ==> r == Some(s.(current := a.current))
    ensures a.ClearCurrent? ==> r == Some(s.(current := None))
    ensures a.ClearFilter? ==> r == Some(s.(filtered := None))
    ensures a.DocumentError? ==> r == Some(s.(error := a.error))
    ensures a.ClearDocumentErrors? ==> r == Some(s.(error := None))
    ensures a.OtherAction? ==> r == Some(s)
  {
    match a
    case GetDocuments(docs, total, page, totalPages) =>
      Some(s.(documents := Some(docs.GetOr([])), total := OrNumber(total, 0), page := OrNumber(page, 1),
              totalPages := OrNumber(totalPages, 1), loading := false))
    case GetDocument(doc) => Some(s.(current := Some(doc), loading := false))
    case AddDocument(doc) =>
      if s.documents.None? then None else Some(s.(documents := Some([doc] + s.documents.value), loading := false))
    case UpdateDocument(doc) =>
      if s.documents.None? then None else Some(s.(documents := Some(ReplaceById(s.documents.value, doc)), loading := false))
    case DeleteDocument(id) =>
      if s.documents.None? then None else Some(s.(documents := Some(RemoveById(s.documents.value, id)), loading := false))
    case ClearDocuments => Some(s.(documents := None, filtered := None, error := None, current := None))
    case SetCurrent(current) => Some(s.(current := current))
    case ClearCurrent => Some(s.(current := None))
    case FilterDocuments(f) =>
      if s.documents.None? then None
      else (
        match FilterDocs(s.documents.value, f, endOfDay)
        case None => None
        case Some(kept) => Some(s.(filtered := Some(kept))))
    case ClearFilter => Some(s.(filtered := None))
    case DocumentError(e) => Some(s.(error := e))
    case ClearDocumentErrors => Some(s.(error := None))
    case OtherAction(_) => Some(s)
  }

  // ---------------------------------------------------------------- properties

  /** Adding prepends: one more document, the new one first, the rest after it in order. */
  lemma AddPrepends(s: DocState, doc: ClientDoc, endOfDay: int -> int)
    requires s.documents.Some?
    ensures var r := Reduce(s, AddDocument(doc), endOfDay);
            r.Some? && |r.value.documents.value| == |s.documents.value| + 1
            && r.value.documents.value[0] == doc && r.value.documents.value[1..] == s.documents.value
  {
  }

  /** Replacing and then deleting by the same id is the same as deleting: an update never adds
      or removes a document. */
  lemma {:induction false} UpdateThenDelete(docs: seq<ClientDoc>, doc: ClientDoc)
    ensures RemoveById(ReplaceById(docs, doc), doc.id) == RemoveById(docs, doc.id)
  {
    if |docs| > 0 {
      assert ReplaceById(docs, doc)[1..] == ReplaceById(docs[1..], doc);
      UpdateThenDelete(docs[1..], doc);
    }
  }

  /** Deleting a document just added with a fresh id restores the list. */
  lemma {:induction false} DeleteUndoesAdd(docs: seq<ClientDoc>, doc: ClientDoc)
    requires forall d :: d in docs ==> d.id != doc.id
    ensures RemoveById([doc] + docs, doc.id) == docs
    decreases |docs|
  {
    assert ([doc] + docs)[1..] == docs;
    NoIdKeepsAll(docs, doc.id);
  }

  lemma {:induction false} NoIdKeepsAll(docs: seq<ClientDoc>, id: string)
    requires forall d :: d in docs ==> d.id != id
    ensures RemoveById(docs, id) == docs
    decreases |docs|
  {
    if |docs| > 0 {
      assert docs[0] in docs;
      assert forall d :: d in docs[1..] ==> d in docs;
      NoIdKeepsAll(docs[1..], id);
    }
  }

  /** "all" for status, owner or assigned user constrains nothing, just like an empty field. */
  lemma AllIsNoConstraint(f: FilterPayload, d: ClientDoc, endOfDay: int -> int)
    ensures DocMatches(f.(status := "all"), d, endOfDay) == DocMatches(f.(status := ""), d, endOfDay)
    ensures DocMatches(f.(owner := "all"), d, endOfDay) == DocMatches(f.(owner := ""), d, endOfDay)
    ensures DocMatches(f.(assignedTo := "all"), d, endOfDay) == DocMatches(f.(assignedTo := ""), d, endOfDay)
  {
    SameVerdict(f.(status := "all"), d, f.(status := ""), d, endOfDay);
    SameVerdict(f.(owner := "all"), d, f.(owner := ""), d, endOfDay);
    SameVerdict(f.(assignedTo := "all"), d, f.(assignedTo := ""), d, endOfDay);
  }

  /** An owner or assignee filter treats a populated reference like the raw id it carries. */
  lemma PopulatedLikeRaw(f: FilterPayload, d: ClientDoc, id: string, username: string, endOfDay: int -> int)
    requires id != ""
    ensures DocMatches(f, d.(owner := Populated(id, username)), endOfDay) == DocMatches(f, d.(owner := Raw(id)), endOfDay)
    ensures DocMatches(f, d.(assignedTo := Populated(id, username)), endOfDay) == DocMatches(f, d.(assignedTo := Raw(id)), endOfDay)
  {
    SameRefId(f, d, d.(owner := Populated(id, username)), d.(owner := Raw(id)), endOfDay);
    SameRefId(f, d, d.(assignedTo := Populated(id, username)), d.(assignedTo := Raw(id)), endOfDay);
  }

  /** Two variants of a document that differ at most in references with the same id are
      filtered alike. */
  lemma SameRefId(f: FilterPayload, d: ClientDoc, d1: ClientDoc, d2: ClientDoc, endOfDay: int -> int)
    requires d1.(owner := d.owner, assignedTo := d.assignedTo) == d
    requires d2.(owner := d.owner, assignedTo := d.assignedTo) == d
    requires RefId(d1.owner) == RefId(d2.owner) && RefId(d1.assignedTo) == RefId(d2.assignedTo)
    ensures DocMatches(f, d1, endOfDay) == DocMatches(f, d2, endOfDay)
  {
    assert d1.title == d2.title && d1.content == d2.content && d1.tags == d2.tags;
    assert d1.metadata == d2.metadata && d1.docRefShort == d2.docRefShort;
    assert TextAndTags(f, d1) == TextAndTags(f, d2);
    assert LaterConditions(f, d1, endOfDay) == LaterConditions(f, d2, endOfDay);
    SameVerdict(f, d1, f, d2, endOfDay);
  }

  /** A metadata filter whose every pair has a colon never throws. */
  lemma {:induction false} WellFormedMetadataNeverThrows(pairs: seq<(string, Option<string>)>, md: Option<map<string, string>>)
    requires forall k :: 0 <= k < |pairs| ==> pairs[k].1.Some?
    ensures MetadataEvery(pairs, md).Some?
  {
    if |pairs| > 0 {
      WellFormedMetadataNeverThrows(pairs[1..], md);
    }
  }

  /** A pair without a value throws once the document has a non-empty value under its key and
      the text and tag conditions hold. */
  lemma PairWithoutValueThrows(f: FilterPayload, d: ClientDoc, key: string, endOfDay: int -> int)
    requires f.metadata == key && key != "" && ':' !in key && ',' !in key
    requires d.metadata.Some? && Trim(key) in d.metadata.value && d.metadata.value[Trim(key)] != ""
    requires TextAndTags(f, d)
    ensures DocMatches(f, d, endOfDay).None?
  {
    IndexOfAbsent(key, ',');
    IndexOfAbsent(key, ':');
    assert Split(key, ',') == [key];
    assert Split(key, ':') == [key];
    assert MetadataPairs([key]) == [(Trim(key), None)];
  }

  /** After the list is cleared, adding a document throws. */
  lemma AddAfterClearThrows(s: DocState, doc: ClientDoc, endOfDay: int -> int)
    ensures Reduce(Reduce(s, ClearDocuments, endOfDay).value, AddDocument(doc), endOfDay).None?
  {
  }
}

=== FILE: docref.dfy ===
/** Identifier minting: the `DOC-nnnnnn` short references drawn from the `documentRef` counter,
    and the random `PREFIX-xxxxxxxxxx` identifiers used for `docRef`, event ids and the fallback
    short reference. The random part is supplied from outside (an oracle). */
module DocRef {
  import opened Wrappers
  import opened Text

  const ShortPrefix := "DOC-"
  const ShortWidth: nat := 6

  /** `generateId(prefix)`: the prefix, a dash, and a random part drawn by the caller. */
  function GenerateId(prefix: string, random: string): (r: string)
    ensures StartsWith(r, prefix + "-") && |r| == |prefix| + 1 + |random|
  {
    prefix + "-" + random
  }

  /** `DOC-${String(seq).padStart(6, '0')}`: at least six digits, longer numbers kept whole. */
  function FormatShortRef(n: nat): (r: string)
    ensures StartsWith(r, ShortPrefix)
    ensures |r| == 4 + (if |Decimal(n)| < ShortWidth then ShortWidth else |Decimal(n)|)
    ensures AllDigits(r[4..])
  {
    PadZerosValue(n, ShortWidth);
    ShortPrefix + PadZeros(Decimal(n), ShortWidth)
  }

  /** Reads a short reference back: the prefix followed by decimal digits only. */
  function ParseShortRef(s: string): (r: Option<nat>)
    ensures r.Some? ==> StartsWith(s, ShortPrefix)
  {
    if |s| > 4 && s[..4] == ShortPrefix && AllDigits(s[4..]) then Some(DigitsValue(s[4..])) else None
  }

  /** Formatting then reading gives the counter value back. */
  lemma ShortRefRoundTrip(n: nat)
    ensures ParseShortRef(FormatShortRef(n)) == Some(n)
  {
    PadZerosValue(n, ShortWidth);
    var r := FormatShortRef(n);
    assert r[4..] == PadZeros(Decimal(n), ShortWidth);
  }

  /** Padding never truncates, so distinct counter values give distinct short references. */
  lemma ShortRefInjective(a: nat, b: nat)
    requires FormatShortRef(a) == FormatShortRef(b)
    ensures a == b
  {
    ShortRefRoundTrip(a);
    ShortRefRoundTrip(b);
  }

  /** Below a million the reference is exactly ten characters long. */
  lemma ShortRefLength(n: nat)
    requires n < 1000000
    ensures |FormatShortRef(n)| == 10
  {
    DecimalLength(n, 6);
  }

  lemma {:induction false} DecimalLength(n: nat, k: nat)
    requires k >= 1
    requires n < Pow10(k)
    ensures |Decimal(n)| <= k
    decreases n
  {
    if n >= 10 {
      DecimalLength(n / 10, k - 1);
    }
  }

  function Pow10(k: nat): (p: nat)
    ensures p >= 1
  {
    if k == 0 then 1 else 10 * Pow10(k - 1)
  }

  /** The first two values of a fresh counter. */
  lemma FirstShortRefs()
    ensures FormatShortRef(1) == "DOC-000001"
    ensures FormatShortRef(2) == "DOC-000002"
  {
    assert Decimal(1) == "1";
    assert Decimal(2) == "2";
  }
}

=== FILE: documents.dfy ===
/** The single-document operations of the documents controller: create, view by id, update,
    delete and forward. Every operation takes the requesting user (`req.user`) and the stores,
    and returns either an error with its HTTP status or the new state of the collection.
    Clocks are the `now` parameter; random id parts come from the oracle `rand`, drawn at
    `nonce`, `nonce + 1`, … so that a caller can keep successive draws apart. */
module Documents {
  import opened Wrappers
  import opened Roles
  import opened Model
  import opened Text
  import opened Sorting
  import opened DocRef
  import Listing

  /** A successful write: the collection afterwards and the document as it was saved. */
  datatype Saved = Saved(store: seq<Document>, doc: Document)

  // ---------------------------------------------------------------- who may do what

  predicate IsOwner(d: Document, actor: User) {
    d.owner == actor.id
  }

  predicate IsAdmin(actor: User) {
    actor.role == Admin
  }

  /** Some access-control entry names the user, with either capability. */
  predicate OnAccessList(d: Document, actor: User) {
    exists e :: e in d.accessControl && e.user == actor.id
  }

  /** Some access-control entry gives the user the editor capability. */
  predicate IsEditor(d: Document, actor: User) {
    exists e :: e in d.accessControl && e.user == actor.id && e.capability == Editor
  }

  predicate IsAssignee(d: Document, actor: User) {
    d.assignedTo == Some(actor.id)
  }

  // ---------------------------------------------------------------- history events

  /** A history event performed by `actor`, with a freshly drawn `EVT-…` id. */
  function EventBy(action: string, actor: User, random: string, now: int, details: string): (e: HistoryEvent)
    ensures e.action == action && e.performedBy == Some(actor.id) && e.timestamp == now
    ensures e.eventId.Some? && StartsWith(e.eventId.value, "EVT-")
  {
    HistoryEvent(action, Some(actor.id), Some(actor.username), Some(GenerateId("EVT", random)), now, details)
  }

  /** The `action` of every event, in order. */
  function Actions(h: seq<HistoryEvent>): (r: seq<string>)
    ensures |r| == |h| && forall k :: 0 <= k < |h| ==> r[k] == h[k].action
  {
    if |h| == 0 then [] else [h[0].action] + Actions(h[1..])
  }

  lemma ActionsAppend(a: seq<HistoryEvent>, b: seq<HistoryEvent>)
    ensures Actions(a + b) == Actions(a) + Actions(b)
  {
  }

  /** One event when `c` holds, none otherwise. */
  function EventIf(c: bool, e: HistoryEvent): (r: seq<HistoryEvent>)
    ensures |r| == (if c then 1 else 0)
    ensures Actions(r) == ActionIf(c, e.action)
  {
    if c then [e] else []
  }

  /** One action when `c` holds, none otherwise. */
  function ActionIf(c: bool, a: string): seq<string> {
    if c then [a] else []
  }

  /** Writes a document back after the schema validation `save()` performs. */
  function SaveChecked(store: seq<Document>, d: Document): (r: Result<Saved>)
    requires FindDoc(store, d.id).Some?
    ensures r.Ok? <==> DocumentValid(d)
    ensures r.Ok? ==> r.value.doc == d && r.value.store == SaveExisting(store, d)
    ensures r.Err? ==> r.error.ServerError?
  {
    if DocumentValid(d) then Ok(Saved(SaveExisting(store, d), d))
    else Err(ServerError("Document validation failed"))
  }

  /** After writing a document back, looking it up by id finds the new version. */
  lemma FindAfterSave(store: seq<Document>, d: Document)
    requires FindDoc(store, d.id).Some?
    ensures FindDoc(SaveExisting(store, d), d.id) == Some(d)
  {
  }

  /** Every other document of the collection is left as it was. */
  lemma SaveLeavesOthers(store: seq<Document>, d: Document, other: Document)
    requires FindDoc(store, d.id).Some?
    requires other in store && other.id != d.id
    ensures other in SaveExisting(store, d)
  {
    var k :| 0 <= k < |store| && store[k] == other;
    assert SaveExisting(store, d)[k] == other;
  }

  // ---------------------------------------------------------------- tags

  /** The `tags` field of a request: absent, one comma-separated string, or a list. */
  datatype TagsInput = NoTags | TagText(text: string) | TagList(list: seq<string>)

  /** `tagsArray || []`, where a non-empty string is split on commas and each piece trimmed. */
  function TagsArray(t: TagsInput): (r: seq<string>)
    ensures t.TagList? ==> r == t.list
    ensures t.TagText? && t.text != "" ==> r == TrimAll(Split(t.text, ','))
    ensures t.NoTags? || t == TagText("") ==> r == []
  {
    match t
    case NoTags => []
    case TagText(s) => if s == "" then [] else TrimAll(Split(s, ','))
    case TagList(l) => l
  }

  // ---------------------------------------------------------------- create

  datatype CreateRequest = CreateRequest(
    title: string,
    content: string,
    tags: TagsInput,
    metadata: Option<map<string, string>>,
    accessControl: Option<seq<AclEntry>>,
    assignedTo: string,
    assignedToName: string)

  /** The outcome of a creation: the collection and the `documentRef` counter afterwards
      (the counter is advanced before the save, so it stays advanced when the save fails). */
  datatype Created = Created(store: seq<Document>, counter: nat, result: Result<Document>)

  /** The short reference a creation assigns: the next counter value, or a random `DOC-…` id
      when the counter cannot be advanced. */
  function NextShortRef(counter: nat, counterUp: bool, random: string): (r: string)
    ensures StartsWith(r, ShortPrefix)
    ensures counterUp ==> ParseShortRef(r) == Some(counter + 1)
  {
    ShortRefRoundTrip(counter + 1);
    if counterUp then FormatShortRef(counter + 1) else GenerateId("DOC", random)
  }

  /** `POST /api/documents`. `counterUp` says whether the counter could be advanced;
      `newId` is the identifier the database assigns. */
  function CreateDocument(store: seq<Document>, users: seq<User>, counter: nat, counterUp: bool,
                          actor: User, newId: DocId, req: CreateRequest, now: int,
                          rand: nat -> string, nonce: nat): (c: Created)
    ensures (c.result.Err? && c.result.error.BadRequest?) <==> req.title == "" || req.content == ""
    ensures req.title == "" || req.content == "" ==> c.store == store && c.counter == counter
    ensures req.title != "" && req.content != "" ==> c.counter == if counterUp then counter + 1 else counter
    ensures c.result.Err? ==> c.store == store
    ensures c.result.Ok? ==> var d := c.result.value;
      && c.store == store + [d]
      && d.id == newId && d.owner == actor.id && d.status == Open
      && d.title == req.title && d.content == req.content
      && d.docRef.Some? && StartsWith(d.docRef.value, "DOC-")
      && d.docRefShort == Some(NextShortRef(counter, counterUp, rand(nonce)))
      && |d.history| == 1 && d.history[0].action == ActionCreated && d.history[0].performedBy == Some(actor.id)
      && d.versionHistory == [] && d.createdAt == now && d.updatedAt == now
      && d.closedMessage.None? && d.closedAt.None? && d.closedBy.None?
  {
    if req.title == "" then Created(store, counter, Err(BadRequest("Title is required")))
    else if req.content == "" then Created(store, counter, Err(BadRequest("Content is required")))
    else
      var name :=
        if req.assignedToName != "" then req.assignedToName
        else if req.assignedTo != "" then UsernameOf(users, req.assignedTo)
        else "";
      var counter' := if counterUp then counter + 1 else counter;
      var d := Document(
        newId, req.title, req.content,
        Some(GenerateId("DOC", rand(nonce + 1))),
        Some(NextShortRef(counter, counterUp, rand(nonce))),
        actor.id,
        if req.assignedTo != "" then Some(req.assignedTo) else None,
        if name != "" then Some(name) else None,
        TagsArray(req.tags),
        req.metadata.GetOr(map[]),
        [],
        [EventBy(ActionCreated, actor, rand(nonce + 2), now, "Document created")],
        Open, None, None, None,
        req.accessControl.GetOr([]),
        now, now);
      match SaveNew(store, d)
      case Ok(s) => Created(s, counter', Ok(d))
      case Err(e) => Created(store, counter', Err(e))
  }

  /** A creation that succeeds keeps the unique indexes and schema validity of the collection. */
  lemma CreateKeepsInvariant(store: seq<Document>, users: seq<User>, counter: nat, counterUp: bool,
                             actor: User, newId: DocId, req: CreateRequest, now: int,
                             rand: nat -> string, nonce: nat)
    requires StoreInvariant(store)
    ensures StoreInvariant(CreateDocument(store, users, counter, counterUp, actor, newId, req, now, rand, nonce).store)
  {
    var c := CreateDocument(store, users, counter, counterUp, actor, newId, req, now, rand, nonce);
    if c.result.Ok? {
      SaveNewKeepsInvariant(store, c.result.value);
    }
  }

  /** A valid request whose new keys are all unused is saved: creation fails only on the unique
      indexes, never for another reason. */
  lemma CreateSucceedsOnFreshKeys(store: seq<Document>, users: seq<User>, counter: nat, counterUp: bool,
                                  actor: User, newId: DocId, req: CreateRequest, now: int,
                                  rand: nat -> string, nonce: nat)
    requires req.title != "" && req.content != ""
    requires forall d :: d in store ==> d.id != newId
    requires forall d :: d in store ==> d.docRef != Some(GenerateId("DOC", rand(nonce + 1)))
    requires forall d :: d in store ==> d.docRefShort != Some(NextShortRef(counter, counterUp, rand(nonce)))
    ensures CreateDocument(store, users, counter, counterUp, actor, newId, req, now, rand, nonce).result.Ok?
  {
  }

  /** Two creations in a row, with the counter working, get consecutive short references;
      on a fresh counter those are `DOC-000001` and `DOC-000002`. */
  lemma ConsecutiveShortRefs(store: seq<Document>, users: seq<User>, actor: User,
                             id1: DocId, id2: DocId, req1: CreateRequest, req2: CreateRequest,
                             t1: int, t2: int, rand: nat -> string, n1: nat, n2: nat)
    requires var c1 := CreateDocument(store, users, 0, true, actor, id1, req1, t1, rand, n1);
             c1.result.Ok? && CreateDocument(c1.store, users, c1.counter, true, actor, id2, req2, t2, rand, n2).result.Ok?
    ensures var c1 := CreateDocument(store, users, 0, true, actor, id1, req1, t1, rand, n1);
            var c2 := CreateDocument(c1.store, users, c1.counter, true, actor, id2, req2, t2, rand, n2);
            && c1.result.value.docRefShort == Some("DOC-000001")
            && c2.result.value.docRefShort == Some("DOC-000002")
            && c2.counter == 2
  {
    FirstShortRefs();
  }

  // ---------------------------------------------------------------- view

  /** `GET /api/documents/:id`. The owner reference is populated: an owner id that resolves to no
      user makes the ownership test fail with a server error. The owner test is modelled as id
      equality. */
  function GetDocumentById(store: seq<Document>, users: seq<User>, actor: User, id: DocId): (r: Result<Document>)
    ensures FindDoc(store, id).None? ==> r.Err? && r.error.NotFound?
    ensures r.Ok? ==> Some(r.value) == FindDoc(store, id) && FindUser(users, r.value.owner).Some?
    ensures r.Ok? ==> Listing.Visible(users, actor, r.value)
    ensures FindDoc(store, id).Some? && FindUser(users, FindDoc(store, id).value.owner).Some? ==>
      var d := FindDoc(store, id).value;
      r.Ok? <==> IsOwner(d, actor) || IsAdmin(actor) || OnAccessList(d, actor)
                 || (InPeerGroup(actor.role) && InPeerGroup(FindUser(users, d.owner).value.role))
  {
    match FindDoc(store, id)
    case None => Err(NotFound("Document not found"))
    case Some(d) =>
      match FindUser(users, d.owner)
      case None => Err(ServerError("Server Error"))
      case Some(owner) =>
        var isRolePeer := InPeerGroup(owner.role) && InPeerGroup(actor.role);
        if !IsOwner(d, actor) && !IsAdmin(actor) && !OnAccessList(d, actor) && !isRolePeer then
          Err(Unauthorized("Not authorized to view this document"))
        else Ok(d)
  }

  /** The assignee alone is not let in: a document listed to its assignee can still be refused
      when opened by id, unless another rule grants access. */
  lemma AssigneeMayBeRefused(store: seq<Document>, users: seq<User>, actor: User, id: DocId)
    requires FindDoc(store, id).Some? && FindUser(users, FindDoc(store, id).value.owner).Some?
    requires var d := FindDoc(store, id).value;
      IsAssignee(d, actor) && !IsOwner(d, actor) && !IsAdmin(actor) && !OnAccessList(d, actor)
    requires !InPeerGroup(actor.role)
    ensures Listing.Visible(users, actor, FindDoc(store, id).value)
    ensures GetDocumentById(store, users, actor, id) == Err(Unauthorized("Not authorized to view this document"))
  {
  }

  // ---------------------------------------------------------------- update

  /** The body of an update. Strings the client left out are "". */
  datatype Patch = Patch(
    title: string,
    content: string,
    tags: TagsInput,
    metadata: Option<map<string, string>>,
    accessControl: Option<seq<AclEntry>>,
    status: string,
    assignedTo: string,
    closingMessage: string)

  /** The actions an update records, in the order the controller appends them: a status change,
      an access-list change, a reassignment, an edit of title or content. */
  function UpdateActions(d: Document, p: Patch): seq<string> {
    ActionIf(p.status != "" && StatusName(d.status) != p.status, ActionStatusChange)
    + ActionIf(p.accessControl.Some? && p.accessControl.value != d.accessControl, ActionShared)
    + ActionIf(p.assignedTo != "" && d.assignedTo != Some(p.assignedTo), ActionAssigned)
    + ActionIf(d.content != p.content || d.title != p.title, ActionEdited)
  }

  /** Whether an update snapshots the old content: title or content differ, the tags differ as a
      multiset, or the metadata differ. */
  predicate SnapshotDue(d: Document, p: Patch) {
    || d.content != p.content || d.title != p.title
    || multiset(d.tags) != multiset(TagsArray(p.tags))
    || d.metadata != p.metadata.GetOr(map[])
  }

  /** The status text after the status step: the requested one when given and different. */
  function StatusAfter(d: Document, p: Patch): string {
    if p.status != "" && StatusName(d.status) != p.status then p.status else StatusName(d.status)
  }

  /** The closing rule's guard. It compares the request against the status as already
      reassigned by the status step. */
  predicate Closing(d: Document, p: Patch) {
    p.status == "Closed" && StatusAfter(d, p) != "Closed"
  }

  /** The closing rule never fires: whenever "Closed" is requested, the status step has already
      set it, so no closing message is demanded and no closing fields are written. */
  lemma ClosingNeverFires(d: Document, p: Patch)
    ensures !Closing(d, p)
  {
  }

  /** The events an authorised update appends, in the controller's order. */
  function ReviseEvents(d: Document, users: seq<User>, actor: User, p: Patch, now: int,
                        rand: nat -> string, nonce: nat): seq<HistoryEvent>
  {
    var newName := UsernameOf(users, p.assignedTo);
    FiveEvents(
      p.status != "" && StatusName(d.status) != p.status,
      EventBy(ActionStatusChange, actor, rand(nonce), now,
              "Status changed from " + StatusName(d.status) + " to " + p.status),
      Closing(d, p),
      EventBy(ActionClosed, actor, rand(nonce + 4), now, "Closed: " + p.closingMessage),
      p.accessControl.Some? && p.accessControl.value != d.accessControl,
      EventBy(ActionShared, actor, rand(nonce + 1), now, "Access control list updated"),
      p.assignedTo != "" && d.assignedTo != Some(p.assignedTo),
      EventBy(ActionAssigned, actor, rand(nonce + 2), now,
              "Assigned to " + (if newName != "" then newName else p.assignedTo)),
      d.content != p.content || d.title != p.title,
      EventBy(ActionEdited, actor, rand(nonce + 3), now, "Document content or title updated"))
  }

  /** The events whose conditions hold, in argument order. */
  function FiveEvents(c1: bool, x1: HistoryEvent, c2: bool, x2: HistoryEvent, c3: bool, x3: HistoryEvent,
                      c4: bool, x4: HistoryEvent, c5: bool, x5: HistoryEvent): seq<HistoryEvent>
  {
    EventIf(c1, x1) + EventIf(c2, x2) + EventIf(c3, x3) + EventIf(c4, x4) + EventIf(c5, x5)
  }

  /** The appended events carry exactly the actions `UpdateActions` lists, in that order. */
  lemma ReviseEventsActions(d: Document, users: seq<User>, actor: User, p: Patch, now: int,
                            rand: nat -> string, nonce: nat)
    ensures Actions(ReviseEvents(d, users, actor, p, now, rand, nonce)) == UpdateActions(d, p)
  {
    ClosingNeverFires(d, p);
    var newName := UsernameOf(users, p.assignedTo);
    ActionsOfFive(
      p.status != "" && StatusName(d.status) != p.status,
      EventBy(ActionStatusChange, actor, rand(nonce), now,
              "Status changed from " + StatusName(d.status) + " to " + p.status),
      Closing(d, p),
      EventBy(ActionClosed, actor, rand(nonce + 4), now, "Closed: " + p.closingMessage),
      p.accessControl.Some? && p.accessControl.value != d.accessControl,
      EventBy(ActionShared, actor, rand(nonce + 1), now, "Access control list updated"),
      p.assignedTo != "" && d.assignedTo != Some(p.assignedTo),
      EventBy(ActionAssigned, actor, rand(nonce + 2), now,
              "Assigned to " + (if newName != "" then newName else p.assignedTo)),
      d.content != p.content || d.title != p.title,
      EventBy(ActionEdited, actor, rand(nonce + 3), now, "Document content or title updated"),
      ActionStatusChange, ActionShared, ActionAssigned, ActionEdited);
  }

  lemma ActionsOfFive(c1: bool, x1: HistoryEvent, c2: bool, x2: HistoryEvent, c3: bool, x3: HistoryEvent,
                      c4: bool, x4: HistoryEvent, c5: bool, x5: HistoryEvent, a1: string, a3: string, a4: string, a5: string)
    requires !c2
    requires x1.action == a1 && x3.action == a3 && x4.action == a4 && x5.action == a5
    ensures Actions(FiveEvents(c1, x1, c2, x2, c3, x3, c4, x4, c5, x5))
         == ActionIf(c1, a1) + ActionIf(c3, a3) + ActionIf(c4, a4) + ActionIf(c5, a5)
  {
    var e1, e3, e4, e5 := EventIf(c1, x1), EventIf(c3, x3), EventIf(c4, x4), EventIf(c5, x5);
    assert e1 + EventIf(c2, x2) == e1;
    ActionsAppend(e1, e3);
    ActionsAppend(e1 + e3, e4);
    ActionsAppend(e1 + e3 + e4, e5);
  }

  /** Whether the old content is snapshotted, as the controller decides it: title or content
      differ, the sorted tag lists differ, or the metadata differ. */
  predicate SnapshotTaken(d: Document, p: Patch) {
    || d.content != p.content || d.title != p.title
    || SortStrings(d.tags) != SortStrings(TagsArray(p.tags))
    || d.metadata != p.metadata.GetOr(map[])
  }

  /** Comparing sorted tag lists is comparing the tags as multisets. */
  lemma SnapshotTakenIffDue(d: Document, p: Patch)
    ensures SnapshotTaken(d, p) <==> SnapshotDue(d, p)
  {
    SortStringsEqualIff(d.tags, TagsArray(p.tags));
  }

  /** The document an authorised update produces, before it is saved: the requested metadata
      (empty when left out), access list (kept when left out) and assignee (kept when left out),
      and no field outside those the update writes changes. */
  function Revise(d: Document, users: seq<User>, actor: User, p: Patch, now: int,
                  rand: nat -> string, nonce: nat): (r: Result<Document>)
    ensures r.Ok? ==>
      && r.value.metadata == p.metadata.GetOr(map[])
      && r.value.accessControl == p.accessControl.GetOr(d.accessControl)
      && r.value.assignedTo == (if p.assignedTo != "" then Some(p.assignedTo) else d.assignedTo)
      && r.value == d.(title := r.value.title, content := r.value.content, tags := r.value.tags,
                       metadata := r.value.metadata, versionHistory := r.value.versionHistory,
                       history := r.value.history, status := r.value.status,
                       closedMessage := r.value.closedMessage, closedAt := r.value.closedAt,
                       closedBy := r.value.closedBy, assignedTo := r.value.assignedTo,
                       assignedToName := r.value.assignedToName, accessControl := r.value.accessControl,
                       updatedAt := r.value.updatedAt)
  {
    if Closing(d, p) && Trim(p.closingMessage) == "" then
      Err(BadRequest("Closing message is required when closing a document"))
    else
      var closing := Closing(d, p);
      var reassigned := p.assignedTo != "" && d.assignedTo != Some(p.assignedTo);
      match ParseStatus(if closing then "Closed" else StatusAfter(d, p))
      case None => Err(ServerError("Document validation failed"))
      case Some(st) =>
        Ok(d.(
          title := p.title,
          content := p.content,
          tags := SortStrings(TagsArray(p.tags)),
          metadata := p.metadata.GetOr(map[]),
          versionHistory := d.versionHistory + (if SnapshotTaken(d, p) then [VersionEntry(d.content, actor.id, now)] else []),
          history := d.history + ReviseEvents(d, users, actor, p, now, rand, nonce),
          status := st,
          closedMessage := if closing then Some(p.closingMessage) else d.closedMessage,
          closedAt := if closing then Some(now) else d.closedAt,
          closedBy := if closing then Some(actor.id) else d.closedBy,
          assignedTo := if reassigned then Some(p.assignedTo) else d.assignedTo,
          assignedToName := if reassigned then Some(UsernameOf(users, p.assignedTo)) else d.assignedToName,
          accessControl := if p.accessControl.Some? then p.accessControl.value else d.accessControl,
          updatedAt := now))
  }

  /** An authorised update fails only on a status name outside the enumeration, and then with a
      server error (the schema's enum validation on save). */
  lemma ReviseFails(d: Document, users: seq<User>, actor: User, p: Patch, now: int, rand: nat -> string, nonce: nat)
    ensures var r := Revise(d, users, actor, p, now, rand, nonce);
      && (r.Err? <==> p.status != "" && ParseStatus(p.status).None?)
      && (r.Err? ==> r.error.ServerError?)
  {
    ClosingNeverFires(d, p);
  }

  /** Identity and reference fields, the requested title and content, the requested (or kept)
      status, and the untouched closing fields. */
  lemma ReviseFields(d: Document, users: seq<User>, actor: User, p: Patch, now: int, rand: nat -> string, nonce: nat)
    requires Revise(d, users, actor, p, now, rand, nonce).Ok?
    ensures var d' := Revise(d, users, actor, p, now, rand, nonce).value;
      && d'.id == d.id && d'.owner == d.owner && d'.docRef == d.docRef && d'.docRefShort == d.docRefShort
      && d'.title == p.title && d'.content == p.content && d'.updatedAt == now
      && StatusName(d'.status) == (if p.status != "" then p.status else StatusName(d.status))
      && d'.closedMessage == d.closedMessage && d'.closedAt == d.closedAt && d'.closedBy == d.closedBy
  {
    ClosingNeverFires(d, p);
  }

  /** History only grows, by the events `UpdateActions` lists; the version history grows by one
      snapshot of the old content exactly when `SnapshotDue` holds; the tags are saved sorted. */
  lemma ReviseHistory(d: Document, users: seq<User>, actor: User, p: Patch, now: int, rand: nat -> string, nonce: nat)
    requires Revise(d, users, actor, p, now, rand, nonce).Ok?
    ensures var d' := Revise(d, users, actor, p, now, rand, nonce).value;
      && d'.history[..|d.history|] == d.history
      && Actions(d'.history[|d.history|..]) == UpdateActions(d, p)
      && d'.versionHistory[..|d.versionHistory|] == d.versionHistory
      && |d'.versionHistory| == |d.versionHistory| + (if SnapshotDue(d, p) then 1 else 0)
      && SortedBy(d'.tags, CodeUnitLe) && multiset(d'.tags) == multiset(TagsArray(p.tags))
  {
    var d' := Revise(d, users, actor, p, now, rand, nonce).value;
    var ev := ReviseEvents(d, users, actor, p, now, rand, nonce);
    assert d'.history == d.history + ev;
    assert d'.history[|d.history|..] == ev;
    ReviseEventsActions(d, users, actor, p, now, rand, nonce);
    SnapshotTakenIffDue(d, p);
    assert d'.tags == SortStrings(TagsArray(p.tags));
  }

  /** With a non-empty title and content the revised document passes schema validation exactly
      when the stored one did: every appended event has an action. */
  lemma ReviseValid(d: Document, users: seq<User>, actor: User, p: Patch, now: int, rand: nat -> string, nonce: nat)
    requires p.title != "" && p.content != ""
    requires Revise(d, users, actor, p, now, rand, nonce).Ok?
    ensures DocumentValid(Revise(d, users, actor, p, now, rand, nonce).value) <==> HistoryValid(d.history)
  {
    var d' := Revise(d, users, actor, p, now, rand, nonce).value;
    var ev := ReviseEvents(d, users, actor, p, now, rand, nonce);
    assert d'.history == d.history + ev && d'.title == p.title && d'.content == p.content;
    ReviseEventsValid(d, users, actor, p, now, rand, nonce);
    HistoryValidAppend(d.history, ev);
  }

  /** Every event an update appends has an action. */
  lemma ReviseEventsValid(d: Document, users: seq<User>, actor: User, p: Patch, now: int, rand: nat -> string, nonce: nat)
    ensures HistoryValid(ReviseEvents(d, users, actor, p, now, rand, nonce))
  {
    var newName := UsernameOf(users, p.assignedTo);
    FiveEventsValid(
      p.status != "" && StatusName(d.status) != p.status,
      EventBy(ActionStatusChange, actor, rand(nonce), now,
              "Status changed from " + StatusName(d.status) + " to " + p.status),
      Closing(d, p),
      EventBy(ActionClosed, actor, rand(nonce + 4), now, "Closed: " + p.closingMessage),
      p.accessControl.Some? && p.accessControl.value != d.accessControl,
      EventBy(ActionShared, actor, rand(nonce + 1), now, "Access control list updated"),
      p.assignedTo != "" && d.assignedTo != Some(p.assignedTo),
      EventBy(ActionAssigned, actor, rand(nonce + 2), now,
              "Assigned to " + (if newName != "" then newName else p.assignedTo)),
      d.content != p.content || d.title != p.title,
      EventBy(ActionEdited, actor, rand(nonce + 3), now, "Document content or title updated"));
  }

  lemma FiveEventsValid(c1: bool, x1: HistoryEvent, c2: bool, x2: HistoryEvent, c3: bool, x3: HistoryEvent,
                        c4: bool, x4: HistoryEvent, c5: bool, x5: HistoryEvent)
    requires x1.action != "" && x2.action != "" && x3.action != "" && x4.action != "" && x5.action != ""
    ensures HistoryValid(FiveEvents(c1, x1, c2, x2, c3, x3, c4, x4, c5, x5))
  {
    var e1, e2, e3, e4, e5 := EventIf(c1, x1), EventIf(c2, x2), EventIf(c3, x3), EventIf(c4, x4), EventIf(c5, x5);
    assert HistoryValid(e1) && HistoryValid(e2) && HistoryValid(e3) && HistoryValid(e4) && HistoryValid(e5);
    HistoryValidAppend(e1, e2);
    HistoryValidAppend(e1 + e2, e3);
    HistoryValidAppend(e1 + e2 + e3, e4);
    HistoryValidAppend(e1 + e2 + e3 + e4, e5);
  }

  lemma HistoryValidAppend(a: seq<HistoryEvent>, b: seq<HistoryEvent>)
    requires HistoryValid(b)
    ensures HistoryValid(a + b) <==> HistoryValid(a)
  {
    if HistoryValid(a) {
      forall k | 0 <= k < |a + b|
        ensures (a + b)[k].action != ""
      {
        if k >= |a| {
          assert (a + b)[k] == b[k - |a|];
        }
      }
    }
    if HistoryValid(a + b) {
      forall k | 0 <= k < |a|
        ensures a[k].action != ""
      {
        assert (a + b)[k] == a[k];
      }
    }
  }

  /** `PUT /api/documents/:id`. */
  function UpdateDocument(store: seq<Document>, users: seq<User>, actor: User, id: DocId, p: Patch,
                          now: int, rand: nat -> string, nonce: nat): (r: Result<Saved>)
    ensures (r.Err? && r.error.BadRequest?) <==> p.title == "" || p.content == ""
    ensures p.title != "" && p.content != "" && FindDoc(store, id).None? ==> r.Err? && r.error.NotFound?
    ensures p.title != "" && p.content != "" && FindDoc(store, id).Some? ==>
      var d := FindDoc(store, id).value;
      && (!(IsOwner(d, actor) || IsAdmin(actor) || IsEditor(d, actor)) ==> r.Err? && r.error.Unauthorized?)
      && (IsOwner(d, actor) || IsAdmin(actor) || IsEditor(d, actor) ==>
            (r.Err? && r.error.ServerError? <==> (p.status != "" && ParseStatus(p.status).None?) || !HistoryValid(d.history)))
    ensures r.Ok? <==> p.title != "" && p.content != "" && FindDoc(store, id).Some?
                       && (IsOwner(FindDoc(store, id).value, actor) || IsAdmin(actor) || IsEditor(FindDoc(store, id).value, actor))
                       && (p.status == "" || ParseStatus(p.status).Some?)
                       && HistoryValid(FindDoc(store, id).value.history)
    ensures r.Ok? ==> FindDoc(store, id).Some? && FindDoc(store, r.value.doc.id).Some?
                      && r.value.store == SaveExisting(store, r.value.doc)
                      && Revise(FindDoc(store, id).value, users, actor, p, now, rand, nonce) == Ok(r.value.doc)
  {
    if p.title == "" then Err(BadRequest("Title is required"))
    else if p.content == "" then Err(BadRequest("Content is required"))
    else match FindDoc(store, id)
      case None => Err(NotFound("Document not found"))
      case Some(d) =>
        if !IsOwner(d, actor) && !IsAdmin(actor) && !IsEditor(d, actor) then
          Err(Unauthorized("Not authorized to edit this document"))
        else
          ReviseFails(d, users, actor, p, now, rand, nonce);
          match Revise(d, users, actor, p, now, rand, nonce)
          case Err(e) => Err(e)
          case Ok(d') =>
            ReviseFields(d, users, actor, p, now, rand, nonce);
            ReviseValid(d, users, actor, p, now, rand, nonce);
            SaveChecked(store, d')
  }

  /** A successful update leaves the earlier history in place and appends exactly the events
      `UpdateActions` lists; it never writes the closing fields; it saves the tags sorted. */
  lemma UpdateAppendsOnly(store: seq<Document>, users: seq<User>, actor: User, id: DocId, p: Patch,
                          now: int, rand: nat -> string, nonce: nat)
    requires UpdateDocument(store, users, actor, id, p, now, rand, nonce).Ok?
    ensures var d := FindDoc(store, id).value;
      var d' := UpdateDocument(store, users, actor, id, p, now, rand, nonce).value.doc;
      && d'.history[..|d.history|] == d.history
      && Actions(d'.history[|d.history|..]) == UpdateActions(d, p)
      && d'.closedMessage == d.closedMessage && d'.closedAt == d.closedAt && d'.closedBy == d.closedBy
      && SortedBy(d'.tags, CodeUnitLe) && multiset(d'.tags) == multiset(TagsArray(p.tags))
  {
    var d := FindDoc(store, id).value;
    ReviseHistory(d, users, actor, p, now, rand, nonce);
    ReviseFields(d, users, actor, p, now, rand, nonce);
  }

  /** A successful update keeps the unique indexes and schema validity of the collection. */
  lemma UpdateKeepsInvariant(store: seq<Document>, users: seq<User>, actor: User, id: DocId, p: Patch,
                             now: int, rand: nat -> string, nonce: nat)
    requires StoreInvariant(store)
    requires UpdateDocument(store, users, actor, id, p, now, rand, nonce).Ok?
    ensures StoreInvariant(UpdateDocument(store, users, actor, id, p, now, rand, nonce).value.store)
  {
    var d := FindDoc(store, id).value;
    var d' := UpdateDocument(store, users, actor, id, p, now, rand, nonce).value.doc;
    ReviseFields(d, users, actor, p, now, rand, nonce);
    assert d' == Revise(d, users, actor, p, now, rand, nonce).value;
    assert FindDoc(store, d'.id) == FindDoc(store, id);
    SaveExistingKeepsInvariant(store, d');
  }

  /** An update that repeats what is stored, leaving status, access list and assignee out,
      records no event at all. */
  lemma UnchangedUpdateRecordsNothing(store: seq<Document>, users: seq<User>, actor: User, id: DocId, p: Patch,
                                      now: int, rand: nat -> string, nonce: nat)
    requires UpdateDocument(store, users, actor, id, p, now, rand, nonce).Ok?
    requires p.title == FindDoc(store, id).value.title && p.content == FindDoc(store, id).value.content
    requires p.status == "" && p.accessControl.None? && p.assignedTo == ""
    ensures UpdateDocument(store, users, actor, id, p, now, rand, nonce).value.doc.history == FindDoc(store, id).value.history
  {
    var d := FindDoc(store, id).value;
    var d' := UpdateDocument(store, users, actor, id, p, now, rand, nonce).value.doc;
    UpdateAppendsOnly(store, users, actor, id, p, now, rand, nonce);
    assert |d'.history[|d.history|..]| == 0;
    assert d'.history == d'.history[..|d.history|] + d'.history[|d.history|..];
  }

  /** Asking to close a document with no closing message is accepted: the status becomes
      "Closed" through the status step, one "Status Change" event is recorded, and no closing
      message, time or user is stored. */
  lemma CloseWithoutMessageAccepted(store: seq<Document>, users: seq<User>, actor: User, id: DocId, p: Patch,
                                    now: int, rand: nat -> string, nonce: nat)
    requires StoreInvariant(store) && FindDoc(store, id).Some?
    requires var d := FindDoc(store, id).value;
      IsOwner(d, actor) && d.status == Open && d.closedMessage.None?
    requires p.title == FindDoc(store, id).value.title && p.content == FindDoc(store, id).value.content
    requires p.status == "Closed" && p.closingMessage == "" && p.accessControl.None? && p.assignedTo == ""
    ensures var r := UpdateDocument(store, users, actor, id, p, now, rand, nonce);
      && r.Ok? && r.value.doc.status == Closed && r.value.doc.closedMessage.None?
      && Actions(r.value.doc.history[|FindDoc(store, id).value.history|..]) == [ActionStatusChange]
  {
    var d := FindDoc(store, id).value;
    assert DocumentValid(d);
    var r := UpdateDocument(store, users, actor, id, p, now, rand, nonce);
    assert ParseStatus(p.status) == Some(Closed);
    assert r.Ok?;
    UpdateAppendsOnly(store, users, actor, id, p, now, rand, nonce);
    ReviseFields(d, users, actor, p, now, rand, nonce);
    assert UpdateActions(d, p) == [ActionStatusChange];
  }

  // ---------------------------------------------------------------- delete

  /** `DELETE /api/documents/:id`: only the owner or an admin; no history is written, the
      document simply leaves the collection. */
  function DeleteDocument(store: seq<Document>, actor: User, id: DocId): (r: Result<seq<Document>>)
    ensures FindDoc(store, id).None? ==> r.Err? && r.error.NotFound?
    ensures FindDoc(store, id).Some? ==>
      (r.Ok? <==> IsOwner(FindDoc(store, id).value, actor) || IsAdmin(actor))
    ensures r.Err? ==> r.error.NotFound? || r.error.Unauthorized?
    ensures r.Ok? ==> forall d :: d in r.value <==> d in store && d.id != id
  {
    match FindDoc(store, id)
    case None => Err(NotFound("Document not found"))
    case Some(d) =>
      if !IsOwner(d, actor) && !IsAdmin(actor) then Err(Unauthorized("Not authorized to delete this document"))
      else Ok(RemoveDoc(store, id))
  }

  /** After a deletion the document can no longer be opened. */
  lemma DeletedIsGone(store: seq<Document>, users: seq<User>, actor: User, viewer: User, id: DocId)
    requires DeleteDocument(store, actor, id).Ok?
    ensures GetDocumentById(DeleteDocument(store, actor, id).value, users, viewer, id).Err?
    ensures GetDocumentById(DeleteDocument(store, actor, id).value, users, viewer, id).error.NotFound?
  {
  }

  // ---------------------------------------------------------------- forward

  /** The body of a forward: the recipient, and the role to give them as sent ("viewer" when
      left out). */
  datatype ForwardRequest = ForwardRequest(toUserId: UserId, role: Option<string>)

  /** The capability a forward asks for, when its role is one the schema accepts. */
  function RequestedCapability(req: ForwardRequest): (c: Option<Capability>)
    ensures req.role.None? ==> c == Some(DefaultCapability)
    ensures c.Some? ==> CapabilityName(c.value) == req.role.GetOr("viewer")
  {
    ParseCapability(req.role.GetOr("viewer"))
  }

  /** How many access-control entries name the user. */
  function EntriesFor(acl: seq<AclEntry>, u: UserId): (n: nat)
    ensures n == 0 <==> forall e :: e in acl ==> e.user != u
    ensures n <= |acl|
  {
    if |acl| == 0 then 0
    else (if acl[0].user == u then 1 else 0) + EntriesFor(acl[1..], u)
  }

  lemma {:induction false} EntriesForAppend(acl: seq<AclEntry>, e: AclEntry, u: UserId)
    ensures EntriesFor(acl + [e], u) == EntriesFor(acl, u) + (if e.user == u then 1 else 0)
  {
    if |acl| == 0 {
      assert acl + [e] == [e];
    } else {
      assert (acl + [e])[1..] == acl[1..] + [e];
      EntriesForAppend(acl[1..], e, u);
    }
  }

  /** `POST /api/documents/:id/forward`: the owner, an admin or the current assignee hands the
      document on. The recipient is added to the access list unless already on it, becomes the
      assignee, and one "Forwarded" event is recorded. A role outside the enumeration fails the
      save's validation when a new entry is pushed (500); an existing entry makes it unused. */
  function ForwardDocument(store: seq<Document>, users: seq<User>, actor: User, id: DocId, req: ForwardRequest,
                           now: int, rand: nat -> string, nonce: nat): (r: Result<Saved>)
    ensures FindDoc(store, id).None? ==> r.Err? && r.error.NotFound?
    ensures FindDoc(store, id).Some? ==> var d := FindDoc(store, id).value;
      && (!(IsOwner(d, actor) || IsAdmin(actor) || IsAssignee(d, actor)) ==> r.Err? && r.error.Forbidden?)
      && (IsOwner(d, actor) || IsAdmin(actor) || IsAssignee(d, actor) ==>
            (r.Ok? <==> DocumentValid(d) && (EntriesFor(d.accessControl, req.toUserId) == 0 ==> RequestedCapability(req).Some?)))
      && (EntriesFor(d.accessControl, req.toUserId) == 0 && RequestedCapability(req).None? ==> r.Err?)
    ensures r.Ok? ==> FindDoc(store, id).Some? && var d := FindDoc(store, id).value; var d' := r.value.doc;
      && FindDoc(store, d'.id).Some? && r.value.store == SaveExisting(store, d')
      && d'.id == d.id && d'.owner == d.owner && d'.docRef == d.docRef && d'.docRefShort == d.docRefShort
      && d'.assignedTo == Some(req.toUserId)
      && EntriesFor(d'.accessControl, req.toUserId) == (if EntriesFor(d.accessControl, req.toUserId) == 0 then 1 else EntriesFor(d.accessControl, req.toUserId))
      && (forall u :: u != req.toUserId ==> EntriesFor(d'.accessControl, u) == EntriesFor(d.accessControl, u))
      && |d'.history| == |d.history| + 1 && d'.history[..|d.history|] == d.history
      && d'.history[|d.history|].action == ActionForwarded
    ensures r.Ok? ==> var d := FindDoc(store, id).value; var d' := r.value.doc;
      && d'.accessControl == (if EntriesFor(d.accessControl, req.toUserId) == 0
                              then d.accessControl + [AclEntry(req.toUserId, RequestedCapability(req).value)]
                              else d.accessControl)
      && d'.assignedToName == Some(UsernameOf(users, req.toUserId))
      && d'.updatedAt == now
      && d'.history[|d.history|].performedBy == Some(actor.id)
      && d' == d.(accessControl := d'.accessControl, assignedTo := d'.assignedTo, assignedToName := d'.assignedToName,
                  history := d'.history, updatedAt := d'.updatedAt)
  {
    match FindDoc(store, id)
    case None => Err(NotFound("Document not found"))
    case Some(d) =>
      if !IsOwner(d, actor) && !IsAdmin(actor) && !IsAssignee(d, actor) then
        Err(Forbidden("Not authorized to forward this document"))
      else if EntriesFor(d.accessControl, req.toUserId) == 0 && RequestedCapability(req).None? then
        Err(ServerError("Server Error"))
      else
        var d' := Forwarded(d, users, actor, req, now, rand(nonce));
        assert FindDoc(store, d'.id).Some?;
        SaveChecked(store, d')
  }

  /** The forwarded document: the recipient's access entry (with the requested capability,
      "viewer" by default) appended only when they have none, the recipient as assignee under
      their username, and one "Forwarded" event by the requester. Nothing else changes. */
  function Forwarded(d: Document, users: seq<User>, actor: User, req: ForwardRequest, now: int, random: string): (d': Document)
    ensures d'.accessControl == (if EntriesFor(d.accessControl, req.toUserId) == 0
                                 then d.accessControl + [AclEntry(req.toUserId, RequestedCapability(req).GetOr(DefaultCapability))]
                                 else d.accessControl)
    ensures EntriesFor(d'.accessControl, req.toUserId) == (if EntriesFor(d.accessControl, req.toUserId) == 0 then 1 else EntriesFor(d.accessControl, req.toUserId))
    ensures forall u :: u != req.toUserId ==> EntriesFor(d'.accessControl, u) == EntriesFor(d.accessControl, u)
    ensures d'.assignedTo == Some(req.toUserId) && d'.assignedToName == Some(UsernameOf(users, req.toUserId))
    ensures |d'.history| == |d.history| + 1 && d'.history[..|d.history|] == d.history
    ensures d'.history[|d.history|].action == ActionForwarded && d'.history[|d.history|].performedBy == Some(actor.id)
    ensures d'.updatedAt == now
    ensures d' == d.(accessControl := d'.accessControl, assignedTo := d'.assignedTo, assignedToName := d'.assignedToName,
                     history := d'.history, updatedAt := d'.updatedAt)
    ensures DocumentValid(d') <==> DocumentValid(d)
  {
    var present := exists e :: e in d.accessControl && e.user == req.toUserId;
    var entry := AclEntry(req.toUserId, RequestedCapability(req).GetOr(DefaultCapability));
    var acl := if present then d.accessControl else d.accessControl + [entry];
    var name := UsernameOf(users, req.toUserId);
    var ev := EventBy(ActionForwarded, actor, random, now,
                      "Forwarded to " + (if name != "" then name else req.toUserId));
    forall u ensures EntriesFor(acl, u) == EntriesFor(d.accessControl, u) + (if !present && u == req.toUserId then 1 else 0) {
      if !present { EntriesForAppend(d.accessControl, entry, u); }
    }
    HistoryValidAppend(d.history, [ev]);
    d.(accessControl := acl, assignedTo := Some(req.toUserId), assignedToName := Some(name),
       history := d.history + [ev], updatedAt := now)
  }

  /** Forwarding twice to the same user leaves one access entry for them (when they had none)
      and records two "Forwarded" events. */
  lemma ForwardTwice(store: seq<Document>, users: seq<User>, actor: User, id: DocId, req: ForwardRequest,
                     t1: int, t2: int, rand: nat -> string, n1: nat, n2: nat)
    requires FindDoc(store, id).Some? && EntriesFor(FindDoc(store, id).value.accessControl, req.toUserId) == 0
    requires ForwardDocument(store, users, actor, id, req, t1, rand, n1).Ok?
    requires var s1 := ForwardDocument(store, users, actor, id, req, t1, rand, n1).value.store;
      ForwardDocument(s1, users, actor, id, req, t2, rand, n2).Ok?
    ensures var d := FindDoc(store, id).value;
      var s1 := ForwardDocument(store, users, actor, id, req, t1, rand, n1).value.store;
      var d2 := ForwardDocument(s1, users, actor, id, req, t2, rand, n2).value.doc;
      && EntriesFor(d2.accessControl, req.toUserId) == 1
      && |d2.history| == |d.history| + 2
      && d2.history[|d.history|].action == ActionForwarded && d2.history[|d.history| + 1].action == ActionForwarded
  {
    var r1 := ForwardDocument(store, users, actor, id, req, t1, rand, n1).value;
    FindAfterSave(store, r1.doc);
    assert FindDoc(r1.store, id) == Some(r1.doc);
    var d2 := ForwardDocument(r1.store, users, actor, id, req, t2, rand, n2).value.doc;
    var d := FindDoc(store, id).value;
    assert d2.history[..|r1.doc.history|] == r1.doc.history;
    assert d2.history[|d.history|] == r1.doc.history[|d.history|];
  }

  /** Once forwarded, the recipient may open the document (they are on its access list), provided
      its owner still resolves. */
  lemma ForwardGrantsView(store: seq<Document>, users: seq<User>, actor: User, recipient: User, id: DocId,
                          req: ForwardRequest, now: int, rand: nat -> string, nonce: nat)
    requires req.toUserId == recipient.id
    requires ForwardDocument(store, users, actor, id, req, now, rand, nonce).Ok?
    requires FindUser(users, FindDoc(store, id).value.owner).Some?
    ensures GetDocumentById(ForwardDocument(store, users, actor, id, req, now, rand, nonce).value.store,
                            users, recipient, id).Ok?
  {
    var r := ForwardDocument(store, users, actor, id, req, now, rand, nonce).value;
    FindAfterSave(store, r.doc);
    assert EntriesFor(r.doc.accessControl, recipient.id) != 0;
    assert OnAccessList(r.doc, recipient);
  }
}

=== FILE: export.dfy ===
/** `POST /api/documents/export`: the documents chosen by id (or, when no ids are given, by
    filters), scoped by the same visibility clause as the listing, written out as CSV.
    Date formatting (`toISOString`) and `JSON.stringify` of the metadata are parameters. */
module Export {
  import opened Wrappers
  import opened Model
  import opened Text
  import opened Listing
  import opened Sorting

  /** `req.body.filters`; a field the client left out is "". */
  datatype ExportFilters = ExportFilters(status: string, owner: string, assignedTo: string, docRefShort: string, tags: string)

  /** The query before scoping: an id list wins over every filter. Unlike the listing, the short
      reference is matched exactly and there is no text or metadata search. */
  function ExportQuery(ids: seq<DocId>, f: ExportFilters): (q: Query)
    ensures q.anyOf.None? && q.metadataLike == map[] && q.refShortLike.None?
    ensures |ids| > 0 ==> q == EmptyQuery.(ids := Some(ids))
    ensures |ids| == 0 ==> q.ids.None? && (q.status.Some? <==> f.status != "") && (q.refShortIs.Some? <==> f.docRefShort != "")
  {
    if |ids| > 0 then EmptyQuery.(ids := Some(ids))
    else Query(
      None,
      if f.tags != "" then Some(TrimAll(Split(f.tags, ','))) else None,
      OptionalText(f.status),
      OptionalText(f.owner),
      OptionalText(f.assignedTo),
      None,
      OptionalText(f.docRefShort),
      map[],
      None)
  }

  /** The documents exported, in storage order: a document is exported exactly when it is
      stored, matches the ids or filters, and is visible to the requester. */
  function ExportedDocuments(store: seq<Document>, users: seq<User>, actor: User, ids: seq<DocId>, f: ExportFilters): (r: seq<Document>)
    ensures Subsequence(r, store)
    ensures forall d :: d in r <==> d in store && FieldsHold(ExportQuery(ids, f), d) && Visible(users, actor, d)
  {
    ScopeIsVisibilityAll(ExportQuery(ids, f), actor, users);
    Select(store, Scope(ExportQuery(ids, f), actor, users))
  }

  /** Without an id list a document is exported exactly when it is stored and visible to the
      requester and every filter the client sent holds: the status name, the owner and the
      assignee are equal, the short reference is equal, and some tag contains one of the
      comma-separated, trimmed tag patterns, ignoring case. */
  lemma FiltersSelectExport(store: seq<Document>, users: seq<User>, actor: User, ids: seq<DocId>, f: ExportFilters, d: Document)
    requires |ids| == 0
    ensures d in ExportedDocuments(store, users, actor, ids, f) <==>
            && d in store && Visible(users, actor, d)
            && (f.status != "" ==> StatusName(d.status) == f.status)
            && (f.owner != "" ==> d.owner == f.owner)
            && (f.assignedTo != "" ==> d.assignedTo == Some(f.assignedTo))
            && (f.docRefShort != "" ==> d.docRefShort == Some(f.docRefShort))
            && (f.tags != "" ==> exists t, pat :: t in d.tags && pat in TrimAll(Split(f.tags, ',')) && ContainsCI(t, pat))
  {
    FiltersHold(ids, f, d);
  }

  /** The field conditions of a filter query, one per filter sent. */
  lemma FiltersHold(ids: seq<DocId>, f: ExportFilters, d: Document)
    requires |ids| == 0
    ensures FieldsHold(ExportQuery(ids, f), d) <==>
            && (f.status != "" ==> StatusName(d.status) == f.status)
            && (f.owner != "" ==> d.owner == f.owner)
            && (f.assignedTo != "" ==> d.assignedTo == Some(f.assignedTo))
            && (f.docRefShort != "" ==> d.docRefShort == Some(f.docRefShort))
            && (f.tags != "" ==> exists t, pat :: t in d.tags && pat in TrimAll(Split(f.tags, ',')) && ContainsCI(t, pat))
  {
    var q := ExportQuery(ids, f);
    assert q == Query(None, if f.tags != "" then Some(TrimAll(Split(f.tags, ','))) else None,
                      OptionalText(f.status), OptionalText(f.owner), OptionalText(f.assignedTo),
                      None, OptionalText(f.docRefShort), map[], None);
  }

  /** With an id list the filters play no part. */
  lemma IdsOverrideFilters(store: seq<Document>, users: seq<User>, actor: User, ids: seq<DocId>, f: ExportFilters, g: ExportFilters)
    requires |ids| > 0
    ensures ExportedDocuments(store, users, actor, ids, f) == ExportedDocuments(store, users, actor, ids, g)
  {
  }

  // ---------------------------------------------------------------- CSV

  /** The column names; the header line joins them with commas. */
  const Columns: seq<string> := ["docRefShort", "docRef", "title", "owner", "assignedTo", "status", "createdAt", "updatedAt", "tags", "metadata"]

  const Header := Join(Columns, ",")

  /** Joining pieces without a given character, with a separator without it, leaves it out. */
  lemma {:induction false} JoinLacks(parts: seq<string>, sep: string, c: char)
    requires forall k :: 0 <= k < |parts| ==> c !in parts[k]
    requires c !in sep
    ensures c !in Join(parts, sep)
  {
    if |parts| > 1 {
      JoinLacks(parts[1..], sep, c);
    }
  }

  /** `"${s}"`. */
  function Quote(s: string): (r: string)
    ensures |r| == |s| + 2 && r[0] == '"' && r[|r| - 1] == '"' && r[1..|r| - 1] == s
  {
    "\"" + s + "\""
  }

  /** `s.replace(/"/g, '""')`. */
  function DoubleQuotes(s: string): (r: string)
    ensures '"' !in s ==> r == s
    ensures |r| >= |s| && ('"' in s ==> |r| > |s|)
  {
    if |s| == 0 then ""
    else if s[0] == '"' then "\"\"" + DoubleQuotes(s[1..])
    else [s[0]] + DoubleQuotes(s[1..])
  }

  /** Reading a CSV cell back: each doubled quote stands for one quote. */
  function UndoubleQuotes(s: string): string
    decreases |s|
  {
    if |s| == 0 then ""
    else if |s| >= 2 && s[0] == '"' && s[1] == '"' then "\"" + UndoubleQuotes(s[2..])
    else [s[0]] + UndoubleQuotes(s[1..])
  }

  /** The title cell reads back as the title. */
  lemma {:induction false} UndoubleDoubled(s: string)
    ensures UndoubleQuotes(DoubleQuotes(s)) == s
  {
    if |s| > 0 {
      UndoubleDoubled(s[1..]);
      if s[0] == '"' {
        assert ("\"\"" + DoubleQuotes(s[1..]))[2..] == DoubleQuotes(s[1..]);
      } else {
        assert ([s[0]] + DoubleQuotes(s[1..]))[1..] == DoubleQuotes(s[1..]);
      }
    }
  }

  /** Doubling introduces no line break: a title without one yields a cell without one. */
  lemma {:induction false} DoubleQuotesNoNewline(s: string)
    requires '\n' !in s
    ensures '\n' !in DoubleQuotes(s)
  {
    if |s| > 0 {
      DoubleQuotesNoNewline(s[1..]);
    }
  }

  /** The username a populated reference shows, or "" when the reference is missing or resolves
      to no user. */
  function RefName(users: seq<User>, id: Option<UserId>): string {
    match id
    case None => ""
    case Some(u) => UsernameOf(users, u)
  }

  /** The ten cells of one document, in header order, before quoting. */
  function Cells(d: Document, users: seq<User>, iso: int -> string, json: map<string, string> -> string): (c: seq<string>)
    ensures |c| == 10
    ensures c[0] == d.docRefShort.GetOr("") && c[1] == d.docRef.GetOr("") && c[2] == DoubleQuotes(d.title)
    ensures c[5] == StatusName(d.status) && c[8] == Join(d.tags, ";")
    ensures c[3] == UsernameOf(users, d.owner) && c[4] == RefName(users, d.assignedTo)
    ensures c[6] == iso(d.createdAt) && c[7] == iso(d.updatedAt) && c[9] == json(d.metadata)
  {
    [d.docRefShort.GetOr(""), d.docRef.GetOr(""), DoubleQuotes(d.title),
     UsernameOf(users, d.owner), RefName(users, d.assignedTo), StatusName(d.status),
     iso(d.createdAt), iso(d.updatedAt), Join(d.tags, ";"), json(d.metadata)]
  }

  /** Only the title has its quotes doubled: metadata JSON holding a `"` goes into its cell
      as it is, not in the escaped form the title gets. */
  lemma MetadataQuotesNotDoubled(d: Document, users: seq<User>, iso: int -> string, json: map<string, string> -> string)
    requires '"' in json(d.metadata)
    ensures Cells(d, users, iso, json)[9] != DoubleQuotes(json(d.metadata))
    ensures Cells(d, users, iso, json)[2] == DoubleQuotes(d.title)
  {
  }

  function QuoteAll(cells: seq<string>): (r: seq<string>)
    ensures |r| == |cells| && forall k :: 0 <= k < |cells| ==> r[k] == Quote(cells[k])
  {
    if |cells| == 0 then [] else [Quote(cells[0])] + QuoteAll(cells[1..])
  }

  /** One CSV line: every cell quoted, cells joined by commas. */
  function CsvRow(d: Document, users: seq<User>, iso: int -> string, json: map<string, string> -> string): string {
    Join(QuoteAll(Cells(d, users, iso, json)), ",")
  }

  function CsvRows(docs: seq<Document>, users: seq<User>, iso: int -> string, json: map<string, string> -> string): (r: seq<string>)
    ensures |r| == |docs| && forall k :: 0 <= k < |docs| ==> r[k] == CsvRow(docs[k], users, iso, json)
  {
    seq(|docs|, k requires 0 <= k < |docs| => CsvRow(docs[k], users, iso, json))
  }

  /** The response body: the header line, then one line per exported document. */
  /** The CSV body: the header line alone when nothing is exported, and otherwise the header, a
      line break and the exported documents' rows, in order, separated by line breaks. */
  function ExportCsv(store: seq<Document>, users: seq<User>, actor: User, ids: seq<DocId>, f: ExportFilters,
                     iso: int -> string, json: map<string, string> -> string): (r: string)
    ensures var rows := CsvRows(ExportedDocuments(store, users, actor, ids, f), users, iso, json);
      r == if |rows| == 0 then Header else Header + "\n" + Join(rows, "\n")
  {
    var rows := CsvRows(ExportedDocuments(store, users, actor, ids, f), users, iso, json);
    assert ([Header] + rows)[1..] == rows;
    Join([Header] + rows, "\n")
  }

  /** When no cell holds a line break, the body splits back into the header and one line per
      exported document, in order. */
  lemma ExportLines(store: seq<Document>, users: seq<User>, actor: User, ids: seq<DocId>, f: ExportFilters,
                    iso: int -> string, json: map<string, string> -> string)
    requires forall d :: d in ExportedDocuments(store, users, actor, ids, f) ==> '\n' !in CsvRow(d, users, iso, json)
    ensures var docs := ExportedDocuments(store, users, actor, ids, f);
      var lines := Split(ExportCsv(store, users, actor, ids, f, iso, json), '\n');
      && |lines| == |docs| + 1
      && lines[0] == Header
      && forall k :: 0 <= k < |docs| ==> lines[k + 1] == CsvRow(docs[k], users, iso, json)
  {
    CsvLines(ExportedDocuments(store, users, actor, ids, f), users, iso, json);
  }

  lemma CsvLines(docs: seq<Document>, users: seq<User>, iso: int -> string, json: map<string, string> -> string)
    requires forall d :: d in docs ==> '\n' !in CsvRow(d, users, iso, json)
    ensures var lines := Split(Join([Header] + CsvRows(docs, users, iso, json), "\n"), '\n');
      && |lines| == |docs| + 1
      && lines[0] == Header
      && forall k :: 0 <= k < |docs| ==> lines[k + 1] == CsvRow(docs[k], users, iso, json)
  {
    HeaderOneLine();
    MappedLines(Header, docs, CsvRows(docs, users, iso, json), d => CsvRow(d, users, iso, json));
  }

  /** A first line followed by one line per item, none holding a line break, splits back into
      those lines. */
  lemma MappedLines<X>(first: string, xs: seq<X>, rows: seq<string>, row: X -> string)
    requires '\n' !in first
    requires |rows| == |xs| && forall k :: 0 <= k < |xs| ==> rows[k] == row(xs[k])
    requires forall x :: x in xs ==> '\n' !in row(x)
    ensures var lines := Split(Join([first] + rows, "\n"), '\n');
      && |lines| == |xs| + 1
      && lines[0] == first
      && forall k :: 0 <= k < |xs| ==> lines[k + 1] == row(xs[k])
  {
    forall k | 0 <= k < |rows|
      ensures '\n' !in rows[k]
    {
      assert xs[k] in xs;
    }
    FirstThenLines(first, rows);
  }

  lemma HeaderOneLine()
    ensures '\n' !in Header
  {
    forall k | 0 <= k < |Columns|
      ensures '\n' !in Columns[k]
    {
    }
    JoinLacks(Columns, ",", '\n');
  }

  lemma FirstThenLines(first: string, rows: seq<string>)
    requires '\n' !in first
    requires forall k :: 0 <= k < |rows| ==> '\n' !in rows[k]
    ensures Split(Join([first] + rows, "\n"), '\n') == [first] + rows
  {
    var parts := [first] + rows;
    forall k | 0 <= k < |parts|
      ensures '\n' !in parts[k]
    {
      if k > 0 {
        assert parts[k] == rows[k - 1];
      }
    }
    SplitJoin(parts, '\n');
  }
}

=== FILE: listing.dfy ===
/** Document listing: the query `getDocuments` builds from its parameters, the role-based
    visibility clause it then imposes, and the page arithmetic. The same visibility clause
    scopes the CSV export. */
module Listing {
  import opened Wrappers
  import opened Roles
  import opened Model
  import opened Text
  import opened Sorting

  /** One alternative of a `$or`. */
  datatype Clause =
    | TitleLike(pattern: string)
    | ContentLike(pattern: string)
    | OwnerIs(user: UserId)
    | AclHas(user: UserId)
    | AssignedIs(user: UserId)
    | OwnerAmong(owners: set<UserId>)

  /** The storage query: a conjunction of field conditions and at most one `$or`. */
  datatype Query = Query(
    ids: Option<seq<DocId>>,
    tagsLike: Option<seq<string>>,
    status: Option<string>,
    owner: Option<UserId>,
    assignedTo: Option<UserId>,
    refShortLike: Option<string>,
    refShortIs: Option<string>,
    metadataLike: map<string, string>,
    anyOf: Option<seq<Clause>>)

  const EmptyQuery := Query(None, None, None, None, None, None, None, map[], None)

  predicate ClauseHolds(c: Clause, d: Document) {
    match c
    case TitleLike(p) => ContainsCI(d.title, p)
    case ContentLike(p) => ContainsCI(d.content, p)
    case OwnerIs(u) => d.owner == u
    case AclHas(u) => exists e :: e in d.accessControl && e.user == u
    case AssignedIs(u) => d.assignedTo == Some(u)
    case OwnerAmong(us) => d.owner in us
  }

  predicate FieldsHold(q: Query, d: Document) {
    && (q.ids.Some? ==> d.id in q.ids.value)
    && (q.tagsLike.Some? ==> exists t, p :: t in d.tags && p in q.tagsLike.value && ContainsCI(t, p))
    && (q.status.Some? ==> StatusName(d.status) == q.status.value)
    && (q.owner.Some? ==> d.owner == q.owner.value)
    && (q.assignedTo.Some? ==> d.assignedTo == q.assignedTo)
    && (q.refShortLike.Some? ==> d.docRefShort.Some? && ContainsCI(d.docRefShort.value, q.refShortLike.value))
    && (q.refShortIs.Some? ==> d.docRefShort == q.refShortIs)
    && (forall k :: k in q.metadataLike ==> k in d.metadata && ContainsCI(d.metadata[k], q.metadataLike[k]))
  }

  predicate QueryHolds(q: Query, d: Document) {
    FieldsHold(q, d) && (q.anyOf.Some? ==> exists c :: c in q.anyOf.value && ClauseHolds(c, d))
  }

  /** `Document.find(query)` / `countDocuments(query)`: the matching documents in storage order. */
  function Select(store: seq<Document>, q: Query): (r: seq<Document>)
    ensures |r| <= |store|
    ensures forall d :: d in r <==> d in store && QueryHolds(q, d)
    ensures forall d :: multiset(r)[d] == if QueryHolds(q, d) then multiset(store)[d] else 0
    ensures Subsequence(r, store)
  {
    if |store| == 0 then []
    else
      assert store == [store[0]] + store[1..];
      if QueryHolds(q, store[0]) then [store[0]] + Select(store[1..], q)
      else Select(store[1..], q)
  }

  // ---------------------------------------------------------------- visibility

  /** Ids of the users whose role is in the peer group (`User.find({ role: { $in: roleGroup } })`). */
  function PeerIds(users: seq<User>): set<UserId> {
    set u | u in users && InPeerGroup(u.role) :: u.id
  }

  /** The `$or` the listing and export impose on a non-admin requester; none for an admin. */
  function VisibilityClauses(actor: User, users: seq<User>): Option<seq<Clause>> {
    if actor.role == Admin then None
    else if InPeerGroup(actor.role) then
      Some([OwnerIs(actor.id), AclHas(actor.id), AssignedIs(actor.id), OwnerAmong(PeerIds(users))])
    else Some([OwnerIs(actor.id), AclHas(actor.id), AssignedIs(actor.id)])
  }

  /** `query = { ...query, $or: [...] }`: the visibility `$or` replaces any `$or` built before. */
  function Scope(q: Query, actor: User, users: seq<User>): Query {
    match VisibilityClauses(actor, users)
    case None => q
    case Some(cs) => q.(anyOf := Some(cs))
  }

  /** Who may see a document in a listing or an export, stated per role: an admin sees everything;
      anyone sees what they own, what they are on the access list of, and what is assigned to
      them; a peer-group member also sees whatever another peer-group member owns. */
  predicate Visible(users: seq<User>, actor: User, d: Document) {
    || actor.role == Admin
    || d.owner == actor.id
    || (exists e :: e in d.accessControl && e.user == actor.id)
    || d.assignedTo == Some(actor.id)
    || (InPeerGroup(actor.role) && exists u :: u in users && u.id == d.owner && InPeerGroup(u.role))
  }

  /** A scoped query selects a document exactly when its field conditions hold and, for a
      non-admin, the document is visible to the requester; an admin's own `$or` still applies. */
  /** `ScopeIsVisibility` for every document at once. */
  lemma ScopeIsVisibilityAll(q: Query, actor: User, users: seq<User>)
    ensures forall d :: QueryHolds(Scope(q, actor, users), d) <==>
              if actor.role == Admin then QueryHolds(q, d) else FieldsHold(q, d) && Visible(users, actor, d)
  {
    forall d ensures QueryHolds(Scope(q, actor, users), d) <==>
                     if actor.role == Admin then QueryHolds(q, d) else FieldsHold(q, d) && Visible(users, actor, d) {
      ScopeIsVisibility(q, actor, users, d);
    }
  }

  lemma ScopeIsVisibility(q: Query, actor: User, users: seq<User>, d: Document)
    ensures QueryHolds(Scope(q, actor, users), d) <==>
            if actor.role == Admin then QueryHolds(q, d) else FieldsHold(q, d) && Visible(users, actor, d)
  {
    if actor.role != Admin {
      var cs := VisibilityClauses(actor, users).value;
      if Visible(users, actor, d) {
        if d.owner == actor.id {
          assert ClauseHolds(cs[0], d);
        } else if exists e :: e in d.accessControl && e.user == actor.id {
          assert ClauseHolds(cs[1], d);
        } else if d.assignedTo == Some(actor.id) {
          assert ClauseHolds(cs[2], d);
        } else {
          var u :| u in users && u.id == d.owner && InPeerGroup(u.role);
          assert d.owner in PeerIds(users);
          assert ClauseHolds(cs[3], d);
        }
      }
      if exists c :: c in cs && ClauseHolds(c, d) {
        var c :| c in cs && ClauseHolds(c, d);
        if c.OwnerAmong? {
          assert d.owner in PeerIds(users);
          var u :| u in users && InPeerGroup(u.role) && u.id == d.owner;
        }
      }
    }
  }

  // ---------------------------------------------------------------- request parameters

  /** The query-string parameters; "" stands for an absent (falsy) parameter, and `page` / `limit`
      hold what `parseInt` returned, `None` for NaN. */
  datatype ListParams = ListParams(
    text: string,
    tags: string,
    status: string,
    owner: string,
    assignedTo: string,
    docRefShort: string,
    metadata: string,
    page: Option<int>,
    limit: Option<int>)

  function OptionalText(s: string): (r: Option<string>)
    ensures r.Some? <==> s != ""
    ensures r.Some? ==> r.value == s
  {
    if s == "" then None else Some(s)
  }

  /** What one `metadata` item asks for: `const [key, value] = item.split(':')`, kept only when
      both are non-empty, with the value trimmed. */
  function ItemCondition(item: string): (c: Option<(string, string)>)
    ensures c.Some? ==> c.value.0 != ""
  {
    var parts := Split(item, ':');
    if |parts| >= 2 && parts[0] != "" && parts[1] != "" then Some((parts[0], Trim(parts[1]))) else None
  }

  predicate Sets(c: Option<(string, string)>, k: string) {
    c.Some? && c.value.0 == k
  }

  /** The conditions parsed items set, in order, a later one overriding an earlier one for
      the same key (`metadataQuery[key] = …` inside `forEach`). */
  function Conditions(cs: seq<Option<(string, string)>>): map<string, string> {
    if |cs| == 0 then map[]
    else
      var earlier := Conditions(cs[..|cs| - 1]);
      var c := cs[|cs| - 1];
      if c.Some? then earlier[c.value.0 := c.value.1] else earlier
  }

  /** Condition `i` sets key `k` and no later condition does. */
  predicate LastSetter(cs: seq<Option<(string, string)>>, i: int, k: string) {
    0 <= i < |cs| && Sets(cs[i], k) && forall j :: i < j < |cs| ==> !Sets(cs[j], k)
  }

  /** The conditions hold exactly the keys some item sets ... */
  lemma {:induction false} ConditionKeyAt(cs: seq<Option<(string, string)>>, k: string)
    ensures k in Conditions(cs) <==> exists i :: 0 <= i < |cs| && Sets(cs[i], k)
  {
    if |cs| > 0 {
      var n := |cs| - 1;
      var init := cs[..n];
      ConditionKeyAt(init, k);
      if k in Conditions(cs) && !Sets(cs[n], k) {
        assert k in Conditions(init);
        var i :| 0 <= i < |init| && Sets(init[i], k);
        assert cs[i] == init[i];
      }
      if exists i :: 0 <= i < |cs| && Sets(cs[i], k) {
        var i :| 0 <= i < |cs| && Sets(cs[i], k);
        if i < n {
          assert Sets(init[i], k);
        }
      }
    }
  }

  /** ... each with the value of the last item that sets it. */
  lemma {:induction false} ConditionLastWins(cs: seq<Option<(string, string)>>, i: int, k: string)
    requires LastSetter(cs, i, k)
    ensures k in Conditions(cs) && Conditions(cs)[k] == cs[i].value.1
  {
    var n := |cs| - 1;
    var init := cs[..n];
    if i < n {
      assert !Sets(cs[n], k);
      assert forall j :: i < j < |init| ==> init[j] == cs[j];
      ConditionLastWins(init, i, k);
      assert init[i] == cs[i];
    }
  }

  /** Only keys some condition names are constrained. */
  lemma ConditionKeysNamed(cs: seq<Option<(string, string)>>)
    requires forall i :: 0 <= i < |cs| && cs[i].Some? ==> cs[i].value.0 != ""
    ensures forall k :: k in Conditions(cs) ==> k != ""
  {
    forall k | k in Conditions(cs)
      ensures k != ""
    {
      ConditionKeyAt(cs, k);
    }
  }

  /** `metadata=k:v,k:v` split at the commas: the condition each item sets, in order. */
  function MetadataConditions(items: seq<string>): (m: map<string, string>)
    ensures forall k :: k in m ==> k != ""
  {
    ConditionKeysNamed(ItemConditions(items));
    Conditions(ItemConditions(items))
  }

  /** The condition each item of `items` sets. */
  function ItemConditions(items: seq<string>): (cs: seq<Option<(string, string)>>)
    ensures |cs| == |items| && forall i :: 0 <= i < |items| ==> cs[i] == ItemCondition(items[i])
  {
    seq(|items|, i requires 0 <= i < |items| => ItemCondition(items[i]))
  }

  /** A key is constrained exactly when some item names it with a non-empty value ... */
  lemma MetadataKeys(items: seq<string>, k: string)
    ensures k in MetadataConditions(items) <==> exists i :: 0 <= i < |items| && Sets(ItemCondition(items[i]), k)
  {
    var cs := ItemConditions(items);
    ConditionKeyAt(cs, k);
    if k in MetadataConditions(items) {
      var i :| 0 <= i < |cs| && Sets(cs[i], k);
      assert Sets(ItemCondition(items[i]), k);
    }
  }

  /** ... and it is constrained to the trimmed value of the last item naming it. */
  lemma MetadataLastWins(items: seq<string>, i: int, k: string)
    requires 0 <= i < |items| && Sets(ItemCondition(items[i]), k)
    requires forall j :: i < j < |items| ==> !Sets(ItemCondition(items[j]), k)
    ensures k in MetadataConditions(items) && MetadataConditions(items)[k] == ItemCondition(items[i]).value.1
  {
    var cs := ItemConditions(items);
    assert LastSetter(cs, i, k);
    ConditionLastWins(cs, i, k);
  }

  /** The query `getDocuments` builds, before visibility scoping. The text search becomes the
      query's `$or`. */
  function FilterQuery(p: ListParams): Query {
    Query(
      None,
      if p.tags != "" then Some(TrimAll(Split(p.tags, ','))) else None,
      OptionalText(p.status),
      OptionalText(p.owner),
      OptionalText(p.assignedTo),
      OptionalText(p.docRefShort),
      None,
      if p.metadata != "" then MetadataConditions(Split(p.metadata, ',')) else map[],
      if p.text != "" then Some([TitleLike(Trim(p.text)), ContentLike(Trim(p.text))]) else None)
  }

  function ListQuery(p: ListParams, actor: User, users: seq<User>): Query {
    Scope(FilterQuery(p), actor, users)
  }

  // ---------------------------------------------------------------- pages

  /** `parseInt(page, 10) || 1`: NaN and 0 fall back to 1; negative pages are kept. */
  function PageNumber(parsed: Option<int>): (n: int)
    ensures n != 0
    ensures parsed.Some? && parsed.value != 0 ==> n == parsed.value
    ensures parsed.None? || parsed.value == 0 ==> n == 1
  {
    match parsed
    case Some(v) => if v == 0 then 1 else v
    case None => 1
  }

  /** `Math.min(parseInt(limit, 10) || 20, 100)`: capped at 100, no lower clamp. */
  function PageLimit(parsed: Option<int>): (n: int)
    ensures n != 0 && n <= 100
    ensures parsed.None? || parsed.value == 0 ==> n == 20
    ensures parsed.Some? && parsed.value != 0 ==> n == if parsed.value < 100 then parsed.value else 100
  {
    var v := match parsed case Some(v) => (if v == 0 then 20 else v) case None => 20;
    if v < 100 then v else 100
  }

  /** `Math.ceil(total / limit)`. */
  function CeilDiv(total: nat, limit: int): (r: int)
    requires limit != 0
    ensures limit > 0 ==> r >= 0 && r * limit >= total && (r - 1) * limit < total
    ensures limit < 0 ==> r <= 0 && r * limit <= total && (r - 1) * limit > total
  {
    if limit > 0 then (total + limit - 1) / limit else -(total / -limit)
  }

  function Min(a: int, b: int): int {
    if a < b then a else b
  }

  function Abs(a: int): nat {
    if a < 0 then -a else a
  }

  /** How many of `total` items a page starting at `skip` holds: none past the end, otherwise
      as many as the limit's absolute value allows. */
  function PageSize(total: nat, skip: int, limit: int): nat {
    if skip >= total then 0 else Min(Abs(limit), total - skip)
  }

  /** `.skip((page - 1) * limit).limit(limit)`. The store refuses a negative skip; a negative
      limit returns as many documents as its absolute value. */
  function Paginate<T>(items: seq<T>, page: int, limit: int): (r: Result<seq<T>>)
    requires limit != 0
    ensures r.Ok? <==> (page - 1) * limit >= 0
    ensures r.Ok? ==> var skip := (page - 1) * limit;
                      |r.value| == PageSize(|items|, skip, limit)
                      && forall k :: 0 <= k < |r.value| ==> r.value[k] == items[skip + k]
    ensures r.Ok? && |r.value| > 0 ==> 0 <= (page - 1) * limit && (page - 1) * limit + |r.value| <= |items|
  {
    var skip := (page - 1) * limit;
    if skip < 0 then Err(ServerError("skip value must be non-negative"))
    else if skip >= |items| then Ok([])
    else Ok(items[skip..skip + Min(Abs(limit), |items| - skip)])
  }

  /** The listing order, `sort({ createdAt: -1 })`. */
  predicate NewestFirst(a: Document, b: Document) {
    a.createdAt >= b.createdAt
  }

  datatype ListPage = ListPage(documents: seq<Document>, total: nat, page: int, totalPages: int)

  /** `getDocuments`. `total` counts every matching document before the page is cut out,
      `totalPages` is the ceiling of `total / limit`, and the page is the run at
      `(page - 1) * limit` of the matching documents put newest first. */
  function GetDocuments(store: seq<Document>, users: seq<User>, actor: User, p: ListParams): (r: Result<ListPage>)
    ensures var limit := PageLimit(p.limit);
            r.Ok? <==> (PageNumber(p.page) - 1) * limit >= 0
    ensures r.Ok? ==> var limit := PageLimit(p.limit);
                      && r.value.page == PageNumber(p.page)
                      && r.value.total == |Select(store, ListQuery(p, actor, users))|
                      && r.value.totalPages == CeilDiv(r.value.total, limit)
                      && |r.value.documents| <= Abs(limit)
                      && (forall d :: d in r.value.documents ==> d in store && QueryHolds(ListQuery(p, actor, users), d))
                      && SortedBy(r.value.documents, NewestFirst)
    ensures r.Ok? ==> var skip := (PageNumber(p.page) - 1) * PageLimit(p.limit);
                      && |r.value.documents| == PageSize(r.value.total, skip, PageLimit(p.limit))
                      && RunOfSorted(r.value.documents, Select(store, ListQuery(p, actor, users)), NewestFirst, skip)
  {
    var matching := Select(store, ListQuery(p, actor, users));
    var page := PageNumber(p.page);
    var limit := PageLimit(p.limit);
    var ordered := SortBy(matching, NewestFirst);
    NewestFirstIsPreorder();
    SortedPage(matching, NewestFirst, page, limit);
    SortedPageRun(matching, NewestFirst, page, limit);
    match Paginate(ordered, page, limit)
    case Err(e) => Err(e)
    case Ok(docs) => Ok(ListPage(docs, |matching|, page, CeilDiv(|matching|, limit)))
  }

  lemma NewestFirstIsPreorder()
    ensures Total(NewestFirst) && Transitive(NewestFirst)
  {
  }

  /** `docs` is the run starting at `skip` of some ordering of `matching` by `le`. Where `le`
      ties two items either may come first, as the store leaves the order of equal keys open. */
  ghost predicate RunOfSorted<T(!new)>(docs: seq<T>, matching: seq<T>, le: (T, T) -> bool, skip: int) {
    exists ordered :: multiset(ordered) == multiset(matching) && SortedBy(ordered, le)
      && (|docs| == 0 || (0 <= skip && skip + |docs| <= |ordered| && docs == ordered[skip..skip + |docs|]))
  }

  /** A page cut from a sorted copy holds only items of the original, in order. */
  lemma SortedPage<T(!new)>(matching: seq<T>, le: (T, T) -> bool, page: int, limit: int)
    requires limit != 0
    requires Total(le) && Transitive(le)
    ensures var r := Paginate(SortBy(matching, le), page, limit);
            var skip := (page - 1) * limit;
            && (r.Ok? <==> skip >= 0)
            && (r.Ok? ==> && |r.value| == PageSize(|matching|, skip, limit)
                          && |r.value| <= Abs(limit)
                          && (forall d :: d in r.value ==> d in matching) && SortedBy(r.value, le))
  {
    SortBySorted(matching, le);
    PageOfSorted(matching, SortBy(matching, le), le, page, limit);
  }

  /** The same page is the run at `(page - 1) * limit` of an ordering of the items by `le`. */
  lemma SortedPageRun<T(!new)>(matching: seq<T>, le: (T, T) -> bool, page: int, limit: int)
    requires limit != 0
    requires Total(le) && Transitive(le)
    ensures var r := Paginate(SortBy(matching, le), page, limit);
            r.Ok? ==> RunOfSorted(r.value, matching, le, (page - 1) * limit)
  {
    var ordered := SortBy(matching, le);
    var r := Paginate(ordered, page, limit);
    SortBySorted(matching, le);
    if r.Ok? {
      var skip := (page - 1) * limit;
      if |r.value| > 0 {
        assert r.value == ordered[skip..skip + |r.value|];
      }
      RunWitness(r.value, matching, ordered, le, skip);
    }
  }

  /** Any sorted permutation that holds the page at `skip` witnesses the run. */
  lemma RunWitness<T(!new)>(docs: seq<T>, matching: seq<T>, ordered: seq<T>, le: (T, T) -> bool, skip: int)
    requires multiset(ordered) == multiset(matching) && SortedBy(ordered, le)
    requires |docs| == 0 || (0 <= skip && skip + |docs| <= |ordered| && docs == ordered[skip..skip + |docs|])
    ensures RunOfSorted(docs, matching, le, skip)
  {
  }

  lemma PageOfSorted<T(!new)>(matching: seq<T>, ordered: seq<T>, le: (T, T) -> bool, page: int, limit: int)
    requires limit != 0
    requires multiset(ordered) == multiset(matching) && SortedBy(ordered, le)
    ensures var r := Paginate(ordered, page, limit);
            r.Ok? ==> (forall d :: d in r.value ==> d in matching) && SortedBy(r.value, le)
  {
    var r := Paginate(ordered, page, limit);
    if r.Ok? {
      SliceSorted(ordered, r.value, (page - 1) * limit, le);
      forall d | d in ordered
        ensures d in matching
      {
        assert d in multiset(ordered);
      }
    }
  }

  /** A run of consecutive items of a sorted sequence is sorted and holds only its items. */
  lemma SliceSorted<T>(ordered: seq<T>, docs: seq<T>, skip: int, le: (T, T) -> bool)
    requires |docs| > 0 ==> 0 <= skip && skip + |docs| <= |ordered|
    requires forall k :: 0 <= k < |docs| ==> docs[k] == ordered[skip + k]
    requires SortedBy(ordered, le)
    ensures SortedBy(docs, le) && forall d :: d in docs ==> d in ordered
  {
    forall d | d in docs
      ensures d in ordered
    {
      var k :| 0 <= k < |docs| && docs[k] == d;
      assert d == ordered[skip + k];
    }
    forall i, j | 0 <= i < j < |docs|
      ensures le(docs[i], docs[j])
    {
      assert docs[i] == ordered[skip + i] && docs[j] == ordered[skip + j];
    }
  }

  // ---------------------------------------------------------------- properties

  predicate NoFilters(p: ListParams) {
    p.text == "" && p.tags == "" && p.status == "" && p.owner == "" && p.assignedTo == ""
    && p.docRefShort == "" && p.metadata == ""
  }

  /** Without filters, a document is counted in a requester's listing exactly when it is
      visible to that requester. */
  lemma ListedIffVisible(store: seq<Document>, users: seq<User>, actor: User, p: ListParams, d: Document)
    requires NoFilters(p)
    ensures d in Select(store, ListQuery(p, actor, users)) <==> d in store && Visible(users, actor, d)
  {
    assert FilterQuery(p) == EmptyQuery;
    ScopeIsVisibility(EmptyQuery, actor, users, d);
  }

  /** For every requester other than an admin the free-text parameter has no effect at all:
      the visibility `$or` overwrites the text search's `$or`. */
  lemma TextIgnoredForNonAdmins(store: seq<Document>, users: seq<User>, actor: User, p: ListParams, text: string)
    requires actor.role != Admin
    ensures GetDocuments(store, users, actor, p) == GetDocuments(store, users, actor, p.(text := text))
  {
    assert ListQuery(p, actor, users) == ListQuery(p.(text := text), actor, users);
  }

  /** For an admin the text search does apply: to the trimmed text, in title or content. */
  lemma AdminTextSearch(store: seq<Document>, users: seq<User>, actor: User, p: ListParams, d: Document)
    requires actor.role == Admin
    requires NoFilters(p.(text := ""))
    requires p.text != ""
    ensures d in Select(store, ListQuery(p, actor, users)) <==>
            d in store && (ContainsCI(d.title, Trim(p.text)) || ContainsCI(d.content, Trim(p.text)))
  {
    var q := ListQuery(p, actor, users);
    assert q.anyOf == Some([TitleLike(Trim(p.text)), ContentLike(Trim(p.text))]);
    if ContainsCI(d.title, Trim(p.text)) {
      assert ClauseHolds(q.anyOf.value[0], d);
    } else if ContainsCI(d.content, Trim(p.text)) {
      assert ClauseHolds(q.anyOf.value[1], d);
    }
  }

  /** A non-peer requester never sees, nor counts, a document they neither own, nor are on the
      access list of, nor are assigned — whatever the filters. */
  lemma OthersDocumentsHidden(store: seq<Document>, users: seq<User>, actor: User, p: ListParams, d: Document)
    requires !InPeerGroup(actor.role)
    requires d.owner != actor.id && d.assignedTo != Some(actor.id)
    requires forall e :: e in d.accessControl ==> e.user != actor.id
    ensures d !in Select(store, ListQuery(p, actor, users))
  {
    ScopeIsVisibility(FilterQuery(p), actor, users, d);
  }

  lemma {:induction false} SelectAll(store: seq<Document>, q: Query)
    requires forall d :: d in store ==> QueryHolds(q, d)
    ensures Select(store, q) == store
    decreases |store|
  {
    if |store| > 0 {
      SelectAll(store[1..], q);
    }
  }

  /** Twenty-five documents seen by an admin, page 2 of 10: ten documents, total 25, three pages. */
  lemma SecondPageOfTwentyFive(store: seq<Document>, users: seq<User>, actor: User)
    requires |store| == 25 && actor.role == Admin
    ensures var r := GetDocuments(store, users, actor, ListParams("", "", "", "", "", "", "", Some(2), Some(10)));
            r.Ok? && |r.value.documents| == 10 && r.value.total == 25 && r.value.totalPages == 3 && r.value.page == 2
  {
    var p := ListParams("", "", "", "", "", "", "", Some(2), Some(10));
    assert ListQuery(p, actor, users) == EmptyQuery;
    SelectAll(store, EmptyQuery);
    assert PageSize(25, 10, 10) == 10;
  }
}

=== FILE: model.dfy ===
/** The persisted records — User and Document with its history events, version snapshots and
    access-control entries — and the collections that hold them. A collection is a sequence in
    storage order; the unique indexes (`_id`, `username`, and the sparse `docRef` /
    `docRefShort` indexes) are checked when a new record is saved, as the database does. */
module Model {
  import opened Wrappers
  import opened Roles
  import opened Sorting

  type UserId = string
  type DocId = string

  // ---------------------------------------------------------------- users

  /** A User record. `failedLoginAttempts` defaults to 0; the lock and reset fields are optional. */
  datatype User = User(
    id: UserId,
    username: string,
    passwordHash: string,
    role: Role,
    fullName: Option<string>,
    failedLoginAttempts: nat,
    lockUntil: Option<int>,
    resetPasswordToken: Option<string>,
    resetPasswordExpires: Option<int>)

  /** A fresh record with the schema defaults filled in. */
  function NewUser(id: UserId, username: string, passwordHash: string, role: Role, fullName: Option<string>): (u: User)
    ensures u.id == id && u.username == username && u.role == role && u.fullName == fullName
    ensures u.failedLoginAttempts == 0 && u.lockUntil.None?
    ensures u.resetPasswordToken.None? && u.resetPasswordExpires.None?
  {
    User(id, username, passwordHash, role, fullName, 0, None, None, None)
  }

  /** Username and password are required (a required string field rejects ""). */
  predicate UserValid(u: User) {
    u.username != "" && u.passwordHash != ""
  }

  /** The `_id` and `username` unique indexes, and every record satisfying the schema. */
  predicate UsersInvariant(users: seq<User>) {
    && (forall i, j | 0 <= i < j < |users| :: users[i].id != users[j].id)
    && (forall i, j | 0 <= i < j < |users| :: users[i].username != users[j].username)
    && (forall i | 0 <= i < |users| :: UserValid(users[i]))
  }

  /** `User.findById(id)`. */
  function FindUser(users: seq<User>, id: UserId): (r: Option<User>)
    ensures r.Some? ==> r.value in users && r.value.id == id
    ensures r.None? ==> forall u :: u in users ==> u.id != id
  {
    if |users| == 0 then None
    else if users[0].id == id then Some(users[0])
    else FindUser(users[1..], id)
  }

  /** `User.findOne({ username })`. */
  function FindByUsername(users: seq<User>, name: string): (r: Option<User>)
    ensures r.Some? ==> r.value in users && r.value.username == name
    ensures r.None? ==> forall u :: u in users ==> u.username != name
  {
    if |users| == 0 then None
    else if users[0].username == name then Some(users[0])
    else FindByUsername(users[1..], name)
  }

  /** Position of the user with the given id, or `|users|`. */
  function IndexOfUser(users: seq<User>, id: UserId): (i: nat)
    ensures i <= |users|
    ensures i < |users| ==> users[i].id == id
    ensures forall k :: 0 <= k < i ==> users[k].id != id
  {
    if |users| == 0 then 0
    else if users[0].id == id then 0
    else 1 + IndexOfUser(users[1..], id)
  }

  /** `user.save()` on a record already stored: the first record with its id is replaced. */
  function SaveUser(users: seq<User>, u: User): (r: seq<User>)
    ensures |r| == |users|
    ensures IndexOfUser(users, u.id) < |users| ==> r[IndexOfUser(users, u.id)] == u
    ensures forall k :: 0 <= k < |users| && k != IndexOfUser(users, u.id) ==> r[k] == users[k]
  {
    var i := IndexOfUser(users, u.id);
    if i < |users| then users[i := u] else users
  }

  /** Two user records clash on the `_id` or the `username` unique index. */
  predicate UsersClash(a: User, b: User) {
    a.id == b.id || a.username == b.username
  }

  /** `new User(...).save()`: schema validation, then the unique indexes. */
  function AddUser(users: seq<User>, u: User): (r: Result<seq<User>>)
    ensures r.Ok? <==> UserValid(u) && forall k :: 0 <= k < |users| ==> !UsersClash(users[k], u)
    ensures r.Ok? ==> r.value == users + [u]
    ensures r.Err? ==> r.error.ServerError?
  {
    if !UserValid(u) then Err(ServerError("User validation failed"))
    else if exists k | 0 <= k < |users| :: UsersClash(users[k], u) then Err(ServerError("E11000 duplicate key error"))
    else Ok(users + [u])
  }

  /** `User.findByIdAndDelete(id)`: the first record with that id leaves the collection. */
  function RemoveUser(users: seq<User>, id: UserId): (r: seq<User>)
    ensures IndexOfUser(users, id) < |users| ==> |r| == |users| - 1
    ensures IndexOfUser(users, id) == |users| ==> r == users
    ensures forall u :: u in users && u.id != id ==> u in r
  {
    var i := IndexOfUser(users, id);
    if i < |users| then users[..i] + users[i + 1..] else users
  }

  lemma AddUserKeepsInvariant(users: seq<User>, u: User)
    requires UsersInvariant(users)
    requires AddUser(users, u).Ok?
    ensures UsersInvariant(AddUser(users, u).value)
  {
    var r := AddUser(users, u).value;
    forall i, j | 0 <= i < j < |r|
      ensures r[i].id != r[j].id && r[i].username != r[j].username
    {
      if j == |users| {
        assert !UsersClash(users[i], u);
      }
    }
  }

  /** Removing by id leaves no record with that id and keeps the invariant. */
  lemma RemoveUserKeepsInvariant(users: seq<User>, id: UserId)
    requires UsersInvariant(users)
    ensures forall u :: u in RemoveUser(users, id) ==> u.id != id
    ensures UsersInvariant(RemoveUser(users, id))
  {
    var i := IndexOfUser(users, id);
    var r := RemoveUser(users, id);
    if i < |users| {
      assert r == users[..i] + users[i + 1..];
      assert forall k | 0 <= k < |r| :: r[k] == users[if k < i then k else k + 1];
      forall u | u in r
        ensures u.id != id
      {
        var k :| 0 <= k < |r| && r[k] == u;
        var k' := if k < i then k else k + 1;
        assert users[k'].id != users[i].id;
      }
    }
  }

  /** Re-saving a record under its own id and username, valid, keeps the invariant. */
  lemma SaveUserKeepsInvariant(users: seq<User>, u: User)
    requires UsersInvariant(users)
    requires IndexOfUser(users, u.id) < |users|
    requires users[IndexOfUser(users, u.id)].username == u.username
    requires UserValid(u)
    ensures UsersInvariant(SaveUser(users, u))
  {
  }

  /** The username a lookup by id resolves to, or "" when there is no such user. */
  function UsernameOf(users: seq<User>, id: UserId): string {
    match FindUser(users, id)
    case Some(u) => u.username
    case None => ""
  }

  // ---------------------------------------------------------------- documents

  /** Access-control capability: "viewer" (the default) or "editor". */
  datatype Capability = Viewer | Editor

  const DefaultCapability: Capability := Viewer

  function CapabilityName(c: Capability): string {
    match c
    case Viewer => "viewer"
    case Editor => "editor"
  }

  /** The access entry's enum validator: a role outside "viewer"/"editor" fails validation on
      save. */
  function ParseCapability(s: string): (r: Option<Capability>)
    ensures r.Some? ==> CapabilityName(r.value) == s
    ensures forall c :: CapabilityName(c) == s ==> r == Some(c)
  {
    if s == "viewer" then Some(Viewer)
    else if s == "editor" then Some(Editor)
    else None
  }

  datatype AclEntry = AclEntry(user: UserId, capability: Capability)

  /** Document.status, "Draft" by default. */
  datatype Status = Draft | PendingApproval | Approved | Rejected | Open | Closed

  const DefaultStatus: Status := Draft

  function StatusName(s: Status): string {
    match s
    case Draft => "Draft"
    case PendingApproval => "Pending Approval"
    case Approved => "Approved"
    case Rejected => "Rejected"
    case Open => "Open"
    case Closed => "Closed"
  }

  /** The schema's enum validator: a name outside the enumeration fails validation on save. */
  function ParseStatus(s: string): (r: Option<Status>)
    ensures r.Some? ==> StatusName(r.value) == s
    ensures forall x :: StatusName(x) == s ==> r == Some(x)
  {
    if s == "Draft" then Some(Draft)
    else if s == "Pending Approval" then Some(PendingApproval)
    else if s == "Approved" then Some(Approved)
    else if s == "Rejected" then Some(Rejected)
    else if s == "Open" then Some(Open)
    else if s == "Closed" then Some(Closed)
    else None
  }

  // The `action` strings the controllers write into history events.
  const ActionCreated := "Created"
  const ActionStatusChange := "Status Change"
  const ActionShared := "Forwarded/Shared"
  const ActionAssigned := "Assigned"
  const ActionEdited := "Edited"
  const ActionClosed := "Closed"
  const ActionForwarded := "Forwarded"

  /** One entry of a document's history; only `action` is required. */
  datatype HistoryEvent = HistoryEvent(
    action: string,
    performedBy: Option<UserId>,
    performedByName: Option<string>,
    eventId: Option<string>,
    timestamp: int,
    details: string)

  /** A snapshot of earlier content, pushed by updates. */
  datatype VersionEntry = VersionEntry(content: string, editedBy: UserId, editedAt: int)

  datatype Document = Document(
    id: DocId,
    title: string,
    content: string,
    docRef: Option<string>,
    docRefShort: Option<string>,
    owner: UserId,
    assignedTo: Option<UserId>,
    assignedToName: Option<string>,
    tags: seq<string>,
    metadata: map<string, string>,
    versionHistory: seq<VersionEntry>,
    history: seq<HistoryEvent>,
    status: Status,
    closedMessage: Option<string>,
    closedAt: Option<int>,
    closedBy: Option<UserId>,
    accessControl: seq<AclEntry>,
    createdAt: int,
    updatedAt: int)

  /** Schema validation: title and content are required strings, every event has an action.
      The required `owner` is always present, since the type holds a `UserId` rather than an
      optional one. */
  predicate DocumentValid(d: Document) {
    d.title != "" && d.content != "" && HistoryValid(d.history)
  }

  /** Every history event has its required `action`. */
  predicate HistoryValid(h: seq<HistoryEvent>) {
    forall k | 0 <= k < |h| :: h[k].action != ""
  }

  /** Two documents clash on the `_id` index or on one of the sparse unique indexes
      (documents lacking the field do not take part). */
  predicate KeysClash(a: Document, b: Document) {
    || a.id == b.id
    || (a.docRef.Some? && a.docRef == b.docRef)
    || (a.docRefShort.Some? && a.docRefShort == b.docRefShort)
  }

  /** The unique indexes hold and every stored document passes schema validation. */
  predicate StoreInvariant(store: seq<Document>) {
    && (forall i, j | 0 <= i < j < |store| :: !KeysClash(store[i], store[j]))
    && (forall i | 0 <= i < |store| :: DocumentValid(store[i]))
  }

  /** Position of the document with the given id, or `|store|`. */
  function IndexOfDoc(store: seq<Document>, id: DocId): (i: nat)
    ensures i <= |store|
    ensures i < |store| ==> store[i].id == id
    ensures forall k :: 0 <= k < i ==> store[k].id != id
  {
    if |store| == 0 then 0
    else if store[0].id == id then 0
    else 1 + IndexOfDoc(store[1..], id)
  }

  /** `Document.findById(id)`. */
  function FindDoc(store: seq<Document>, id: DocId): (r: Option<Document>)
    ensures r.Some? ==> r.value in store && r.value.id == id
    ensures r.None? ==> forall d :: d in store ==> d.id != id
  {
    var i := IndexOfDoc(store, id);
    if i < |store| then Some(store[i]) else None
  }

  /** Re-saves an existing document in place. */
  function SaveExisting(store: seq<Document>, d: Document): (r: seq<Document>)
    requires FindDoc(store, d.id).Some?
    ensures |r| == |store|
    ensures forall k :: 0 <= k < |store| ==> r[k] == if store[k].id == d.id && k == IndexOfDoc(store, d.id) then d else store[k]
  {
    store[IndexOfDoc(store, d.id) := d]
  }

  /** `document.remove()`: every record with that id leaves the collection, the rest keep their order. */
  function RemoveDoc(store: seq<Document>, id: DocId): (r: seq<Document>)
    ensures forall d :: d in r <==> d in store && d.id != id
    ensures |r| <= |store|
    ensures Subsequence(r, store)
  {
    if |store| == 0 then []
    else if store[0].id == id then RemoveDoc(store[1..], id)
    else [store[0]] + RemoveDoc(store[1..], id)
  }

  /** `new Document(...).save()`: schema validation, then the unique indexes. */
  function SaveNew(store: seq<Document>, d: Document): (r: Result<seq<Document>>)
    ensures r.Ok? <==> DocumentValid(d) && forall k :: 0 <= k < |store| ==> !KeysClash(store[k], d)
    ensures r.Ok? ==> r.value == store + [d]
  {
    if !DocumentValid(d) then Err(ServerError("Document validation failed"))
    else if exists k | 0 <= k < |store| :: KeysClash(store[k], d) then Err(ServerError("E11000 duplicate key error"))
    else Ok(store + [d])
  }

  lemma SaveNewKeepsInvariant(store: seq<Document>, d: Document)
    requires StoreInvariant(store)
    requires SaveNew(store, d).Ok?
    ensures StoreInvariant(SaveNew(store, d).value)
  {
    var s' := SaveNew(store, d).value;
    forall i, j | 0 <= i < j < |s'|
      ensures !KeysClash(s'[i], s'[j])
    {
      if j == |store| {
        assert s'[j] == d;
      }
    }
  }

  /** Replacing a document by one with the same id and reference fields keeps the indexes unique. */
  lemma SaveExistingKeepsInvariant(store: seq<Document>, d: Document)
    requires StoreInvariant(store)
    requires FindDoc(store, d.id).Some?
    requires FindDoc(store, d.id).value.docRef == d.docRef
    requires FindDoc(store, d.id).value.docRefShort == d.docRefShort
    requires DocumentValid(d)
    ensures StoreInvariant(SaveExisting(store, d))
  {
    var i := IndexOfDoc(store, d.id);
    var s' := SaveExisting(store, d);
    forall a, b | 0 <= a < b < |s'|
      ensures !KeysClash(s'[a], s'[b])
    {
      assert !KeysClash(store[a], store[b]);
    }
  }

  lemma RemoveKeepsInvariant(store: seq<Document>, id: DocId)
    requires StoreInvariant(store)
    ensures StoreInvariant(RemoveDoc(store, id))
    decreases |store|
  {
    if |store| > 0 {
      RemoveKeepsInvariant(store[1..], id);
      var rest := RemoveDoc(store[1..], id);
      if store[0].id != id {
        var s' := [store[0]] + rest;
        forall a, b | 0 <= a < b < |s'|
          ensures !KeysClash(s'[a], s'[b])
        {
          if a == 0 {
            assert s'[b] in store[1..];
          }
        }
      }
    }
  }
}

=== FILE: roles.dfy ===
/** The role enumeration of the User schema, the centralised creatable-roles table, and the
    privileged peer group shared by document visibility and the heads listing. */
module Roles {
  import opened Wrappers

  /** User.role: one of seven names, "user" by default. */
  datatype Role = UserRole | Employee | Manager | Ceo | Hr | Admin | TechnicalAdmin

  const DefaultRole: Role := UserRole

  function RoleName(r: Role): string {
    match r
    case UserRole => "user"
    case Employee => "employee"
    case Manager => "manager"
    case Ceo => "ceo"
    case Hr => "hr"
    case Admin => "admin"
    case TechnicalAdmin => "technical-admin"
  }

  /** Reads a role name; anything outside the enumeration is rejected. */
  function ParseRole(s: string): (r: Option<Role>)
    ensures r.Some? ==> RoleName(r.value) == s
    ensures forall x :: RoleName(x) == s ==> r == Some(x)
  {
    if s == "user" then Some(UserRole)
    else if s == "employee" then Some(Employee)
    else if s == "manager" then Some(Manager)
    else if s == "ceo" then Some(Ceo)
    else if s == "hr" then Some(Hr)
    else if s == "admin" then Some(Admin)
    else if s == "technical-admin" then Some(TechnicalAdmin)
    else None
  }

  /** Privilege rank: who may create whom follows it strictly downwards. */
  function Rank(r: Role): nat {
    match r
    case UserRole => 0
    case Employee => 1
    case Manager => 2
    case Ceo => 2
    case Hr => 2
    case Admin => 3
    case TechnicalAdmin => 4
  }

  /** The `rolePermissions` object, entry by entry and in the source's list order. */
  const RolePermissions: map<Role, seq<Role>> := map[
    TechnicalAdmin := [UserRole, Employee, Manager, Ceo, Admin, TechnicalAdmin, Hr],
    Admin := [UserRole, Employee, Manager, Ceo, Hr],
    Manager := [Employee, UserRole],
    Ceo := [Employee, UserRole],
    Hr := [Employee, UserRole],
    Employee := [UserRole],
    UserRole := []
  ]

  /** `rolePermissions[requesterRole] || []`. The table has an entry for every role of the
      enumeration; only technical-admin may create its own role or anything above it, every
      other role creates strictly lower-ranked roles only. */
  function CreatableRoles(requester: Role): (r: seq<Role>)
    ensures requester == TechnicalAdmin ==> forall x :: x in r
    ensures requester != TechnicalAdmin ==> forall x :: x in r ==> Rank(x) < Rank(requester)
    ensures requester == Admin ==> forall x :: x in r <==> Rank(x) < 3
    ensures requester in {Manager, Ceo, Hr} ==> forall x :: x in r <==> x in {Employee, UserRole}
    ensures requester == Employee ==> r == [UserRole]
    ensures requester == UserRole ==> r == []
  {
    TechnicalAdminListsEveryRole();
    if requester in RolePermissions then RolePermissions[requester] else []
  }

  lemma TechnicalAdminListsEveryRole()
    ensures forall x :: x in RolePermissions[TechnicalAdmin]
  {
    forall x: Role
      ensures x in RolePermissions[TechnicalAdmin]
    {
      match x
      case UserRole =>
      case Employee =>
      case Manager =>
      case Ceo =>
      case Hr =>
      case Admin =>
      case TechnicalAdmin =>
    }
  }

  /** `(rolePermissions[requesterRole] || []).includes(role)` for a requested role name. */
  predicate MayCreate(requester: Role, requested: string) {
    exists i | 0 <= i < |CreatableRoles(requester)| :: RoleName(CreatableRoles(requester)[i]) == requested
  }

  /** A requested name is permitted exactly when it names a role in the requester's table entry;
      names outside the enumeration are never permitted. */
  lemma MayCreateIff(requester: Role, requested: string)
    ensures MayCreate(requester, requested) <==>
            ParseRole(requested).Some? && ParseRole(requested).value in CreatableRoles(requester)
  {
    var rs := CreatableRoles(requester);
    if ParseRole(requested).Some? && ParseRole(requested).value in rs {
      var i :| 0 <= i < |rs| && rs[i] == ParseRole(requested).value;
      assert RoleName(rs[i]) == requested;
    }
  }

  /** The privileged group: owners in it are visible to every member of it, and it is the
      set of users offered as heads. */
  const PeerGroup: set<Role> := {Admin, TechnicalAdmin, Manager, Ceo, Hr}

  predicate InPeerGroup(r: Role) {
    r in PeerGroup
  }

  /** Every role able to create a manager-level or higher account is itself in the peer group. */
  lemma CreatorsOfPeersArePeers(requester: Role, r: Role)
    requires r in CreatableRoles(requester) && InPeerGroup(r)
    ensures InPeerGroup(requester)
  {
  }
}

=== FILE: sorting.dfy ===
/** Insertion sort by a caller-supplied order and order-preserving selection, used for the two orderings the source asks its
    collaborators for: `Array.prototype.sort()` on tag lists (lexicographic on UTF-16 code units) and
    the storage's `sort({ username: 1 })` / `sort({ createdAt: -1 })`. */
module Sorting {

  ghost predicate Total<T(!new)>(le: (T, T) -> bool) {
    forall a, b :: le(a, b) || le(b, a)
  }

  ghost predicate Transitive<T(!new)>(le: (T, T) -> bool) {
    forall a, b, c :: le(a, b) && le(b, c) ==> le(a, c)
  }

  ghost predicate Antisymmetric<T(!new)>(le: (T, T) -> bool) {
    forall a, b :: le(a, b) && le(b, a) ==> a == b
  }

  predicate SortedBy<T>(s: seq<T>, le: (T, T) -> bool) {
    forall i, j | 0 <= i < j < |s| :: le(s[i], s[j])
  }

  /** Inserts `x` before the first element it is ordered before. */
  function InsertBy<T>(x: T, s: seq<T>, le: (T, T) -> bool): (r: seq<T>)
    ensures |r| == |s| + 1
    ensures multiset(r) == multiset(s) + multiset{x}
  {
    if |s| == 0 then [x]
    else if le(x, s[0]) then [x] + s
    else
      assert s == [s[0]] + s[1..];
      [s[0]] + InsertBy(x, s[1..], le)
  }

  /** Insertion sort: a permutation of `s`, in order whenever `le` is a total preorder. */
  function SortBy<T>(s: seq<T>, le: (T, T) -> bool): (r: seq<T>)
    ensures |r| == |s|
    ensures multiset(r) == multiset(s)
  {
    if |s| == 0 then []
    else
      assert s == [s[0]] + s[1..];
      InsertBy(s[0], SortBy(s[1..], le), le)
  }

  lemma {:induction false} InsertBySorted<T(!new)>(x: T, s: seq<T>, le: (T, T) -> bool)
    requires Total(le) && Transitive(le)
    requires SortedBy(s, le)
    ensures SortedBy(InsertBy(x, s, le), le)
    decreases |s|
  {
    if |s| > 0 && !le(x, s[0]) {
      var rest := InsertBy(x, s[1..], le);
      InsertBySorted(x, s[1..], le);
      assert le(s[0], x);
      forall k | 0 <= k < |rest|
        ensures le(s[0], rest[k])
      {
        assert rest[k] in multiset(rest);
        assert rest[k] in multiset(s[1..]) + multiset{x};
        if rest[k] != x {
          assert rest[k] in s[1..];
        }
      }
    }
  }

  /** The result of `SortBy` is ordered. */
  lemma {:induction false} SortBySorted<T(!new)>(s: seq<T>, le: (T, T) -> bool)
    requires Total(le) && Transitive(le)
    ensures SortedBy(SortBy(s, le), le)
    decreases |s|
  {
    if |s| > 0 {
      SortBySorted(s[1..], le);
      InsertBySorted(s[0], SortBy(s[1..], le), le);
    }
  }

  lemma {:induction false} SortedHeadIsLeast<T(!new)>(a: seq<T>, b: seq<T>, le: (T, T) -> bool)
    requires Antisymmetric(le)
    requires SortedBy(a, le) && SortedBy(b, le)
    requires |a| > 0 && multiset(a) == multiset(b)
    ensures |b| > 0 && a[0] == b[0]
  {
    assert a[0] in multiset(b);
    var j :| 0 <= j < |b| && b[j] == a[0];
    assert b[0] in multiset(a);
    var i :| 0 <= i < |a| && a[i] == b[0];
    if i != 0 && j != 0 {
      assert le(a[0], a[i]);
      assert le(b[0], b[j]);
    }
  }

  /** Under an antisymmetric order, two ordered permutations of each other are equal: comparing
      sorted copies is comparing multisets. */
  lemma {:induction false} SortedPermutationsEqual<T(!new)>(a: seq<T>, b: seq<T>, le: (T, T) -> bool)
    requires Antisymmetric(le)
    requires SortedBy(a, le) && SortedBy(b, le)
    requires multiset(a) == multiset(b)
    ensures a == b
    decreases |a|
  {
    if |a| > 0 {
      SortedHeadIsLeast(a, b, le);
      assert a == [a[0]] + a[1..];
      assert b == [b[0]] + b[1..];
      assert multiset(a) == multiset{a[0]} + multiset(a[1..]);
      assert multiset(b) == multiset{b[0]} + multiset(b[1..]);
      assert multiset(a[1..]) == multiset(a) - multiset{a[0]};
      assert multiset(b[1..]) == multiset(b) - multiset{b[0]};
      SortedPermutationsEqual(a[1..], b[1..], le);
    } else {
      assert |b| == |multiset(b)|;
    }
  }

  /** `s` can be obtained from `t` by deleting elements: the order of `s` is the order in `t`. */
  predicate Subsequence<T(==)>(s: seq<T>, t: seq<T>)
    decreases |t|
  {
    if |s| == 0 then true
    else if |t| == 0 then false
    else if s[0] == t[0] then Subsequence(s[1..], t[1..])
    else Subsequence(s, t[1..])
  }

  /** One step of an order-preserving filter by `p`: keeping or dropping the head of `t` in front
      of a filtered tail keeps every element satisfying `p` as often as `t` holds it, and no other,
      in the order of `t`. */
  lemma FilterStep<T>(t: seq<T>, rest: seq<T>, keep: bool, p: T -> bool)
    requires |t| > 0 && keep == p(t[0])
    requires Subsequence(rest, t[1..])
    requires forall d :: multiset(rest)[d] == if p(d) then multiset(t[1..])[d] else 0
    requires forall d :: d in rest <==> d in t[1..] && p(d)
    ensures var r := if keep then [t[0]] + rest else rest;
            && Subsequence(r, t)
            && (forall d :: multiset(r)[d] == if p(d) then multiset(t)[d] else 0)
            && (forall d :: d in r <==> d in t && p(d))
  {
    assert t == [t[0]] + t[1..];
    if keep {
      assert ([t[0]] + rest)[1..] == rest;
    } else if |rest| > 0 {
      assert rest[0] in multiset(rest);
    }
  }

  // ---------------------------------------------------------------- string order

  /** Lexicographic order on integer sequences: the first difference decides, and a proper
      prefix comes first. Both string orders below are this order on an encoding of the strings. */
  predicate SeqLe(a: seq<int>, b: seq<int>)
    decreases |a|
  {
    if |a| == 0 then true
    else if |b| == 0 then false
    else if a[0] != b[0] then a[0] < b[0]
    else SeqLe(a[1..], b[1..])
  }

  lemma {:induction false} SeqLeTotalAt(a: seq<int>, b: seq<int>)
    ensures SeqLe(a, b) || SeqLe(b, a)
    decreases |a|
  {
    if |a| > 0 && |b| > 0 && a[0] == b[0] {
      SeqLeTotalAt(a[1..], b[1..]);
    }
  }

  lemma {:induction false} SeqLeTransitiveAt(a: seq<int>, b: seq<int>, c: seq<int>)
    requires SeqLe(a, b) && SeqLe(b, c)
    ensures SeqLe(a, c)
    decreases |a|
  {
    if |a| > 0 && |b| > 0 && |c| > 0 && a[0] == b[0] && b[0] == c[0] {
      SeqLeTransitiveAt(a[1..], b[1..], c[1..]);
    }
  }

  lemma {:induction false} SeqLeAntisymmetricAt(a: seq<int>, b: seq<int>)
    requires SeqLe(a, b) && SeqLe(b, a)
    ensures a == b
    decreases |a|
  {
    if |a| > 0 {
      SeqLeAntisymmetricAt(a[1..], b[1..]);
      assert a == [a[0]] + a[1..];
      assert b == [b[0]] + b[1..];
    }
  }

  /** The Unicode scalar values of a string, one per character. */
  function CodePoints(s: string): (r: seq<int>)
    ensures |r| == |s| && forall i :: 0 <= i < |s| ==> r[i] == s[i] as int
  {
    seq(|s|, i requires 0 <= i < |s| => s[i] as int)
  }

  /** The storage's string order (`sort({ username: 1 })` without a collation): MongoDB compares
      the UTF-8 bytes, and UTF-8 byte order is code point order. */
  predicate LexLe(a: string, b: string) {
    SeqLe(CodePoints(a), CodePoints(b))
  }

  /** `LexLe` is a total order. */
  lemma LexLeIsTotalOrder()
    ensures Total(LexLe) && Transitive(LexLe) && Antisymmetric(LexLe)
  {
    forall a, b
      ensures LexLe(a, b) || LexLe(b, a)
    {
      SeqLeTotalAt(CodePoints(a), CodePoints(b));
    }
    forall a, b, c | LexLe(a, b) && LexLe(b, c)
      ensures LexLe(a, c)
    {
      SeqLeTransitiveAt(CodePoints(a), CodePoints(b), CodePoints(c));
    }
    forall a, b | LexLe(a, b) && LexLe(b, a)
      ensures a == b
    {
      SeqLeAntisymmetricAt(CodePoints(a), CodePoints(b));
      assert forall i | 0 <= i < |a| :: a[i] as int == CodePoints(b)[i];
    }
  }

  // ---------------------------------------------------------------- UTF-16

  /** The UTF-16 code units of one character: itself below U+10000, otherwise a high surrogate
      (D800-DBFF) followed by a low surrogate (DC00-DFFF), as section 2.1 of RFC 2781 lays out. */
  function Utf16(c: char): (r: seq<int>)
    ensures |r| == 1 <==> (c as int) < 0x10000
    ensures |r| == 1 ==> r[0] == c as int
    ensures |r| == 2 ==> 0xD800 <= r[0] < 0xDC00 && 0xDC00 <= r[1] < 0xE000
    ensures |r| == 1 || |r| == 2
  {
    var n := c as int;
    if n < 0x10000 then [n]
    else [0xD800 + (n - 0x10000) / 0x400, 0xDC00 + (n - 0x10000) % 0x400]
  }

  /** A string as JavaScript holds it: the concatenated UTF-16 code units of its characters. */
  function Utf16String(s: string): (r: seq<int>)
    ensures |r| >= |s|
  {
    if |s| == 0 then [] else Utf16(s[0]) + Utf16String(s[1..])
  }

  /** The character a surrogate pair stands for. */
  function Combine(hi: int, lo: int): char
    requires 0xD800 <= hi < 0xDC00 && 0xDC00 <= lo < 0xE000
  {
    (0x10000 + (hi - 0xD800) * 0x400 + (lo - 0xDC00)) as char
  }

  /** Reads UTF-16 code units back into characters; a unit that is not part of a well-formed
      character reads as U+FFFD. */
  function FromUtf16(u: seq<int>): seq<char>
    decreases |u|
  {
    if |u| == 0 then []
    else if |u| >= 2 && 0xD800 <= u[0] < 0xDC00 && 0xDC00 <= u[1] < 0xE000 then [Combine(u[0], u[1])] + FromUtf16(u[2..])
    else if 0 <= u[0] < 0xD800 || 0xE000 <= u[0] < 0x10000 then [u[0] as char] + FromUtf16(u[1..])
    else ['\U{FFFD}'] + FromUtf16(u[1..])
  }

  /** A surrogate pair reads back as the character it encodes. */
  lemma PairCombines(c: char)
    requires (c as int) >= 0x10000
    ensures Combine(Utf16(c)[0], Utf16(c)[1]) == c
  {
    var m := c as int - 0x10000;
    assert m == (m / 0x400) * 0x400 + m % 0x400;
  }

  /** Reading a string's UTF-16 form gives the string back. */
  lemma {:induction false} Utf16RoundTrip(s: string)
    ensures FromUtf16(Utf16String(s)) == s
  {
    if |s| > 0 {
      var u := Utf16(s[0]);
      var rest := Utf16String(s[1..]);
      Utf16RoundTrip(s[1..]);
      if |u| == 2 {
        PairCombines(s[0]);
        assert (u + rest)[2..] == rest;
      } else {
        assert (u + rest)[1..] == rest;
      }
      assert s == [s[0]] + s[1..];
    }
  }

  /** JavaScript's default `sort` comparison: code-unit order on the UTF-16 form. It differs from
      `LexLe` only where a character at or above U+10000 meets one in E000-FFFF. */
  predicate CodeUnitLe(a: string, b: string) {
    SeqLe(Utf16String(a), Utf16String(b))
  }

  /** `CodeUnitLe` is a total order. */
  lemma CodeUnitLeIsTotalOrder()
    ensures Total(CodeUnitLe) && Transitive(CodeUnitLe) && Antisymmetric(CodeUnitLe)
  {
    forall a, b
      ensures CodeUnitLe(a, b) || CodeUnitLe(b, a)
    {
      SeqLeTotalAt(Utf16String(a), Utf16String(b));
    }
    forall a, b, c | CodeUnitLe(a, b) && CodeUnitLe(b, c)
      ensures CodeUnitLe(a, c)
    {
      SeqLeTransitiveAt(Utf16String(a), Utf16String(b), Utf16String(c));
    }
    forall a, b | CodeUnitLe(a, b) && CodeUnitLe(b, a)
      ensures a == b
    {
      SeqLeAntisymmetricAt(Utf16String(a), Utf16String(b));
      Utf16RoundTrip(a);
      Utf16RoundTrip(b);
    }
  }

  /** Below U+10000 a string's UTF-16 form is its code points. */
  lemma {:induction false} BmpUnitsAreCodePoints(s: string)
    requires forall i :: 0 <= i < |s| ==> (s[i] as int) < 0x10000
    ensures Utf16String(s) == CodePoints(s)
  {
    if |s| > 0 {
      BmpUnitsAreCodePoints(s[1..]);
      assert CodePoints(s) == [s[0] as int] + CodePoints(s[1..]);
    }
  }

  /** On strings without characters at or above U+10000 the two orders agree ... */
  lemma OrdersAgreeBelowAstral(a: string, b: string)
    requires forall i :: 0 <= i < |a| ==> (a[i] as int) < 0x10000
    requires forall i :: 0 <= i < |b| ==> (b[i] as int) < 0x10000
    ensures CodeUnitLe(a, b) <==> LexLe(a, b)
  {
    BmpUnitsAreCodePoints(a);
    BmpUnitsAreCodePoints(b);
  }

  /** ... and beyond them they do not: U+10000 sorts after U+E000 by code point but before it by
      code unit, since its high surrogate D800 is below E000. */
  lemma OrdersDisagreeAboveBmp()
    ensures CodeUnitLe("\U{10000}", "\U{E000}") && !LexLe("\U{10000}", "\U{E000}")
  {
    assert Utf16String("\U{10000}") == [0xD800, 0xDC00];
    assert Utf16String("\U{E000}") == [0xE000];
    assert CodePoints("\U{10000}") == [0x10000];
    assert CodePoints("\U{E000}") == [0xE000];
  }

  /** `strings.sort()`. */
  function SortStrings(s: seq<string>): (r: seq<string>)
    ensures multiset(r) == multiset(s)
    ensures SortedBy(r, CodeUnitLe)
  {
    CodeUnitLeIsTotalOrder();
    SortBySorted(s, CodeUnitLe);
    SortBy(s, CodeUnitLe)
  }

  /** Two string lists have equal sorted copies exactly when they hold the same strings
      with the same multiplicities. */
  lemma SortStringsEqualIff(a: seq<string>, b: seq<string>)
    ensures SortStrings(a) == SortStrings(b) <==> multiset(a) == multiset(b)
  {
    if multiset(a) == multiset(b) {
      CodeUnitLeIsTotalOrder();
      SortedPermutationsEqual(SortStrings(a), SortStrings(b), CodeUnitLe);
    }
  }
}

=== FILE: text.dfy ===
/** The JavaScript string primitives the source relies on — `trim`, `split`, `join`,
    `toLowerCase`, `includes`, `startsWith`, `padStart` — and decimal rendering of counters.
    Case-insensitive regular expressions built from user text are modelled as
    case-insensitive literal substring search (`ContainsCI`). */
module Text {

  /** ECMAScript WhiteSpace and LineTerminator code points: what `String.prototype.trim` removes. */
  predicate IsJsSpace(c: char) {
    c == '\t' || c == '\n' || c == '\U{B}' || c == '\U{C}' || c == '\r' || c == ' '
    || c == '\U{A0}' || c == '\U{1680}' || ('\U{2000}' <= c <= '\U{200A}')
    || c == '\U{2028}' || c == '\U{2029}' || c == '\U{202F}' || c == '\U{205F}'
    || c == '\U{3000}' || c == '\U{FEFF}'
  }

  /** Drops leading white space: the result is the suffix that starts at the first non-space. */
  function TrimStart(s: string): (r: string)
    ensures |r| <= |s| && r == s[|s| - |r|..]
    ensures forall k :: 0 <= k < |s| - |r| ==> IsJsSpace(s[k])
    ensures r == [] || !IsJsSpace(r[0])
  {
    if |s| > 0 && IsJsSpace(s[0]) then TrimStart(s[1..]) else s
  }

  /** Drops trailing white space: the result is the prefix that ends at the last non-space. */
  function TrimEnd(s: string): (r: string)
    ensures |r| <= |s| && r == s[..|r|]
    ensures forall k :: |r| <= k < |s| ==> IsJsSpace(s[k])
    ensures r == [] || !IsJsSpace(r[|r| - 1])
  {
    if |s| > 0 && IsJsSpace(s[|s| - 1]) then TrimEnd(s[..|s| - 1]) else s
  }

  /** `r` occurs in `s` at offset `i`. */
  predicate OccursAt(s: string, r: string, i: int) {
    0 <= i <= |s| - |r| && s[i..i + |r|] == r
  }

  /** `s.trim()`. */
  function Trim(s: string): (r: string)
    ensures exists i :: OccursAt(s, r, i)
    ensures r == [] || (!IsJsSpace(r[0]) && !IsJsSpace(r[|r| - 1]))
  {
    var t := TrimStart(s);
    var r := TrimEnd(t);
    assert OccursAt(s, r, |s| - |t|);
    r
  }

  predicate AllSpace(s: string) {
    forall k :: 0 <= k < |s| ==> IsJsSpace(s[k])
  }

  lemma {:induction false} TrimStartAllSpace(s: string)
    requires AllSpace(s)
    ensures TrimStart(s) == []
    decreases |s|
  {
    if |s| > 0 {
      TrimStartAllSpace(s[1..]);
    }
  }

  /** Trimming yields the empty string exactly when the input is all white space. */
  lemma TrimEmptyIffAllSpace(s: string)
    ensures Trim(s) == [] <==> AllSpace(s)
  {
    var t := TrimStart(s);
    if AllSpace(s) {
      TrimStartAllSpace(s);
    }
    if Trim(s) == [] {
      assert t == [];
    }
  }

  /** Index of the first occurrence of `c`, or `|s|` when there is none. */
  function IndexOf(s: string, c: char): (i: nat)
    ensures i <= |s|
    ensures i < |s| ==> s[i] == c
    ensures forall k :: 0 <= k < i ==> s[k] != c
  {
    if |s| == 0 then 0
    else if s[0] == c then 0
    else 1 + IndexOf(s[1..], c)
  }

  /** `s.split(c)` for a one-character separator: never empty; "" splits into [""]. */
  function Split(s: string, c: char): (parts: seq<string>)
    ensures |parts| >= 1
    ensures forall k :: 0 <= k < |parts| ==> c !in parts[k]
    decreases |s|
  {
    var i := IndexOf(s, c);
    if i == |s| then [s] else [s[..i]] + Split(s[i + 1..], c)
  }

  /** `parts.map(p => p.trim())`. */
  function TrimAll(parts: seq<string>): (r: seq<string>)
    ensures |r| == |parts| && forall k :: 0 <= k < |r| ==> r[k] == Trim(parts[k])
  {
    if |parts| == 0 then [] else [Trim(parts[0])] + TrimAll(parts[1..])
  }

  /** `parts.join(sep)`. */
  function Join(parts: seq<string>, sep: string): string
  {
    if |parts| == 0 then ""
    else if |parts| == 1 then parts[0]
    else parts[0] + sep + Join(parts[1..], sep)
  }

  /** Splitting and joining again on the same separator gives back the original text. */
  lemma {:induction false} JoinSplit(s: string, c: char)
    ensures Join(Split(s, c), [c]) == s
    decreases |s|
  {
    var i := IndexOf(s, c);
    if i < |s| {
      var rest := Split(s[i + 1..], c);
      assert Join(Split(s, c), [c]) == s[..i] + [c] + Join(rest, [c]) by {
        var parts := [s[..i]] + rest;
        assert Split(s, c) == parts;
        assert parts[1..] == rest;
      }
      JoinSplit(s[i + 1..], c);
      assert s == s[..i] + [c] + s[i + 1..];
    }
  }

  /** Joining pieces free of the separator and splitting again gives back the pieces. */
  lemma {:induction false} SplitJoin(parts: seq<string>, c: char)
    requires |parts| >= 1
    requires forall k :: 0 <= k < |parts| ==> c !in parts[k]
    ensures Split(Join(parts, [c]), c) == parts
    decreases |parts|
  {
    var s := Join(parts, [c]);
    var p0 := parts[0];
    if |parts| == 1 {
      IndexOfAbsent(p0, c);
    } else {
      var rest := Join(parts[1..], [c]);
      assert s == p0 + [c] + rest;
      IndexOfFirst(p0, c, rest);
      assert s[..|p0|] == p0;
      assert s[|p0| + 1..] == rest;
      SplitJoin(parts[1..], c);
    }
  }

  lemma IndexOfAbsent(s: string, c: char)
    requires c !in s
    ensures IndexOf(s, c) == |s|
  {
  }

  lemma IndexOfFirst(a: string, c: char, b: string)
    requires c !in a
    ensures IndexOf(a + [c] + b, c) == |a|
  {
    var s := a + [c] + b;
    assert s[|a|] == c;
    assert forall k :: 0 <= k < |a| ==> s[k] == a[k];
  }

  /** Lower-casing of one character, restricted to ASCII: `A`-`Z` map to `a`-`z` and every
      other character is kept, where `toLowerCase` and the `i` regex flag also fold non-ASCII
      letters. */
  function LowerChar(c: char): (d: char)
    ensures 'A' <= c <= 'Z' ==> d as int == c as int + 32
    ensures !('A' <= c <= 'Z') ==> d == c
  {
    if 'A' <= c <= 'Z' then (c as int + 32) as char else c
  }

  function Lower(s: string): (r: string)
    ensures |r| == |s|
    ensures forall k :: 0 <= k < |s| ==> r[k] == LowerChar(s[k])
  {
    seq(|s|, k requires 0 <= k < |s| => LowerChar(s[k]))
  }

  /** `s.startsWith(p)`. */
  predicate StartsWith(s: string, p: string) {
    |p| <= |s| && s[..|p|] == p
  }

  /** `hay.includes(needle)`: `needle` occurs at some offset of `hay`. */
  predicate Contains(hay: string, needle: string) {
    exists i | 0 <= i <= |hay| - |needle| :: OccursAt(hay, needle, i)
  }

  /** Case-insensitive literal search: a case-insensitive regex built from `needle` matching `hay`. */
  predicate ContainsCI(hay: string, needle: string) {
    Contains(Lower(hay), Lower(needle))
  }

  lemma ContainsEmpty(hay: string)
    ensures Contains(hay, "")
  {
    assert OccursAt(hay, "", 0);
  }

  // ---------------------------------------------------------------- decimal numbers

  predicate IsDigit(c: char) {
    '0' <= c <= '9'
  }

  predicate AllDigits(s: string) {
    forall k :: 0 <= k < |s| ==> IsDigit(s[k])
  }

  function DigitChar(d: nat): (c: char)
    requires d < 10
    ensures IsDigit(c) && c as int - '0' as int == d
  {
    ('0' as int + d) as char
  }

  /** `String(n)` for a non-negative integer: no leading zero except for 0 itself. */
  function Decimal(n: nat): (s: string)
    ensures |s| >= 1 && AllDigits(s)
    ensures n > 0 ==> s[0] != '0'
    decreases n
  {
    if n < 10 then [DigitChar(n)] else Decimal(n / 10) + [DigitChar(n % 10)]
  }

  /** The number a string of decimal digits denotes (leading zeros allowed). */
  function DigitsValue(s: string): nat
    requires AllDigits(s)
  {
    if |s| == 0 then 0
    else DigitsValue(s[..|s| - 1]) * 10 + (s[|s| - 1] as int - '0' as int)
  }

  lemma {:induction false} DecimalValue(n: nat)
    ensures DigitsValue(Decimal(n)) == n
    decreases n
  {
    if n >= 10 {
      var s := Decimal(n);
      assert s[..|s| - 1] == Decimal(n / 10);
      DecimalValue(n / 10);
    }
  }

  lemma {:induction false} LeadingZeroValue(s: string)
    requires AllDigits(s)
    ensures DigitsValue(['0'] + s) == DigitsValue(s)
    decreases |s|
  {
    if |s| > 0 {
      var t := ['0'] + s;
      assert t[..|t| - 1] == ['0'] + s[..|s| - 1];
      LeadingZeroValue(s[..|s| - 1]);
    }
  }

  function Repeat(c: char, n: nat): (r: string)
    ensures |r| == n && forall k :: 0 <= k < n ==> r[k] == c
  {
    seq(n, _ => c)
  }

  /** `s.padStart(width, '0')`: zeros on the left up to `width`; a longer `s` is never cut. */
  function PadZeros(s: string, width: nat): (r: string)
    ensures |r| == if |s| < width then width else |s|
    ensures r[|r| - |s|..] == s
    ensures forall k :: 0 <= k < |r| - |s| ==> r[k] == '0'
  {
    if |s| < width then Repeat('0', width - |s|) + s else s
  }

  lemma {:induction false} ZerosValue(n: nat, s: string)
    requires AllDigits(s)
    ensures AllDigits(Repeat('0', n) + s)
    ensures DigitsValue(Repeat('0', n) + s) == DigitsValue(s)
    decreases n
  {
    if n > 0 {
      var rest := Repeat('0', n - 1) + s;
      assert Repeat('0', n) + s == ['0'] + rest;
      ZerosValue(n - 1, s);
      LeadingZeroValue(rest);
    } else {
      assert Repeat('0', n) + s == s;
    }
  }

  /** Zero padding never changes the number a decimal string denotes. */
  lemma PadZerosValue(n: nat, width: nat)
    ensures AllDigits(PadZeros(Decimal(n), width))
    ensures DigitsValue(PadZeros(Decimal(n), width)) == n
  {
    var s := Decimal(n);
    DecimalValue(n);
    if |s| < width {
      ZerosValue(width - |s|, s);
    }
  }
}

=== FILE: users.dfy ===
/** The user-administration controller: the paged user listing, the heads listing, viewing,
    updating and deleting a user. The requester is the record the authentication layer resolved. */
module UserAdmin {
  import opened Wrappers
  import opened Roles
  import opened Model
  import opened Text
  import opened Sorting
  import opened Listing
  import opened Auth

  /** Roles that see every user and may change roles or delete users. */
  predicate IsUserAdmin(r: Role) {
    r == Admin || r == TechnicalAdmin
  }

  /** Roles scoped to the staff below them. */
  predicate IsSupervisor(r: Role) {
    r == Manager || r == Ceo || r == Hr
  }

  /** The roles a supervisor sees and may view: employee and user. */
  predicate IsStaff(r: Role) {
    r == Employee || r == UserRole
  }

  /** The records satisfying `f`, in storage order. */
  function Keep(users: seq<User>, f: User -> bool): (r: seq<User>)
    ensures |r| <= |users|
    ensures forall u :: u in r <==> u in users && f(u)
    ensures forall u :: multiset(r)[u] == if f(u) then multiset(users)[u] else 0
    ensures Subsequence(r, users)
  {
    if |users| == 0 then []
    else
      assert users == [users[0]] + users[1..];
      if f(users[0]) then [users[0]] + Keep(users[1..], f)
      else Keep(users[1..], f)
  }

  // ---------------------------------------------------------------- getUsers

  /** The query string: `page` already parsed (1 when absent), `limit` parsed when it is a
      number, `search` and `role` as sent ("" when absent). */
  datatype UserListParams = UserListParams(page: int, limit: Option<int>, search: string, role: string)

  /** The role condition: a `role` filter other than "all" replaces the requester's scope. */
  predicate RoleCondition(actor: User, p: UserListParams, u: User) {
    if p.role != "" && p.role != "all" then RoleName(u.role) == p.role
    else IsUserAdmin(actor.role) || IsStaff(u.role)
  }

  /** A non-blank search matches the username or the full name, case-insensitively. */
  predicate SearchCondition(p: UserListParams, u: User) {
    var needle := Trim(p.search);
    needle == "" || ContainsCI(u.username, needle) || (u.fullName.Some? && ContainsCI(u.fullName.value, needle))
  }

  predicate Listed(actor: User, p: UserListParams, u: User) {
    RoleCondition(actor, p, u) && SearchCondition(p, u)
  }

  /** The listing condition as a filter. */
  function ListedBy(actor: User, p: UserListParams): User -> bool {
    u => Listed(actor, p, u)
  }

  /** The username order, `sort({ username: 1 })`. */
  predicate ByUsername(a: User, b: User) {
    LexLe(a.username, b.username)
  }

  /** A record as `.select('-password')` sends it: every field but the password hash, which is
      emptied here. */
  function WithoutPassword(u: User): User {
    u.(passwordHash := "")
  }

  function WithoutPasswords(us: seq<User>): (r: seq<User>)
    ensures |r| == |us| && forall k :: 0 <= k < |us| ==> r[k] == WithoutPassword(us[k])
  {
    seq(|us|, k requires 0 <= k < |us| => WithoutPassword(us[k]))
  }

  /** The projection keeps everything but the hash, and a projected record carries no hash. */
  lemma WithoutPasswordKeepsTheRest(u: User)
    ensures var v := WithoutPassword(u);
            && v.passwordHash == ""
            && v.id == u.id && v.username == u.username && v.role == u.role && v.fullName == u.fullName
            && v.failedLoginAttempts == u.failedLoginAttempts && v.lockUntil == u.lockUntil
            && v.resetPasswordToken == u.resetPasswordToken && v.resetPasswordExpires == u.resetPasswordExpires
            && WithoutPassword(v) == v
  {
  }

  /** `u` is a listed stored record with its hash dropped. */
  ghost predicate ShownListed(users: seq<User>, actor: User, p: UserListParams, u: User) {
    exists v :: v in users && Listed(actor, p, v) && u == WithoutPassword(v)
  }

  lemma ListedShown(users: seq<User>, actor: User, p: UserListParams)
    ensures forall u :: u in WithoutPasswords(Keep(users, ListedBy(actor, p))) ==> ShownListed(users, actor, p, u)
  {
    var matching := Keep(users, ListedBy(actor, p));
    var shown := WithoutPasswords(matching);
    forall u | u in shown
      ensures ShownListed(users, actor, p, u)
    {
      var k :| 0 <= k < |shown| && shown[k] == u;
      assert matching[k] in matching;
    }
  }

  datatype UserPage = UserPage(users: seq<User>, total: nat, page: int, totalPages: int)

  /** `getUsers`. Only admins and supervisors may list; `total` counts every matching user
      before the page is cut out, and the page is the run at `(page - 1) * limit` of the
      matching users, without their password hashes, in username order. */
  function GetUsers(users: seq<User>, actor: User, p: UserListParams): (r: Result<UserPage>)
    ensures !IsUserAdmin(actor.role) && !IsSupervisor(actor.role) ==> r == Err(Forbidden("Not authorized to view users"))
    ensures IsUserAdmin(actor.role) || IsSupervisor(actor.role) ==>
              (r.Ok? <==> (p.page - 1) * PageLimit(p.limit) >= 0)
    ensures r.Ok? ==> var limit := PageLimit(p.limit);
              && r.value.page == p.page
              && r.value.total == |Keep(users, ListedBy(actor, p))|
              && r.value.totalPages == CeilDiv(r.value.total, limit)
              && |r.value.users| <= Abs(limit)
              && (forall u :: u in r.value.users ==> ShownListed(users, actor, p, u))
              && SortedBy(r.value.users, ByUsername)
    ensures r.Ok? ==> var skip := (p.page - 1) * PageLimit(p.limit);
              && |r.value.users| == PageSize(r.value.total, skip, PageLimit(p.limit))
              && RunOfSorted(r.value.users, WithoutPasswords(Keep(users, ListedBy(actor, p))), ByUsername, skip)
  {
    if !IsUserAdmin(actor.role) && !IsSupervisor(actor.role) then Err(Forbidden("Not authorized to view users"))
    else
      var matching := Keep(users, ListedBy(actor, p));
      ByUsernamePage(WithoutPasswords(matching), p.page, PageLimit(p.limit));
      UserPageRun(users, actor, p);
      UserPageListed(users, actor, p);
      var cut := Paginate(SortBy(WithoutPasswords(matching), ByUsername), p.page, PageLimit(p.limit));
      if cut.Err? then Err(cut.error)
      else Ok(UserPage(cut.value, |matching|, p.page, CeilDiv(|matching|, PageLimit(p.limit))))
  }

  /** Every user on the page is a listed stored record with its hash dropped. */
  lemma UserPageListed(users: seq<User>, actor: User, p: UserListParams)
    ensures var cut := Paginate(SortBy(WithoutPasswords(Keep(users, ListedBy(actor, p))), ByUsername), p.page, PageLimit(p.limit));
            cut.Ok? ==> forall u :: u in cut.value ==> ShownListed(users, actor, p, u)
  {
    var shown := WithoutPasswords(Keep(users, ListedBy(actor, p)));
    ByUsernamePage(shown, p.page, PageLimit(p.limit));
    ListedShown(users, actor, p);
  }

  /** The page is the run at `(page - 1) * limit` of those users put in username order. */
  lemma UserPageRun(users: seq<User>, actor: User, p: UserListParams)
    ensures var shown := WithoutPasswords(Keep(users, ListedBy(actor, p)));
            var cut := Paginate(SortBy(shown, ByUsername), p.page, PageLimit(p.limit));
            cut.Ok? ==> RunOfSorted(cut.value, shown, ByUsername, (p.page - 1) * PageLimit(p.limit))
  {
    ByUsernameIsPreorder();
    SortedPageRun(WithoutPasswords(Keep(users, ListedBy(actor, p))), ByUsername, p.page, PageLimit(p.limit));
  }

  lemma ByUsernameIsPreorder()
    ensures Total(ByUsername) && Transitive(ByUsername)
  {
    LexLeIsTotalOrder();
  }

  /** `SortedPage` for the username order. */
  lemma ByUsernamePage(shown: seq<User>, page: int, limit: int)
    requires limit != 0
    ensures var r := Paginate(SortBy(shown, ByUsername), page, limit);
            var skip := (page - 1) * limit;
            && (r.Ok? <==> skip >= 0)
            && (r.Ok? ==> && |r.value| == PageSize(|shown|, skip, limit)
                          && |r.value| <= Abs(limit)
                          && (forall d :: d in r.value ==> d in shown) && SortedBy(r.value, ByUsername))
  {
    ByUsernameIsPreorder();
    SortedPage(shown, ByUsername, page, limit);
  }

  /** Without a role filter a supervisor is shown only employees and plain users. */
  lemma SupervisorsSeeStaff(users: seq<User>, actor: User, p: UserListParams)
    requires IsSupervisor(actor.role)
    requires p.role == "" || p.role == "all"
    requires GetUsers(users, actor, p).Ok?
    ensures forall u :: u in GetUsers(users, actor, p).value.users ==> IsStaff(u.role)
  {
    forall u | u in GetUsers(users, actor, p).value.users
      ensures IsStaff(u.role)
    {
      ShownStaff(users, actor, p, u);
    }
  }

  lemma ShownStaff(users: seq<User>, actor: User, p: UserListParams, u: User)
    requires IsSupervisor(actor.role)
    requires p.role == "" || p.role == "all"
    requires ShownListed(users, actor, p, u)
    ensures IsStaff(u.role)
  {
    var v :| v in users && Listed(actor, p, v) && u == WithoutPassword(v);
  }

  /** A role filter replaces the scope: a manager filtering by "admin" is counted every admin. */
  lemma RoleFilterReplacesScope(users: seq<User>, actor: User, p: UserListParams, u: User)
    requires actor.role == Manager && p.role == "admin" && Trim(p.search) == ""
    requires u in users && u.role == Admin
    ensures u in Keep(users, ListedBy(actor, p))
  {
    assert RoleCondition(actor, p, u) && SearchCondition(p, u);
    assert ListedBy(actor, p)(u);
  }

  // ---------------------------------------------------------------- getHeads

  /** The roles offered as heads. */
  const HeadRoles: set<Role> := {Admin, TechnicalAdmin, Manager, Ceo, Hr}

  /** A head as `.select('username fullName role')` sends it (the id always comes along). */
  datatype Head = Head(id: UserId, username: string, fullName: Option<string>, role: Role)

  function HeadOf(u: User): Head {
    Head(u.id, u.username, u.fullName, u.role)
  }

  /** `getHeads`: the users whose role is a head role, which is exactly the document peer
      group, reduced to id, username, full name and role. */
  function GetHeads(users: seq<User>): (r: seq<Head>)
    ensures |r| == |Keep(users, (u: User) => u.role in HeadRoles)|
    ensures forall h :: h in r <==> exists u :: u in users && InPeerGroup(u.role) && h == HeadOf(u)
  {
    var heads := Keep(users, (u: User) => u.role in HeadRoles);
    var r := HeadsOf(heads);
    assert forall h :: h in r <==> exists u :: u in users && InPeerGroup(u.role) && h == HeadOf(u) by {
      forall h | h in r
        ensures exists u :: u in users && InPeerGroup(u.role) && h == HeadOf(u)
      {
        var u :| u in heads && h == HeadOf(u);
      }
      forall h | exists u :: u in users && InPeerGroup(u.role) && h == HeadOf(u)
        ensures h in r
      {
        var u :| u in users && InPeerGroup(u.role) && h == HeadOf(u);
        assert u in heads;
      }
    }
    r
  }

  /** Each record reduced to its head fields, in order. */
  function HeadsOf(us: seq<User>): (r: seq<Head>)
    ensures |r| == |us|
    ensures forall h :: h in r <==> exists u :: u in us && h == HeadOf(u)
  {
    if |us| == 0 then []
    else
      assert us == [us[0]] + us[1..];
      [HeadOf(us[0])] + HeadsOf(us[1..])
  }

  // ---------------------------------------------------------------- getUserById

  /** `getUserById`. Admins and the user themself may view anyone; supervisors may view staff.
      The record goes out without its password hash. */
  function GetUserById(users: seq<User>, actor: User, id: UserId): (r: Result<User>)
    ensures FindUser(users, id).None? <==> r == Err(NotFound("User not found"))
    ensures FindUser(users, id).Some? ==>
              var u := FindUser(users, id).value;
              && (r.Ok? <==> IsUserAdmin(actor.role) || actor.id == u.id || (IsSupervisor(actor.role) && IsStaff(u.role)))
              && (r.Ok? ==> r.value == WithoutPassword(u))
              && (r.Err? ==> r == Err(Forbidden("Not authorized")))
  {
    match FindUser(users, id)
    case None => Err(NotFound("User not found"))
    case Some(u) =>
      if IsUserAdmin(actor.role) || actor.id == u.id then Ok(WithoutPassword(u))
      else if IsSupervisor(actor.role) && IsStaff(u.role) then Ok(WithoutPassword(u))
      else Err(Forbidden("Not authorized"))
  }

  /** A supervisor may view another account exactly when it may create an account of that role. */
  lemma SupervisorsViewWhatTheyCreate(users: seq<User>, actor: User, id: UserId)
    requires IsSupervisor(actor.role)
    requires FindUser(users, id).Some? && actor.id != id
    ensures GetUserById(users, actor, id).Ok? <==> FindUser(users, id).value.role in CreatableRoles(actor.role)
  {
  }

  // ---------------------------------------------------------------- updateUser

  /** The role and full name recorded in the audit entry. */
  datatype Snapshot = Snapshot(role: Role, fullName: Option<string>)

  /** The saved record and the audit entry's `before` and `after`. */
  datatype UserUpdate = UserUpdate(user: User, before: Snapshot, after: Snapshot)

  /** The body: `role`, `fullName` and `password`, each "" when absent. */
  datatype UserPatch = UserPatch(role: string, fullName: string, password: string)

  predicate ChangesRole(u: User, p: UserPatch) {
    p.role != "" && p.role != RoleName(u.role)
  }

  /** `updateUser`. A role change needs an admin; a new full name or password does not. The
      audit snapshot of `before` is taken after the changes, so it always equals `after`. */
  function UpdateUser(users: seq<User>, actor: User, id: UserId, p: UserPatch, hash: string -> string): (r: Outcome<UserUpdate>)
    ensures FindUser(users, id).None? ==> r == Outcome(users, Err(NotFound("User not found")))
    ensures FindUser(users, id).Some? && ChangesRole(FindUser(users, id).value, p) && !IsUserAdmin(actor.role) ==>
              r == Outcome(users, Err(Forbidden("Not authorized to change role")))
    ensures r.result.Err? ==> r.users == users
    ensures r.result.Ok? ==>
              var old_ := FindUser(users, id).value;
              var u := r.result.value.user;
              && FindUser(users, id).Some?
              && r.users == SaveUser(users, u)
              && u.id == old_.id && u.username == old_.username
              && RoleName(u.role) == (if ChangesRole(old_, p) then p.role else RoleName(old_.role))
              && u.fullName == (if p.fullName != "" then Some(p.fullName) else old_.fullName)
              && u.passwordHash == (if p.password != "" then hash(p.password) else old_.passwordHash)
              && u.failedLoginAttempts == old_.failedLoginAttempts && u.lockUntil == old_.lockUntil
              && r.result.value.before == r.result.value.after == Snapshot(u.role, u.fullName)
    ensures r.result.Ok? <==>
              && FindUser(users, id).Some?
              && var old_ := FindUser(users, id).value;
                 && (!ChangesRole(old_, p) || (IsUserAdmin(actor.role) && ParseRole(p.role).Some?))
                 && old_.username != ""
                 && (if p.password != "" then hash(p.password) else old_.passwordHash) != ""
  {
    match FindUser(users, id)
    case None => Outcome(users, Err(NotFound("User not found")))
    case Some(u) =>
      if ChangesRole(u, p) && !IsUserAdmin(actor.role) then Outcome(users, Err(Forbidden("Not authorized to change role")))
      else
        match (if ChangesRole(u, p) then ParseRole(p.role) else Some(u.role))
        case None => Outcome(users, Err(ServerError("User validation failed")))
        case Some(role) =>
          var u' := u.(role := role,
                       fullName := if p.fullName != "" then Some(p.fullName) else u.fullName,
                       passwordHash := if p.password != "" then hash(p.password) else u.passwordHash);
          if !UserValid(u') then Outcome(users, Err(ServerError("User validation failed")))
          else
            var before := Snapshot(u'.role, u'.fullName);
            Outcome(SaveUser(users, u'), Ok(UserUpdate(u', before, Snapshot(u'.role, u'.fullName))))
  }

  /** Changing only the full name is open to any requester. */
  lemma FullNameNotGated(users: seq<User>, actor: User, id: UserId, name: string, hash: string -> string)
    requires UsersInvariant(users)
    requires FindUser(users, id).Some?
    ensures UpdateUser(users, actor, id, UserPatch("", name, ""), hash).result.Ok?
  {
  }

  /** An update keeps the id and username indexes and the schema's required fields. */
  lemma UpdateUserKeepsInvariant(users: seq<User>, actor: User, id: UserId, p: UserPatch, hash: string -> string)
    requires UsersInvariant(users)
    ensures UsersInvariant(UpdateUser(users, actor, id, p, hash).users)
  {
    var r := UpdateUser(users, actor, id, p, hash);
    if r.result.Ok? {
      var u := r.result.value.user;
      var found := FindUser(users, id).value;
      var j :| 0 <= j < |users| && users[j] == found;
      assert IndexOfUser(users, u.id) == j;
      SaveUserKeepsInvariant(users, u);
    }
  }

  // ---------------------------------------------------------------- deleteUser

  /** `deleteUser`: 404 for a missing user, then 403 for a non-admin, then 400 for deleting
      oneself. */
  function DeleteUser(users: seq<User>, actor: User, id: UserId): (r: Outcome<UserId>)
    ensures FindUser(users, id).None? ==> r == Outcome(users, Err(NotFound("User not found")))
    ensures FindUser(users, id).Some? && !IsUserAdmin(actor.role) ==>
              r == Outcome(users, Err(Forbidden("Not authorized to delete users")))
    ensures FindUser(users, id).Some? && IsUserAdmin(actor.role) && actor.id == id ==>
              r == Outcome(users, Err(BadRequest("Cannot delete your own user account")))
    ensures r.result.Ok? <==> FindUser(users, id).Some? && IsUserAdmin(actor.role) && actor.id != id
    ensures r.result.Ok? ==> r == Outcome(RemoveUser(users, id), Ok(id))
  {
    match FindUser(users, id)
    case None => Outcome(users, Err(NotFound("User not found")))
    case Some(u) =>
      if !IsUserAdmin(actor.role) then Outcome(users, Err(Forbidden("Not authorized to delete users")))
      else if actor.id == u.id then Outcome(users, Err(BadRequest("Cannot delete your own user account")))
      else Outcome(RemoveUser(users, id), Ok(id))
  }

  /** After a deletion no record has the deleted id, every other record stays, and the
      collection still satisfies its invariant. */
  lemma DeletedUserGone(users: seq<User>, actor: User, id: UserId)
    requires UsersInvariant(users)
    requires DeleteUser(users, actor, id).result.Ok?
    ensures var r := DeleteUser(users, actor, id).users;
      && FindUser(r, id).None?
      && (forall u :: u in users && u.id != id ==> u in r)
      && UsersInvariant(r)
  {
    RemoveUserKeepsInvariant(users, id);
  }
}

=== FILE: wrappers.dfy ===
/** Option and Result, the failure-carrying values every operation of the model returns,
    and the HTTP-level error taxonomy the controllers answer with. */
module Wrappers {

  datatype Option<+T> = None | Some(value: T) {
    function GetOr(default: T): T {
      match this
      case Some(v) => v
      case None => default
    }
  }

  datatype Result<+R> = Ok(value: R) | Err(error: Error) {
    predicate IsFailure() {
      Err?
    }

    function PropagateFailure<U>(): Result<U>
      requires Err?
    {
      Err(error)
    }

    function Extract(): R
      requires Ok?
    {
      value
    }
  }

  /** The error responses of the controllers. Each carries the message of its JSON body. */
  datatype Error =
    | BadRequest(msg: string)     // 400: validation failures, duplicate usernames, empty id lists
    | Unauthorized(msg: string)   // 401: the document controllers' "Not authorized to ..." answers
    | Forbidden(msg: string)      // 403: role checks, lockout, forwarding
    | NotFound(msg: string)       // 404
    | ServerError(msg: string)    // 500: storage or schema-validation failures
    | Unavailable(msg: string)    // 503: database not connected
  {
    function Code(): nat {
      match this
      case BadRequest(_) => 400
      case Unauthorized(_) => 401
      case Forbidden(_) => 403
      case NotFound(_) => 404
      case ServerError(_) => 500
      case Unavailable(_) => 503
    }
  }
}
